=== FILE: README.md ===
# Data-Entry: a verified model of the line-search servers, decoders, quizzes and generators

This project is a Dafny model of the sequential logic in the Data-Entry
repository, with proofs of what that logic promises. The model covers four
groups of programs.

**Line-search servers.** There are seven variants. Each answers one query
per connection with `STRING EXISTS` or `STRING NOT FOUND`. Their steps are
the same:

- The received text is normalised: trailing NUL padding is removed, and in
  most variants surrounding whitespace too (`Protocol.Normalize`).
- A pre-shared-key gate either rejects the query or removes a key prefix.
  The key is the SHA-256 digest of the PSK, or the raw PSK in the prototypes
  (`Protocol.StripKey`, `Protocol.RequireKey`).
- The term is looked up as a whole line of the served file. Three methods
  are used: `splitlines()` membership, a set built once, or a `^…$`
  MULTILINE regular expression.

All three lookups are related to one abstract specification,
`Lines.LineExists`. Each variant is one module:

| module | file |
|---|---|
| `RootServer` | `server.py` |
| `SearchServer2` | `file_search_server2/server.py` |
| `SearchServer` | `file_search_server/server.py` |
| `Algorithm4Server` | the threaded prototype |
| `Algorithm5Server` | the asyncio prototype |
| `Algorithm3Server` | the stripped-line prototype with a reload rule |
| `Algorithm2Server` | the preloading prototype |

The load-once caches (`read_file_once`, `load_file_contents`) are
option-typed state that each handler takes and returns. Reading the file is
a parameter: `None` stands for a read that raises.

**Message decoders.** Both decoders select the words whose numbers are the
triangular numbers 1, 3, 6, 10, ….

- `MsgDecoder1` sorts the lines stably by number, then walks them.
- `MsgDecoder2` builds a dictionary, in which the last line wins, then
  follows the chain of triangular keys.
- `DecodersAgree` proves that the two print the same message when every line
  has two words and no number repeats. It also shows the inputs on which they
  differ.

**Quizzes.** `Quiz` holds what the quiz programs share:

- the wording of the time limit (`format_time`);
- the candidate file (`exam_no,name` lines);
- the exam-number lookup;
- the letter grade and the tallies of the report.

Three modules model the programs themselves:

- `QuizBot` is the Telegram quiz bot, a state machine over conversation
  updates. Time is a parameter: "the time is up" or not.
- `ConsoleQuiz` is the console quiz of `test.py`, with two attempts per
  question. The index of the question at which time runs out is a parameter.
- `Bot3` is the earlier bot's `start_test`.

**Password and PSK generators.**

- `Charset` builds the character set and draws the password. Each
  `random.choice` is a caller-supplied index function `draw`, taken modulo
  the size of the set.
- `PasswordBot` and `Bot4` are the two Telegram generator bots, as transition
  functions from a state and an update to the next state and the messages
  sent. `Bot4` uses `PasswordBot`'s handlers where the two bots share code:
  `handle_response`, `get_alphabet`, `get_alphabet_case`, `get_number` and
  `check_again`.
- `PskGenerator` is the console PSK generator: it reads its answers, builds
  the PSK and runs the `option` loop.

Shared helpers model the Python built-ins the programs use:

- `Text`: `strip`, `split`, `upper`, `lower`, `int`, `str`;
- `Lines`: `splitlines`, `readlines`, the full-line regular expression;
- `Wrappers`: `Option` and `Result`;
- `Dict`: dictionary building;
- `Decoding`: triangular numbers.

## Model

| member | source | states |
|---|---|---|
| Protocol.Normalize | storage_box/file_search_server2/server.py:131 | The received text, once trailing NULs and then surrounding whitespace are removed, has no whitespace at either end |
| Protocol.NormalizeKeeps | storage_box/file_search_server/project_resources/algorithm_4_server.py:89 | Text with no surrounding whitespace and no trailing NUL passes `rstrip('\x00').strip()` unchanged |
| Protocol.StripKey | server.py:138-153 | The gate rejects exactly when authentication is on and the key does not lead the data; otherwise the term is the data after the key, or the whole data when authentication is off and no key leads |
| Protocol.StripKeyRoundTrip | client.py:52 | A query built as `key + input` yields exactly `input`, with authentication on or off |
| Protocol.RequireKey | storage_box/file_search_server/project_resources/algorithm_5_server.py:68-73 | The asyncio gate rejects exactly when authentication is on and the key does not lead; with authentication off the data is never altered |
| Protocol.KeyedQueryIsStripped | storage_box/file_search_server2/server.py:131-144 | A 64-character hex digest followed by a trimmed input survives normalisation whole, so the gate sees exactly what the client sent |
| Protocol.ReadFileOnceStable | storage_box/file_search_server/server.py:102-113 | Once `read_file_once` has returned text, every later call returns the same text, whatever the file holds by then |
| Protocol.ReadFileOnceReadsOnlyWhenEmpty | storage_box/file_search_server/project_resources/algorithm_4_server.py:64-74 | The file is consulted only while nothing is cached; a cached text is returned and kept; a failed read caches nothing |
| RootServer.HandleClient | server.py:133-169 | The reply is one of EXISTS, NOT FOUND, the PSK-mismatch message or the failure reply; it is the mismatch message exactly when authentication is on and the NUL-trimmed data does not start with PSK_HASH; past the gate it is the failure reply exactly when the needed file read or loaded set is missing, and otherwise the verdict of whether the term is a line of the file read (reread mode) or of the loaded set (cached mode) |
| RootServer.RejectsWithoutKey | server.py:138-144 | With authentication on and no digest in front, the reply is the mismatch message whatever the file or cache holds, so no lookup decides it |
| RootServer.KeyedQueryRoundTrip | server.py:147-165 | For a client query `PSK_HASH + input`, the term is `input`, and the reread verdict is whether `input` is a line of the file |
| RootServer.AuthOffSearchesData | server.py:149-153 | With authentication off and no digest in front, the term is the NUL-trimmed data unchanged |
| RootServer.SpacesAreKept | server.py:133-134 | Only NULs are trimmed: " x " is found in a file whose line is " x ", and not in one whose line is "x" |
| RootServer.LoadFileContents | server.py:72-86 | A loaded set is kept; otherwise the file's lines become the set; a failed read is the exit |
| RootServer.LoadIdempotent | server.py:75-80 | Loading a second time changes nothing, whatever the file holds by then |
| RootServer.ModesAgree | server.py:158-169 | For an unchanged file, the reread verdict (`splitlines` membership) and the cached verdict (membership in the loaded set) are the same reply for every query |
| RootServer.Startup | server.py:54-60 | The server runs exactly when the file reads, the path is non-empty and a PSK is given under authentication; the set it runs with holds exactly the file's lines |
| SearchServer2.HandleClient | storage_box/file_search_server2/server.py:131-178 | The reply is the mismatch message exactly when authentication is on and the normalised data lacks the digest; it is the failure reply exactly when the needed file read or loaded set is missing; otherwise it is the verdict of whether the term is a line of the file read (reread mode) or of the loaded set (cached mode) |
| SearchServer2.KeyedQueryRoundTrip | storage_box/file_search_server2/server.py:144-150 | A client query `PSK_HASH + input` for a trimmed input searches exactly `input`, and is answered by whether `input` is a line |
| SearchServer2.LogSettings | storage_box/file_search_server2/server.py:69-91 | The server stops exactly on an empty PSK under authentication or an empty path; otherwise a loaded set is kept, or the file's lines are loaded, or a failed read leaves the set empty |
| SearchServer2.LoadTestFile | storage_box/file_search_server2/tests/test_server.py:240-248 | The three-line test file loads as a set of exactly its three lines |
| SearchServer2.PartialMatchNotFound | storage_box/file_search_server2/tests/test_server.py:176-184 | "test", a proper prefix of the line "test data", is NOT FOUND |
| SearchServer2.FailedLoadAnswersBusy | storage_box/file_search_server2/server.py:89-91 | After a failed load at start-up, a cached-mode server answers every query that passes the gate with the generic failure reply |
| SearchServer2.ModesAgree | storage_box/file_search_server2/server.py:155-164 | For an unchanged file, the reread and cached modes give the same reply to every query |
| SearchServer.HandleClient | storage_box/file_search_server/server.py:129-173 | The reply is "One or more invalid input." exactly when the normalised text is empty; it is the mismatch message exactly when the text is non-empty, authentication is on and the digest does not lead; past both checks it is the failure reply exactly when the text to search (a fresh read, or what `read_file_once` gives) is missing, and otherwise the full-line regular-expression verdict on that text; a cached text is kept, and an empty cache is filled by the read |
| SearchServer.BlankInputRefused | storage_box/file_search_server/tests/test_server.py:96-104 | An empty message, or one that is only whitespace and NULs, gets the invalid-input reply and leaves the cache as it was |
| SearchServer.KeyedQueryFindsLine | storage_box/file_search_server/server.py:143-162 | A query `PSK_HASH + input`, for a non-empty trimmed input without '\n', is answered by whether `input` is a line of the file, in either mode |
| SearchServer.PartialMatchNotFound | storage_box/file_search_server/tests/test_server.py:244-252 | "test" against the file "test data" is NOT FOUND |
| SearchServer.FullLineFound | storage_box/file_search_server/tests/test_server.py:213-221 | "test data" against the file "test data" is EXISTS |
| SearchServer.KeyOnlyQueryFindsEmptyLine | storage_box/file_search_server/server.py:131-143 | As written: a query that is only the digest passes the empty check, leaves the empty term, and is EXISTS for the file "a\n", which has no empty line |
| SearchServer.TwoLineQueryFound | storage_box/file_search_server/server.py:160-161 | As written: the term "a\nb" is EXISTS for the file "a\nb" although it is no line of it |
| SearchServer.HandleClientIntended | storage_box/file_search_server/server.py:129-162 | Corrected handler: an empty term left after the key is removed is refused as invalid input; for a non-empty term the reply is the failure reply exactly when the text to search is missing, and otherwise the verdict of whether the term is a line of that text |
| SearchServer.IntendedAgreesOnOrdinaryTerms | storage_box/file_search_server/server.py:160-162 | For every query whose term is non-empty and holds no '\n', the code as written and the corrected handler give the same outcome |
| SearchServer.IntendedRefusesKeyOnlyQuery | storage_box/file_search_server/server.py:131-133 | The corrected handler answers the digest-only query with the invalid-input reply |
| SearchServer.SettingsAgreeWithSecondServer | storage_box/file_search_server/server.py:69-74 | This server refuses to start on exactly the settings the second file-search server refuses |
| Algorithm4Server.HandleClient | storage_box/file_search_server/project_resources/algorithm_4_server.py:84-124 | The reply is the mismatch message exactly when authentication is on and the raw PSK does not lead the normalised text; past the gate it is the failure reply exactly when the text to search is missing, and otherwise the full-line regular-expression verdict on that text; a cached text is kept, and an empty cache is filled by the read |
| Algorithm4Server.AgreesWithSearchServer | storage_box/file_search_server/project_resources/algorithm_4_server.py:89-112 | For non-blank input, the prototype behaves exactly as the first file-search server keyed by the raw PSK |
| Algorithm4Server.BlankInputSearched | storage_box/file_search_server/project_resources/algorithm_4_server.py:89-111 | Blank input is not refused: with authentication off it becomes the empty term and is EXISTS for "a\n", where the later server refuses it |
| Algorithm4Server.ClientQueryFindsLine | storage_box/file_search_server/project_resources/algorithm_4_client.py:28 | The prototype client's query `psk + input` is answered by whether `input` is a line of the file |
| Algorithm5Server.HandleClient | storage_box/file_search_server/project_resources/algorithm_5_server.py:62-100 | The client receives either the mismatch message followed by the failure reply, or one reply among EXISTS, NOT FOUND and failure; two replies exactly on a mismatch; past the gate the single reply is the failure reply when the text to search is missing, and otherwise the full-line regular-expression verdict on that text |
| Algorithm5Server.AgreesWithAlgorithm4WhenAuthenticating | storage_box/file_search_server/project_resources/algorithm_5_server.py:68-73 | With authentication on, the asyncio reply is the threaded prototype's, with the failure reply appended after a mismatch, and the same cache |
| Algorithm5Server.AuthOffKeepsKey | storage_box/file_search_server/project_resources/algorithm_5_server.py:68-75 | With authentication off a leading key stays in the term: "kx" is NOT FOUND in the file "x", where the threaded prototype finds it |
| Algorithm3Server.FindStrippedLine | storage_box/file_search_server/project_resources/algorithm_3_server.py:173-176 | The loop finds the string exactly when some line, stripped, equals it |
| Algorithm3Server.SearchFile | storage_box/file_search_server/project_resources/algorithm_3_server.py:159-176 | The file is re-read exactly when rereading is on or nothing is stored; otherwise the stored lines are reused unchanged; the result is stripped-line equality over the lines used |
| Algorithm3Server.HasStrippedLineOfFile | storage_box/file_search_server/project_resources/algorithm_3_server.py:171-174 | Stripping the `readlines()` lines finds the same strings as stripping the file's lines |
| Algorithm3Server.HandleClient | storage_box/file_search_server/project_resources/algorithm_3_server.py:138-156 | The reply is EXISTS or NOT FOUND exactly by the search for the stripped text, and the failure reply exactly when the needed read fails; a read replaces `file_contents` with the file's lines, and otherwise the cache is kept |
| Algorithm3Server.SpacesInFileIgnored | storage_box/file_search_server/project_resources/algorithm_3_server.py:174 | The file "a \n" holds "a" for this server, but not for the top-level server |
| Algorithm2Server.Preload | storage_box/file_search_server2/project_resources/algorithm_2_server.py:139 | The preloaded list exists exactly when the file reads, and holds exactly the file's stripped lines |
| Algorithm2Server.FindLine | storage_box/file_search_server2/project_resources/algorithm_2_server.py:132-135 | The loop finds the string exactly when it is one of the lines iterated |
| Algorithm2Server.SearchFile | storage_box/file_search_server2/project_resources/algorithm_2_server.py:118-135 | Reread mode searches a fresh pass of `file_reader` and raises when the file cannot be opened; cached mode searches the preloaded list |
| Algorithm2Server.HandleClient | storage_box/file_search_server2/project_resources/algorithm_2_server.py:98-115 | The reply is the verdict for the stripped text, and the failure reply exactly when a reread cannot open the file |
| Algorithm2Server.VerdictIsLineMembership | storage_box/file_search_server2/project_resources/algorithm_2_server.py:127-130 | For a file whose lines carry no surrounding whitespace, both modes answer whether the stripped text is a line of the file |
| Lines.SplitLines | server.py:162 | No line returned by `splitlines()` holds '\n', and there are no more lines than characters |
| Lines.SplitJoinLines | storage_box/file_search_server2/server.py:88 | Splitting a file written line by line, each line followed by '\n', gives back exactly those lines |
| Lines.ReadLines | storage_box/file_search_server/project_resources/algorithm_3_server.py:171 | `readlines()` lines are non-empty and concatenate back to the file text |
| Lines.ReadLinesStripAgree | storage_box/file_search_server2/project_resources/algorithm_2_server.py:30-32 | Once stripped, the lines read with their '\n' and the lines of `splitlines()` agree line for line, and there are as many |
| Lines.LineSet | server.py:80 | `set(contents.splitlines())` holds exactly the terms that are lines of the file |
| Lines.RegexAgreesWithLines | storage_box/file_search_server/server.py:160-161 | For a non-empty term without '\n', the MULTILINE `^term$` search succeeds exactly when the term is a line of the file |
| Lines.EmptyTermMatchesAfterFinalNewline | storage_box/file_search_server/project_resources/algorithm_4_server.py:111 | The empty term matches `^$` at the end of "a\n" although that file has no empty line |
| Lines.NewlineTermSpansTwoLines | storage_box/file_search_server/project_resources/algorithm_5_server.py:83 | A term holding '\n' matches two consecutive lines, yet is no single line |
| Lines.StrippedLines | storage_box/file_search_server2/project_resources/algorithm_2_server.py:28-32 | `file_reader` yields one stripped line per line read |
| Lines.StrippedAgreesWithLines | storage_box/file_search_server2/project_resources/algorithm_2_server.py:132-135 | When no line has surrounding whitespace, stripped-line equality and line membership agree on every term |
| Text.RStripChar | server.py:133-134 | `rstrip('\x00')` removes exactly the trailing run of NULs: what is left is a prefix not ending in NUL, and only NULs were cut |
| Text.Strip | storage_box/file_search_server/server.py:129 | `strip()` leaves a string with no whitespace at either end |
| Text.StripTrims | storage_box/file_search_server/project_resources/algorithm_3_server.py:143 | What `strip()` removes is whitespace at the two ends and nothing else |
| Text.StripIdempotent | workspace/quiz/quiz_bot.py:157 | Stripping twice is stripping once |
| Text.SplitOn | workspace/quiz/quiz_bot.py:93 | `split(',')` gives at least one field, and no field holds a comma |
| Text.SplitOnCount | workspace/quiz/quiz_bot.py:93 | `split(',')` gives one more field than there are commas |
| Text.SplitOnTwoFields | workspace/telegram_bot/test.py:56 | A two-field `split(',')` cuts the line at its only comma |
| Text.SplitWords | workspace/msg_decoder1.py:8 | `split()` yields words: non-empty and without whitespace |
| Text.SplitJoinSpaces | workspace/msg_decoder1.py:30 | Splitting a single-space join of words gives the words back |
| Text.SplitWordsStrip | storage_box/msg_decoder/msg_decoder2.py:12 | `line.strip().split()` is `line.split()` |
| Text.Upper | workspace/telegram_bot/test.py:159 | `upper()` keeps the length and upper-cases each character |
| Text.Lower | storage_box/file_search_server2/project_resources/psk_generator.py:16-19 | `lower()` keeps the length and lower-cases each character |
| Text.ParseIntToString | storage_box/password_generator/password_generator_bot.py:77 | `int(str(n))` is `n` for every integer |
| Wrappers.CollectFirstError | workspace/msg_decoder1.py:11 | When a step raises, the error reported is that of the first step that fails, all steps before it having succeeded |
| Dict.FromPairsKeys | workspace/quiz/quiz_bot.py:92-94 | The keys of a dictionary filled by assignments are exactly the keys assigned |
| Dict.FromPairsLastWins | storage_box/msg_decoder/msg_decoder2.py:15 | Each key holds the value of the last assignment to it |
| Decoding.TriClosedForm | workspace/msg_decoder1.py:17-27 | The k-th number the counters visit, 1 + 2 + … + k, is k(k+1)/2 |
| Decoding.TriIncreasing | storage_box/msg_decoder/msg_decoder2.py:22 | The triangular numbers strictly increase |
| MsgDecoder1.ParseLine | workspace/msg_decoder1.py:8-11 | A line's entry is its `split()` words and their first number; IndexError exactly for a line without words |
| MsgDecoder1.ParseEntries | workspace/msg_decoder1.py:8-11 | The entries exist exactly when every line's key parses, one entry per line |
| MsgDecoder1.ParseEntriesFirstError | workspace/msg_decoder1.py:11 | The error raised is that of the first line whose key fails |
| MsgDecoder1.InsertSorted | workspace/msg_decoder1.py:11 | Inserting an entry keeps the numbers in order |
| MsgDecoder1.Sort | workspace/msg_decoder1.py:11 | The sort orders the entries by number and is a permutation of them |
| MsgDecoder1.FirstWithSpec | workspace/msg_decoder1.py:23 | An entry with number n is found exactly when one exists, and it is the earliest such entry |
| MsgDecoder1.SortKeepsFirst | workspace/msg_decoder1.py:11 | The sort is stable: for every number, the first line carrying it comes first after sorting |
| MsgDecoder1.MessageAt | workspace/msg_decoder1.py:21-27 | The j-th word printed is the second word of the first line numbered with the (j+1)-th triangular number |
| MsgDecoder1.MessageEnd | workspace/msg_decoder1.py:23-27 | Decoding stops at the first triangular number no line carries |
| MsgDecoder1.MessageLength | workspace/msg_decoder1.py:21-24 | At most one word per line is printed |
| MsgDecoder1.SortKeepsMessage | workspace/msg_decoder1.py:11-27 | The message depends only on the first line with each number, so sorting does not change it |
| MsgDecoder1.WalkIsMessage | workspace/msg_decoder1.py:21-27 | The loop over sorted entries, with its two counters, reads exactly the triangular-number message |
| MsgDecoder1.DecodeAgreesWithMessage | workspace/msg_decoder1.py:17-27 | The loop run over the sorted lines gives the sort-free message |
| MsgDecoder1.CollectWords | workspace/msg_decoder1.py:14-27 | The for-loop appends exactly the words of the walk, or raises its IndexError |
| MsgDecoder1.DecodeMessage | workspace/msg_decoder1.py:1-30 | The printed text is the triangular-number message joined by spaces, or the error of the first malformed line |
| MsgDecoder2.Pair | storage_box/msg_decoder/msg_decoder2.py:12-13 | A line enters the dictionary exactly when it has two words, and the pair is those two words |
| MsgDecoder2.RowOf | storage_box/msg_decoder/msg_decoder2.py:12-15 | A line is ignored exactly when it does not have two words; a two-word line with a non-numeric first word is the ValueError |
| MsgDecoder2.AddRow | storage_box/msg_decoder/msg_decoder2.py:13-15 | One pass of the loop body adds the line's number, overwriting an earlier word, and nothing else |
| MsgDecoder2.BuildMapFails | storage_box/msg_decoder/msg_decoder2.py:14 | The loop raises exactly when some two-word line's first word is not a number |
| MsgDecoder2.BuildMapKeys | storage_box/msg_decoder/msg_decoder2.py:11-15 | The dictionary holds exactly the numbers of the two-word lines |
| MsgDecoder2.BuildMapLastWins | storage_box/msg_decoder/msg_decoder2.py:15 | Each number holds the word of the last two-word line carrying it |
| MsgDecoder2.ChainShrinks | storage_box/msg_decoder/msg_decoder2.py:20-22 | Each step leaves strictly fewer dictionary numbers to visit, so the while loop terminates |
| MsgDecoder2.ChainAt | storage_box/msg_decoder/msg_decoder2.py:19-22 | The j-th word is the one under the (j+1)-th triangular number |
| MsgDecoder2.ChainEnd | storage_box/msg_decoder/msg_decoder2.py:20 | The walk stops at the first triangular number the dictionary lacks |
| MsgDecoder2.Collect | storage_box/msg_decoder/msg_decoder2.py:18-22 | The while loop collects the words under 1, 3, 6, … in order and stops at the first missing one |
| MsgDecoder2.ReadAndDecode | storage_box/msg_decoder/msg_decoder2.py:1-24 | The function raises ValueError exactly when some two-word line has a non-numeric first word; otherwise it prints the chain |
| DecodersAgree.EntryOfRow | storage_box/msg_decoder/msg_decoder2.py:12-14 | A line the second decoder keeps gives the first decoder an entry with the same number and word |
| DecodersAgree.MessageIsChain | storage_box/msg_decoder/msg_decoder2.py:19-22 | When the first decoder's first lines and the second's dictionary hold the same words, the message is the chain |
| DecodersAgree.AgreeOnDistinctNumbers | workspace/msg_decoder1.py:17-27 | When every line has two words and no number repeats, the two decoders print the same message |
| DecodersAgree.RepeatedNumberSeparates | storage_box/msg_decoder/msg_decoder2.py:15 | For "1 a" then "1 b", the first decoder prints a and the second prints b |
| DecodersAgree.WordlessLineSeparates | storage_box/msg_decoder/msg_decoder2.py:13 | A line without words stops the first decoder, and the second decoder skips it |
| Quiz.Describe | workspace/quiz/quiz_bot.py:62-74 | Below 60 the seconds as given; from 60 to 3599 the whole minutes; from 3600 the whole hours, with the minutes shown exactly when the remainder holds a whole minute |
| Quiz.DescribeDropsSeconds | workspace/telegram_bot/test.py:28-34 | From a minute on, the leftover seconds of the limit are never shown |
| Quiz.RenderReadBack | workspace/quiz/quiz_bot.py:65-74 | Every sentence `format_time` writes reads back as the phrase it renders |
| Quiz.FormatTimeReadBack | workspace/telegram_bot/bot3.py:38-50 | The sentence for a limit determines which wording and numbers were chosen |
| Quiz.ParseCandidateUnpacks | workspace/quiz/quiz_bot.py:93-94 | A candidate line unpacks exactly when it holds one comma |
| Quiz.ParseCandidateFields | workspace/telegram_bot/bot3.py:69-70 | The exam number is the stripped text before the comma, and the name the stripped, upper-cased text after it |
| Quiz.LoadCandidatesOk | workspace/quiz/quiz_bot.py:90-97 | `candidate_info` is built exactly when every line unpacks, and otherwise the program stops |
| Quiz.CandidatesOk | workspace/quiz/quiz_bot.py:91-93 | The loop over any list of lines builds the dictionary exactly when every line unpacks |
| Quiz.CandidatesKeys | workspace/quiz/quiz_bot.py:91-94 | Over any list of lines, an exam number is a key exactly when some line carries it |
| Quiz.CandidatesLastWins | workspace/quiz/quiz_bot.py:91-94 | Over any list of lines, a key's name comes from the last line that carries it |
| Dict.FromResultsLastWins | workspace/quiz/quiz_bot.py:91-94 | When every step succeeds, a key is present exactly when some step assigns it, and holds the value of the last step that does |
| Quiz.LoadCandidatesLastWins | workspace/quiz/quiz_bot.py:92-94 | An exam number is a key exactly when some line carries it, and its name is that of the last such line |
| Quiz.CandidateKeysStripped | workspace/telegram_bot/test.py:55-57 | Every exam number in `candidate_info` is stripped |
| Quiz.HandleResponse | workspace/quiz/quiz_bot.py:157-164 | The reply is looked up stripped; the candidate is enrolled exactly when the number is a key with a non-empty name, and is greeted by that name |
| Quiz.HandleResponseIgnoresPadding | workspace/telegram_bot/test.py:116-121 | Whitespace around the typed exam number does not change the lookup |
| Quiz.EnrolledFromFile | workspace/telegram_bot/bot3.py:124-133 | A reply naming the exam number of the last line for it finds that line's name, unless the name is empty |
| Quiz.GradeFor | workspace/quiz/quiz_bot.py:272-281 | A exactly from 70%, at least B from 60%, at least C from 50%, at least D from 45% of the questions |
| Quiz.GradeMonotone | workspace/telegram_bot/test.py:181-190 | A lower score never earns a better grade |
| Quiz.GradeExtremes | workspace/quiz/quiz_bot.py:272-281 | Full marks earn an A; no correct answer out of at least one question earns an F |
| Quiz.EndTest | workspace/quiz/quiz_bot.py:266-270 | Attempted plus unattempted is the total; score plus failed is the attempted count; the grade is that of the score |
| Quiz.EndTestSane | workspace/telegram_bot/test.py:195-196 | A score within the attempted questions, within the test, gives a report of non-negative counts |
| QuizBot.OptionRows | workspace/quiz/quiz_bot.py:84-85 | One row of options per line of the options file, each line split at its commas |
| QuizBot.LoadTest | workspace/quiz/quiz_bot.py:77-97 | Loading succeeds exactly when the candidate file loads; QUESTIONS and ANSWERS are the lines of their files, OPTIONS holds, for each line of its file, that line split at its commas, and TIME_LIMIT is the given limit |
| QuizBot.CallbackData | workspace/quiz/quiz_bot.py:225-228 | A button sends its option's text up to the first colon, which holds no colon |
| QuizBot.Buttons | workspace/quiz/quiz_bot.py:224-229 | Four buttons, captioned by the first four options, each sending its option's data |
| QuizBot.AskQuestion | workspace/quiz/quiz_bot.py:198-237 | The session is untouched; in time while questions remain, the one reply is the question's number, text and its four buttons; when the time is up the reply is "time up" followed by the report; with no question left the report is the last reply and the conversation ends; IndexError, with nothing sent, exactly when OPTIONS lacks four options for the question |
| QuizBot.HandleResponseStep | workspace/quiz/quiz_bot.py:155-176 | The conversation moves on to START exactly when the candidate is enrolled, storing number and name; otherwise it ends |
| QuizBot.StartTest | workspace/quiz/quiz_bot.py:179-195 | START sets both counters to 0 and first sends the start message; in time, with a first question and its four options, it then sends question 1 and waits for the answer; when the time is up it sends "time up" and the report with no question attempted; with no questions it sends the report; other data changes nothing |
| QuizBot.HandleAnswer | workspace/quiz/quiz_bot.py:240-259 | The score rises by one exactly when the press is the answer; the question number always rises by one; IndexError when ANSWERS has no line for the question |
| QuizBot.AnswerKeepsInv | workspace/quiz/quiz_bot.py:248-259 | An answer keeps score ≤ question number, keeps the open question within the test, and every report sent is made of counts |
| QuizBot.StartKeepsInv | workspace/quiz/quiz_bot.py:192-195 | Starting the test keeps the invariant and reports only counts |
| QuizBot.HandleKeepsInv | workspace/quiz/quiz_bot.py:311-319 | Every update through the conversation keeps the invariant, and every report sent is made of counts |
| QuizBot.AnswerOne | workspace/quiz/quiz_bot.py:248-257 | One press on an open question scores exactly when it matches and moves to the next question |
| QuizBot.AnswersScore | workspace/quiz/quiz_bot.py:248-259 | After answering in time, the score has grown by the number of presses that match the answers at their positions; the question number has grown by the number of presses; the test stays open until the last question |
| QuizBot.LastAnswerReports | workspace/quiz/quiz_bot.py:262-289 | The press that answers the last question sends the report of the session it leaves behind |
| QuizBot.WholeTest | workspace/quiz/quiz_bot.py:192-287 | A whole test taken in time ends with the report whose score is the number of presses that match ANSWERS, with every question attempted |
| ConsoleQuiz.Score | workspace/telegram_bot/test.py:158-165 | Each question adds at most one to the score |
| ConsoleQuiz.AskAll | workspace/telegram_bot/test.py:135-210 | The loop fails exactly when there are no questions (NameError) or it runs past OPTIONS, ANSWERS or the input; otherwise the report counts the questions reached and their score, it is sane, and the test finished in time exactly when time did not run out before the end |
| ConsoleQuiz.RunQuiz | workspace/telegram_bot/test.py:110-210 | An unknown exam number ends the quiz; an answer other than START, in any case, ends it unstarted; otherwise the quiz runs as `AskAll` states |
| ConsoleQuiz.RepeatedAttemptIsBotScore | workspace/telegram_bot/test.py:159-162 | When the second attempt repeats the first, the console's score is the bot's: the number of upper-cased answers that match ANSWERS |
| Bot3.StartTest | workspace/telegram_bot/bot3.py:144-157 | START sets the score to 0 and the question number to 1 and opens the questions; other data changes nothing |
| Bot3.StartsOneAhead | workspace/telegram_bot/bot3.py:154-155 | From the same state, this bot starts with the same score and a question number one ahead of the later bot's |
| Bot3.OtherDataIgnored | workspace/telegram_bot/bot3.py:148 | Pressing anything but START changes nothing, in this bot or the later one |
| Charset.LettersMembers | storage_box/password_generator/password_generator_bot.py:190-198 | The letters for "lower" are a-z, for "upper" A-Z, and for "mixed" or any other answer all ASCII letters |
| Charset.Build | storage_box/password_generator/password_generator_bot.py:189-202 | The character set is empty exactly when no kind of character was answered "yes" |
| Charset.BuildMembers | storage_box/file_search_server2/project_resources/psk_generator.py:39-58 | The set holds exactly the letters of the case chosen, the digits and the specials "!@#$%&?", each only for the answer "yes" |
| Charset.Password | storage_box/password_generator/password_generator_bot.py:210 | The password has length max(length, 0), and every character is from the set |
| Charset.PasswordReachesAll | storage_box/file_search_server2/project_resources/psk_generator.py:67 | Every string of that length over the set is produced by some sequence of choices |
| PasswordBot.StartAnswer | storage_box/password_generator/password_generator_bot.py:61-66 | "yes" asks for the length, "no" ends, any other data changes nothing |
| PasswordBot.GetAlphabet | storage_box/password_generator/password_generator_bot.py:77-92 | An integer length is stored and alphabets are asked for; anything else stays on the length question |
| PasswordBot.GetNumber | storage_box/password_generator/password_generator_bot.py:121-137 | The press is stored as the alphabet case, and the numbers question follows |
| PasswordBot.GetAlphabetCase | storage_box/password_generator/password_generator_bot.py:105-118 | The press is stored as the alphabet answer; "yes" asks for the case; any other answer goes straight on to the numbers question, storing the same press as the case |
| PasswordBot.GetSpecialCharacters | storage_box/password_generator/password_generator_bot.py:140-158 | The press is stored as the numbers answer, and the special-characters question follows |
| PasswordBot.Generate | storage_box/password_generator/password_generator_bot.py:175-221 | With no characters chosen, the length is asked again; otherwise a password of max(length, 0) characters from the set, then the offer of another; the answers are kept |
| PasswordBot.SaveSpecial | storage_box/password_generator/password_generator_bot.py:161-172 | The press becomes the special-characters answer and generation follows from the updated answers |
| PasswordBot.CheckAnswer | storage_box/password_generator/password_generator_bot.py:235-246 | "yes" asks about the previous criteria, "no" ends, any other data changes nothing |
| PasswordBot.PreviousAnswer | storage_box/password_generator/password_generator_bot.py:260-264 | "yes" generates again from the stored answers; "no" asks for a new length; any other data changes nothing |
| PasswordBot.HandleKeepsInv | storage_box/password_generator/password_generator_bot.py:285-299 | In every update, whenever the bot offers another password, the stored answers choose some characters |
| PasswordBot.ReuseAlwaysGenerates | storage_box/password_generator/password_generator_bot.py:260-261 | So "yes" to the previous criteria always produces a password over the same set |
| PasswordBot.DeclineSkipsCase | storage_box/password_generator/password_generator_bot.py:107-118 | Declining alphabets skips the case question, and the set then holds no letter |
| Bot4.GetSpecials | workspace/telegram_bot/bot4.py:107-118 | The press is stored as the numbers answer, and the next press generates |
| Bot4.GenerateFrom | workspace/telegram_bot/bot4.py:126-164 | The length is asked again ("Empty input!") exactly when the set is empty and the length is positive; otherwise a password of max(length, 0) characters from the set, then CHECK_AGAIN |
| Bot4.GeneratePass | workspace/telegram_bot/bot4.py:121-124 | The pressed data first overwrites the special-characters answer |
| Bot4.PreviousAnswer | workspace/telegram_bot/bot4.py:187-196 | As written: "yes" ends in CHECK_AGAIN with the special-characters answer set to "yes"; "no" asks for a new length |
| Bot4.SpecialsPressAgrees | workspace/telegram_bot/bot4.py:121-160 | For a non-empty set, the special-characters press generates exactly as the other bot's save-and-generate step |
| Bot4.ReuseAddsSpecials | workspace/telegram_bot/bot4.py:191-193 | As written: reusing answers that declined special characters draws from a set holding '!', which the stored answers' set lacks |
| Bot4.PreviousAnswerIntended | workspace/telegram_bot/bot4.py:187-196 | Corrected: "yes" generates from the stored answers unchanged and goes where generation goes |
| Bot4.IntendedReusesSet | storage_box/password_generator/password_generator_bot.py:260-261 | The corrected reuse behaves exactly as the other bot's for a non-empty set |
| Bot4.IntendedAgreesWhenSpecialsChosen | workspace/telegram_bot/bot4.py:124 | When special characters were chosen anyway, the code as written and the corrected reuse agree |
| PskGenerator.ReadCriteria | storage_box/file_search_server2/project_resources/psk_generator.py:9-19 | The answers are read exactly when `int()` accepts the length, which is then the length; the lower-cased answers fill the alphabet, number, special-character and case fields, in the order the questions are asked |
| PskGenerator.AnswersIgnoreCase | storage_box/file_search_server2/project_resources/psk_generator.py:16-19 | Upper-case answers are read as the lower-case ones |
| PskGenerator.GeneratePsk | storage_box/file_search_server2/project_resources/psk_generator.py:39-68 | No PSK exactly when no kind of character was chosen, whatever the length; otherwise max(length, 0) characters from the set |
| PskGenerator.OptionStep | storage_box/file_search_server2/project_resources/psk_generator.py:90-100 | A round stops exactly when the answer is not "yes"; it restarts on "no" to the previous criteria, and regenerates on "yes" |
| PskGenerator.OptionLoop | storage_box/file_search_server2/project_resources/psk_generator.py:89-92 | The loop runs one round per answer pair and stops at the first round whose answer is not "yes" |

## Left out

- Sockets, threads, asyncio, SSL contexts, connection timeouts and `close()`: each connection is one call of a pure handler. The always-closed connection is not modelled.
- SHA-256: `PSK_HASH` is an opaque string. Round-trip lemmas need only its shape: 64 lower-case hex digits.
- The client scripts: their one piece of logic, `prefix + input`, appears as the hypothesis of the round-trip lemmas. The PBKDF2/HMAC client is left out, because it calls a foreign crypto library.
- `recv(1024)` truncation and UTF-8 decoding: the received data is modelled as already-decoded text. server.py and the two `server.py` files under storage_box decode with replacement, so nothing is lost for them. algorithm_2_server.py (line 100), algorithm_3_server.py (line 140), algorithm_4_server.py (line 89) and algorithm_5_server.py (line 66) decode strictly. Their UnicodeDecodeError on invalid UTF-8, which ends in the generic failure reply, is not modelled.
- Logging, printing, execution-time measurement and configparser loading.
- Telegram API calls: replies are modelled as abstract messages, not their wording.
- The quizzes' remaining-time warnings and `datetime`: time is a parameter.
- Excel writing (`save_result`).
- The float pipe-weight calculators.
- Lines.SplitLines: splits on '\n' only. The model assumes the file holds none of `splitlines()`'s other separators ('\r', '\x0b', '\x0c', '\x1c'–'\x1e', '\x85', '\u2028', '\u2029').
- Text.Strip: strips only the six ASCII whitespace characters ' ', '\t', '\n', '\r', '\x0b' and '\x0c'. Python's `strip()` also removes '\x1c'–'\x1f' and non-ASCII whitespace; the model keeps them.
- Text.SplitWords: splits only at the same six ASCII whitespace characters as `Text.Strip`. Python's `split()` also splits at '\x1c'–'\x1f' and at non-ASCII whitespace such as '\u00a0', which the model keeps inside words, so a line like "1\u00a0a" is one word here and two in Python.
- Text.Upper: maps only the ASCII letters; non-ASCII text is left as it is.
- Text.Lower: maps only the ASCII letters, as `Text.Upper` does.
- Text.ParseInt has no row: it is Python's `int()` simplified to surrounding whitespace, an optional sign and ASCII digits. Underscores and non-ASCII digits are not accepted.
- Quiz.GradeFor: uses the exact fractions 7/10, 6/10, 5/10 and 9/20. Python compares against floats such as `0.45 * n`, which can differ from the exact fraction at a boundary.
- Charset.Password: `random.choice` is a caller-supplied index function taken modulo the size of the set. Randomness and its distribution are not modelled.
- The telegram bots read unset `user_data` keys with `.get()`, giving `None`. The model reads them as "" or 0. In particular, `range(None)` raising is not modelled.
- Some handlers answer the same callback query twice, and the model assumes the second `query.answer()` succeeds. This happens in `get_alphabet_case`'s "no" path, which calls `get_number` (password_generator_bot.py line 118, bot4.py line 90). It also happens in bot4's `previous_criteria`, which answers at line 189 and then calls `generate_password`, which answers again at line 123. Bot4.PreviousAnswer relies on that second answer: if it raised, the handler would stop before line 124 overwrites the specials answer, and the conversation would stay at the previous-criteria question with the stored answers unchanged.
- bot3.py never starts polling: `main` refers to `handle_answer` (line 178), which the file does not define, so it raises NameError. Only bot3's own `start_test` is modelled; its `format_time`, candidate parsing and `handle_response` are the ones `Quiz` models.
- psk_generator.py restarts by calling `main()` from inside `main`, `generate_password` and `option`. The model records a restart as `None` or a `Restart` action; the inputs of the nested run are not modelled. End-of-input on `input()` is not modelled.
- test.py raises EOFError, reported as "Error handing test", when the input ends at the exam-number prompt (line 116) or the START prompt (line 127). ConsoleQuiz.RunQuiz takes both lines as given; only end-of-input during the questions is modelled.
- test.py reads the answers file twice (lines 47-51). Reading it again gives the same list, so this is modelled once.
- `load_files` in the quizzes: a missing file is modelled as present text; only the candidate-file unpacking error is modelled as the exit.

## Findings

| source | as written | input that shows it | evidently intended | confidence | as-written member | corrected member |
|---|---|---|---|---|---|---|
| storage_box/file_search_server/server.py:131-143 | The empty-input check runs before the key is removed, so a query that is only the digest leaves the empty term. `^$` then matches after the file's final '\n'. | The query `psk_hash` alone, against the file "a\n", is answered STRING EXISTS. | Refuse an empty term after the key is removed, or answer NOT FOUND, because the file has no empty line. | not executed | SearchServer.KeyOnlyQueryFindsEmptyLine | SearchServer.HandleClientIntended |
| storage_box/file_search_server/server.py:160-161 | `re.escape` keeps '\n' literal, so the MULTILINE `^term$` matches a term spanning two lines. | The query `psk_hash + "a\nb"`, against the file "a\nb", is answered STRING EXISTS. | EXISTS only for a single whole line of the file. | not executed | SearchServer.TwoLineQueryFound | SearchServer.HandleClientIntended |
| workspace/telegram_bot/bot4.py:191-193 | "yes" to the previous criteria calls `generate_password` with the same callback query. Its data, "yes", overwrites the stored special-characters answer at line 124. This assumes the second `query.answer()` on that query, at line 123, succeeds. | Answers: length 8, alphabets "yes", case "lower", numbers "no", specials "no". Then "yes" to another password and "yes" to the previous criteria. The new password is drawn from a-z plus "!@#$%&?". | Regenerate from the stored answers unchanged, as password_generator_bot.py:260-261 does. | not executed | Bot4.ReuseAddsSpecials | Bot4.PreviousAnswerIntended |

=== FILE: algorithm2_server.dfy ===
/**
 * The SSL server of the second project (project_resources/algorithm_2_server.py):
 * `file_reader` yields every line stripped, the list of them is built once
 * before the server starts, and `search_file` compares the stripped received
 * text with those lines or with a fresh pass of the reader.
 */
module Algorithm2Server {

  import opened Wrappers
  import opened Text
  import opened Lines
  import opened Protocol

  /**
   * `list(file_reader())` run before `create_server`: the stripped lines, or
   * `None` when the file cannot be opened and the script stops there.
   */
  function Preload(disk: Option<string>): (preloaded: Option<seq<string>>)
    ensures preloaded.Some? <==> disk.Some?
    ensures preloaded.Some? ==> forall s :: s in preloaded.value <==> StrippedLineExists(disk.value, s)
  {
    match disk
    case None => None
    case Some(contents) => Some(StrippedLines(contents))
  }

  /** The `for line in file_lines` loop of `search_file`. */
  method FindLine(lines: seq<string>, s: string) returns (found: bool)
    ensures found <==> s in lines
  {
    var i := 0;
    while i < |lines|
      invariant 0 <= i <= |lines|
      invariant s !in lines[..i]
    {
      if lines[i] == s {
        return true;
      }
      assert lines[..i + 1] == lines[..i] + [lines[i]];
      i := i + 1;
    }
    assert lines[..i] == lines;
    return false;
  }

  /**
   * `search_file`: a fresh pass of `file_reader` (which raises when the file
   * cannot be opened, `None` here) or the preloaded `file_contents`.
   */
  method SearchFile(reread: bool, preloaded: seq<string>, disk: Option<string>, s: string)
    returns (found: Option<bool>)
    ensures found.None? <==> reread && disk.None?
    ensures reread && disk.Some? ==> found == Some(StrippedLineExists(disk.value, s))
    ensures !reread ==> found == Some(s in preloaded)
  {
    if reread {
      if disk.None? {
        return None;
      }
      var b := FindLine(StrippedLines(disk.value), s);
      found := Some(b);
    } else {
      var b := FindLine(preloaded, s);
      found := Some(b);
    }
  }

  /** `handle_client`: the verdict for the stripped received text, or the generic failure reply. */
  method HandleClient(reread: bool, preloaded: seq<string>, received: string, disk: Option<string>)
    returns (reply: string)
    ensures reply in {Exists, NotFound, Busy}
    ensures reply == Busy <==> reread && disk.None?
    ensures reread && disk.Some? ==> reply == Verdict(StrippedLineExists(disk.value, Normalize(received)))
    ensures !reread ==> reply == Verdict(Normalize(received) in preloaded)
  {
    var found := SearchFile(reread, preloaded, disk, Normalize(received));
    reply := if found.Some? then Verdict(found.value) else Busy;
  }

  /**
   * For a file whose lines carry no surrounding whitespace, both modes
   * answer whether the stripped text is a line of the file.
   */
  lemma VerdictIsLineMembership(contents: string, s: string)
    requires forall k | 0 <= k < |SplitLines(contents)| :: IsStripped(SplitLines(contents)[k])
    ensures Preload(Some(contents)).Some?
    ensures s in Preload(Some(contents)).value <==> LineExists(contents, s)
    ensures StrippedLineExists(contents, s) <==> LineExists(contents, s)
  {
    StrippedAgreesWithLines(contents, s);
  }
}

=== FILE: algorithm3_server.dfy ===
/**
 * The SSL prototype (project_resources/algorithm_3_server.py): no key, the
 * received text is NUL-trimmed and stripped, and `search_file` compares it
 * with every `strip()`ped line of `readlines()`, re-reading the file when
 * asked to or while nothing is cached.
 */
module Algorithm3Server {

  import opened Wrappers
  import opened Text
  import opened Lines
  import opened Protocol
  import RootServer

  /** Some line of `lines` equals `s` once stripped. */
  predicate HasStrippedLine(lines: seq<string>, s: string) {
    exists k | 0 <= k < |lines| :: Strip(lines[k]) == s
  }

  /** The `for line in file_contents` loop of `search_file`. */
  method FindStrippedLine(lines: seq<string>, s: string) returns (found: bool)
    ensures found <==> HasStrippedLine(lines, s)
  {
    var i := 0;
    while i < |lines|
      invariant 0 <= i <= |lines|
      invariant forall k | 0 <= k < i :: Strip(lines[k]) != s
    {
      if Strip(lines[i]) == s {
        return true;
      }
      i := i + 1;
    }
    return false;
  }

  /**
   * `search_file`: `cache` is `file_contents` (the raw lines), `disk` what
   * opening the file gives. `found` is `None` when the read raises; the
   * cache is then left as it was.
   */
  method SearchFile(reread: bool, cache: Option<seq<string>>, disk: Option<string>, s: string)
    returns (found: Option<bool>, cache': Option<seq<string>>)
    ensures reread || cache.None? ==> cache' == (if disk.Some? then Some(ReadLines(disk.value)) else cache)
    ensures !reread && cache.Some? ==> cache' == cache
    ensures found.None? <==> (reread || cache.None?) && disk.None?
    ensures found.Some? ==> cache'.Some? && (found.value <==> HasStrippedLine(cache'.value, s))
  {
    if reread || cache.None? {
      if disk.None? {
        return None, cache;
      }
      cache' := Some(ReadLines(disk.value));
    } else {
      cache' := cache;
    }
    var b := FindStrippedLine(cache'.value, s);
    found := Some(b);
  }

  /** The stripped lines of `readlines()` are what `HasStrippedLine` inspects. */
  lemma HasStrippedLineOfFile(contents: string, s: string)
    ensures HasStrippedLine(ReadLines(contents), s) <==> StrippedLineExists(contents, s)
  {
    var raw := ReadLines(contents);
    var stripped := StrippedLines(contents);
    if HasStrippedLine(raw, s) {
      var k :| 0 <= k < |raw| && Strip(raw[k]) == s;
      StrippedLineAt(contents, k);
      assert stripped[k] in stripped;
    }
    if StrippedLineExists(contents, s) {
      var k :| 0 <= k < |stripped| && stripped[k] == s;
      StrippedLineAt(contents, k);
    }
  }

  /** The reply sent and the `file_contents` left behind. */
  datatype Outcome = Outcome(reply: string, cache: Option<seq<string>>)

  /** `handle_client`: search for the stripped text; a failed read is the generic failure reply. */
  method HandleClient(reread: bool, received: string, disk: Option<string>, cache: Option<seq<string>>)
    returns (r: Outcome)
    ensures r.reply in {Exists, NotFound, Busy}
    ensures r.reply == Busy <==> (reread || cache.None?) && disk.None?
    ensures reread && disk.Some? ==> r.reply == Verdict(StrippedLineExists(disk.value, Normalize(received)))
    ensures !reread && cache.Some? ==> r.reply == Verdict(HasStrippedLine(cache.value, Normalize(received)))
    ensures !reread && cache.None? && disk.Some? ==>
              r.reply == Verdict(StrippedLineExists(disk.value, Normalize(received)))
    ensures reread || cache.None? ==> r.cache == (if disk.Some? then Some(ReadLines(disk.value)) else cache)
    ensures !reread && cache.Some? ==> r.cache == cache
  {
    var found, cache' := SearchFile(reread, cache, disk, Normalize(received));
    if disk.Some? {
      HasStrippedLineOfFile(disk.value, Normalize(received));
    }
    match found
    case None => r := Outcome(Busy, cache');
    case Some(b) => r := Outcome(Verdict(b), cache');
  }

  /**
   * Whitespace around a line of the file is ignored here, while the
   * top-level server compares whole lines: the file "a \n" holds "a" for
   * this server and not for that one.
   */
  lemma SpacesInFileIgnored()
    ensures StrippedLineExists("a \n", "a")
    ensures RootServer.HandleClient(RootServer.Config(false, "k", true), "a", Some("a \n"), None) == NotFound
  {
    var c := "a \n";
    assert IndexOf(c, '\n') == 2 by {
      assert c[0] != '\n' && c[1] != '\n' && c[2] == '\n';
    }
    assert ReadLines(c) == ["a \n"] by {
      assert c[..3] == c;
      assert c[3..] == "";
    }
    assert SplitLines(c) == ["a "] by {
      assert c[..2] == "a ";
      assert c[3..] == "";
    }
    assert Strip("a \n") == "a" by {
      assert RStrip("a \n") == "a";
    }
    assert StrippedLines(c)[0] == "a";
    assert TrimNuls("a") == "a";
    assert !StartsWith("a", "k");
  }
}

=== FILE: algorithm4_server.dfy ===
/**
 * The threaded prototype (project_resources/algorithm_4_server.py): the
 * first file-search server without the empty-input check, and with the raw
 * PSK, not its digest, as the key that leads a query.
 */
module Algorithm4Server {

  import opened Wrappers
  import opened Text
  import opened Lines
  import opened Protocol
  import SearchServer

  /** The settings `handle_client` reads; `psk` is the key itself. */
  datatype Config = Config(pskAuth: bool, psk: string, reread: bool)

  /** The term searched for, or `None` when the gate rejects the query. */
  function SearchTerm(cfg: Config, received: string): Option<string> {
    StripKey(cfg.pskAuth, cfg.psk, Normalize(received))
  }

  /** `handle_client`: `disk` is a read of the file, `cache` is `file_contents`. */
  function HandleClient(cfg: Config, received: string, disk: Option<string>,
                        cache: Option<string>): (r: SearchServer.Outcome)
    ensures r.reply in {Exists, NotFound, AuthFailed, Busy}
    ensures r.reply == AuthFailed <==> cfg.pskAuth && !StartsWith(Normalize(received), cfg.psk)
    ensures cache.Some? || cfg.reread ==> r.cache == cache
    ensures !cfg.reread && cache.None? && SearchTerm(cfg, received).Some? ==> r.cache == disk
    ensures SearchTerm(cfg, received).Some? ==>
              var text := TextRead(cfg.reread, cache, disk);
              (r.reply == Busy <==> text.None?)
              && (text.Some? ==> r.reply == Verdict(RegexFullLine(text.value, SearchTerm(cfg, received).value)))
  {
    match SearchTerm(cfg, received)
    case None => SearchServer.Outcome(AuthFailed, cache)
    case Some(term) =>
      if cfg.reread then
        match disk
        case None => SearchServer.Outcome(Busy, cache)
        case Some(contents) => SearchServer.Outcome(Verdict(RegexFullLine(contents, term)), cache)
      else
        var (text, cache') := ReadFileOnce(cache, disk);
        match text
        case None => SearchServer.Outcome(Busy, cache')
        case Some(contents) => SearchServer.Outcome(Verdict(RegexFullLine(contents, term)), cache')
  }

  /** Apart from the empty-input check, this is the first file-search server keyed by the raw PSK. */
  lemma AgreesWithSearchServer(cfg: Config, received: string, disk: Option<string>, cache: Option<string>)
    requires Normalize(received) != ""
    ensures HandleClient(cfg, received, disk, cache)
         == SearchServer.HandleClient(SearchServer.Config(cfg.pskAuth, cfg.psk, cfg.reread), received, disk, cache)
  {
  }

  /**
   * Blank input is not refused: with authentication off it becomes the empty
   * term, which matches after the final '\n' of the file.
   */
  lemma BlankInputSearched(psk: string)
    ensures HandleClient(Config(false, psk, true), "", Some("a\n"), None).reply == Exists
    ensures SearchServer.HandleClient(SearchServer.Config(false, psk, true), "", Some("a\n"), None).reply == InvalidInput
  {
    assert Strip("") == "";
    EmptyTermMatchesAfterFinalNewline();
  }

  /**
   * The algorithm-4 client sends `psk + input`; for a non-empty trimmed
   * input without '\n' behind a trimmed key, the reply is whether `input` is
   * a line of the file.
   */
  lemma ClientQueryFindsLine(cfg: Config, input: string, contents: string)
    requires |cfg.psk| > 0 && IsStripped(cfg.psk)
    requires |input| > 0 && IsStripped(input) && input[|input| - 1] != '\0' && '\n' !in input
    ensures HandleClient(cfg, cfg.psk + input, Some(contents), None).reply == Verdict(LineExists(contents, input))
  {
    var q := cfg.psk + input;
    assert q[0] == cfg.psk[0] && q[|q| - 1] == input[|input| - 1];
    NormalizeKeeps(q);
    StripKeyRoundTrip(cfg.pskAuth, cfg.psk, input);
    RegexAgreesWithLines(contents, input);
  }
}

=== FILE: algorithm5_server.dfy ===
/**
 * The asyncio prototype (project_resources/algorithm_5_server.py). With
 * authentication on, the raw PSK must lead the query and is removed; with it
 * off the text is searched as it is. A mismatch writes the rejection and then
 * raises, so the client receives the generic failure reply after it.
 */
module Algorithm5Server {

  import opened Wrappers
  import opened Text
  import opened Lines
  import opened Protocol
  import Algorithm4Server

  /** The settings `handle_client` reads; `psk` is the key itself. */
  datatype Config = Config(pskAuth: bool, psk: string, reread: bool)

  /** Everything written to the client, in order, and the cache left behind. */
  datatype Outcome = Outcome(replies: seq<string>, cache: Option<string>)

  /** The term searched for, or `None` when the key check rejects the query. */
  function SearchTerm(cfg: Config, received: string): Option<string> {
    RequireKey(cfg.pskAuth, cfg.psk, Normalize(received))
  }

  /** `handle_client`: `disk` is a read of the file, `cache` is `file_contents`. */
  function HandleClient(cfg: Config, received: string, disk: Option<string>,
                        cache: Option<string>): (r: Outcome)
    ensures r.replies == [AuthFailed, Busy] || (|r.replies| == 1 && r.replies[0] in {Exists, NotFound, Busy})
    ensures |r.replies| == 2 <==> cfg.pskAuth && !StartsWith(Normalize(received), cfg.psk)
    ensures cache.Some? || cfg.reread ==> r.cache == cache
    ensures !cfg.reread && cache.None? && SearchTerm(cfg, received).Some? ==> r.cache == disk
    ensures SearchTerm(cfg, received).Some? && TextRead(cfg.reread, cache, disk).None? ==> r.replies == [Busy]
    ensures SearchTerm(cfg, received).Some? && TextRead(cfg.reread, cache, disk).Some? ==>
              r.replies == [Verdict(RegexFullLine(TextRead(cfg.reread, cache, disk).value, SearchTerm(cfg, received).value))]
  {
    match SearchTerm(cfg, received)
    case None => Outcome([AuthFailed, Busy], cache)
    case Some(term) =>
      if cfg.reread then
        match disk
        case None => Outcome([Busy], cache)
        case Some(contents) => Outcome([Verdict(RegexFullLine(contents, term))], cache)
      else
        var (text, cache') := ReadFileOnce(cache, disk);
        match text
        case None => Outcome([Busy], cache')
        case Some(contents) => Outcome([Verdict(RegexFullLine(contents, term))], cache')
  }

  /** With authentication on, the reply is the threaded prototype's, followed by the failure reply on a mismatch. */
  lemma AgreesWithAlgorithm4WhenAuthenticating(cfg: Config, received: string, disk: Option<string>, cache: Option<string>)
    requires cfg.pskAuth
    ensures var r4 := Algorithm4Server.HandleClient(Algorithm4Server.Config(true, cfg.psk, cfg.reread), received, disk, cache);
            var r5 := HandleClient(cfg, received, disk, cache);
            r5.cache == r4.cache
            && r5.replies == (if r4.reply == AuthFailed then [AuthFailed, Busy] else [r4.reply])
  {
  }

  /**
   * With authentication off a leading key is not removed: the query `psk + line`
   * from a client that still prepends the key is not found, where the
   * threaded prototype finds it.
   */
  lemma AuthOffKeepsKey()
    ensures HandleClient(Config(false, "k", true), "kx", Some("x"), None).replies == [NotFound]
    ensures Algorithm4Server.HandleClient(Algorithm4Server.Config(false, "k", true), "kx", Some("x"), None).reply == Exists
  {
    var q := "kx";
    assert IsStripped(q) && q[1] != '\0';
    NormalizeKeeps(q);
    assert StartsWith(q, "k") && q[1..] == "x";
    SplitLinesSingle("x");
    RegexAgreesWithLines("x", "kx");
    RegexAgreesWithLines("x", "x");
  }
}

=== FILE: bot3.dfy ===
/**
 * The earlier Telegram quiz (workspace/telegram_bot/bot3.py). It loads the
 * same files, words the time limit and looks up the exam number exactly as
 * the later bot does (`Quiz.FormatTime`, `Quiz.LoadCandidates`,
 * `QuizBot.HandleResponseStep`); `start_test` differs: it numbers the
 * questions from 1, like the console quiz, and asks none.
 */
module Bot3 {

  import opened Quiz
  import opened QuizBot

  /**
   * `start_test`: "START" sets the score to 0 and the question number to 1
   * and moves to ASK_QUESTION without sending a question; other data
   * returns None, which leaves the conversation where it was.
   */
  function StartTest(st: State, data: string): (r: State)
    ensures r.session.examNo == st.session.examNo && r.session.name == st.session.name
    ensures data == "START" ==> r.phase == Answering && r.session.score == 0 && r.session.questionNumber == 1
    ensures data != "START" ==> r == st
  {
    if data == "START" then State(Answering, st.session.(score := 0, questionNumber := 1)) else st
  }

  /**
   * From the same state, both bots start a test the same way except for
   * the question number: this one's is one ahead of the later bot's, and
   * so counts questions from 1 as the console quiz's `question_number` does.
   */
  lemma StartsOneAhead(test: Test, st: State, timeUp: bool)
    ensures var mine := StartTest(st, "START").session;
            var later := QuizBot.StartTest(test, st, "START", timeUp).state.session;
            mine.score == later.score && mine.questionNumber == later.questionNumber + 1
            && mine.examNo == later.examNo && mine.name == later.name
  {
  }

  /** Pressing anything but START changes nothing in either bot. */
  lemma OtherDataIgnored(test: Test, st: State, data: string, timeUp: bool)
    requires data != "START"
    ensures StartTest(st, data) == st == QuizBot.StartTest(test, st, data, timeUp).state
  {
  }
}

=== FILE: bot4.dfy ===
/**
 * The second password bot (workspace/telegram_bot/bot4.py). It asks the
 * same questions as `PasswordBot` but has no SAVE_SPECIAL_CH state:
 * `generate_password` itself stores the pressed data as the
 * special-characters answer, and an empty set reaches `random.choice`,
 * whose IndexError sends the user back to the length question.
 */
module Bot4 {

  import opened Text
  import opened Charset
  import opened PasswordBot

  /** `get_special_characters`: the data is stored as the numbers answer; the next press generates. */
  function GetSpecials(st: State, data: string): (r: Step)
    ensures r.state == State(GeneratePassword, st.criteria.(includeNumber := data))
  {
    Step(State(GeneratePassword, st.criteria.(includeNumber := data)), [Asked(SpecialCharacters)])
  }

  /**
   * The body of the `try` in `generate_password`, for the answers `c`: the
   * first `random.choice` on an empty set raises IndexError, so only a
   * positive length with no characters chosen falls back to the length
   * question.
   */
  function GenerateFrom(c: Criteria, draw: nat -> nat): (r: Step)
    ensures r.state.criteria == c
    ensures r.state.phase == Alphabet <==> |Build(c)| == 0 && c.length > 0
    ensures r.state.phase != Alphabet ==>
              r.state.phase == CheckAgain && |r.replies| == 2 && r.replies[0].Generated?
              && |r.replies[0].password| == Max(c.length, 0)
              && forall k | 0 <= k < |r.replies[0].password| :: r.replies[0].password[k] in Build(c)
  {
    var chars := Build(c);
    if |chars| == 0 && c.length > 0 then Step(State(Alphabet, c), [EmptyInput])
    else Step(State(CheckAgain, c), [Generated(Password(chars, c.length, draw)), Asked(Another)])
  }

  /** `generate_password`: the pressed data first overwrites the special-characters answer. */
  function GeneratePass(st: State, data: string, draw: nat -> nat): (r: Step)
    ensures r == GenerateFrom(st.criteria.(includeSpecial := data), draw)
  {
    GenerateFrom(st.criteria.(includeSpecial := data), draw)
  }

  /**
   * `previous_criteria` as written: "yes" runs `generate_password` on the
   * same press, so its data "yes" becomes the special-characters answer,
   * and the state is CHECK_AGAIN whatever the generation returned; "no"
   * asks for a new length.
   */
  function PreviousAnswer(st: State, data: string, draw: nat -> nat): (r: Step)
    ensures data == "yes" ==> r.state == State(CheckAgain, st.criteria.(includeSpecial := "yes"))
    ensures data == "no" ==> r == Step(st.(phase := Alphabet), [Asked(Length)])
    ensures data != "yes" && data != "no" ==> r == Unchanged(st)
  {
    if data == "yes" then
      var g := GeneratePass(st, data, draw);
      Step(g.state.(phase := CheckAgain), g.replies)
    else if data == "no" then Step(st.(phase := Alphabet), [Asked(Length)])
    else Unchanged(st)
  }

  /** One update through this bot's `ConversationHandler`. */
  function Handle(st: State, ev: Event, draw: nat -> nat): Step {
    match st.phase
    case Idle =>
      if ev == Command("start") then Step(st.(phase := HandleResponse), [Asked(WantToStart)]) else Unchanged(st)
    case _ =>
      if ev == Command("cancel") then Step(st.(phase := Idle), [Cancelled])
      else
        match (st.phase, ev)
        case (HandleResponse, Press(d)) => StartAnswer(st, d)
        case (Alphabet, Message(t)) => GetAlphabet(st, t)
        case (AlphabetCase, Press(d)) => GetAlphabetCase(st, d)
        case (Number, Press(d)) => GetNumber(st, d)
        case (SpecialCharacter, Press(d)) => GetSpecials(st, d)
        case (GeneratePassword, Press(d)) => GeneratePass(st, d, draw)
        case (CheckAgain, Press(d)) => CheckAnswer(st, d)
        case (PreviousCriteria, Press(d)) => PreviousAnswer(st, d, draw)
        case _ => Unchanged(st)
  }

  /**
   * Up to the state without SAVE_SPECIAL_CH, a whole run of questions ends
   * as in `PasswordBot`: the special-characters press generates from the
   * same answers.
   */
  lemma SpecialsPressAgrees(st: State, data: string, draw: nat -> nat)
    requires |Build(st.criteria.(includeSpecial := data))| > 0
    ensures GeneratePass(st, data, draw) == PasswordBot.SaveSpecial(st, data, draw)
  {
  }

  /**
   * Reusing the previous criteria adds the special characters: answers that
   * declined them give a set without '!', yet the password generated
   * after "yes" to the previous criteria is drawn from a set holding '!'.
   */
  lemma ReuseAddsSpecials(st: State, draw: nat -> nat)
    requires st.phase == PreviousCriteria && st.criteria.includeSpecial != "yes"
    ensures var r := Handle(st, Press("yes"), draw);
            r.state.criteria != st.criteria
            && '!' !in Build(st.criteria) && '!' in Build(r.state.criteria)
  {
    var r := Handle(st, Press("yes"), draw);
    BuildMembers(st.criteria, '!');
    BuildMembers(r.state.criteria, '!');
  }

  /**
   * `previous_criteria` as intended: "yes" generates again from the
   * stored answers unchanged and goes where the generation goes.
   */
  function PreviousAnswerIntended(st: State, data: string, draw: nat -> nat): (r: Step)
    ensures data == "yes" ==> r.state.criteria == st.criteria
    ensures data == "yes" ==> (r.state.phase == Alphabet <==> |Build(st.criteria)| == 0 && st.criteria.length > 0)
    ensures data == "yes" && r.state.phase != Alphabet ==>
              r.state.phase == CheckAgain && |r.replies| == 2 && r.replies[0].Generated? &&
              forall k | 0 <= k < |r.replies[0].password| :: r.replies[0].password[k] in Build(st.criteria)
    ensures data == "no" ==> r == Step(st.(phase := Alphabet), [Asked(Length)])
    ensures data != "yes" && data != "no" ==> r == Unchanged(st)
  {
    if data == "yes" then GenerateFrom(st.criteria, draw)
    else if data == "no" then Step(st.(phase := Alphabet), [Asked(Length)])
    else Unchanged(st)
  }

  /** The intended reuse draws from exactly the previous set, as `PasswordBot` does. */
  lemma IntendedReusesSet(st: State, draw: nat -> nat)
    requires |Build(st.criteria)| > 0
    ensures PreviousAnswerIntended(st, "yes", draw) == PasswordBot.PreviousAnswer(st, "yes", draw)
  {
  }

  /** When special characters were chosen anyway, the written and the intended reuse agree. */
  lemma IntendedAgreesWhenSpecialsChosen(st: State, data: string, draw: nat -> nat)
    requires st.criteria.includeSpecial == "yes"
    ensures PreviousAnswer(st, data, draw) == PreviousAnswerIntended(st, data, draw)
  {
    if data == "yes" {
      assert st.criteria.(includeSpecial := "yes") == st.criteria;
      BuildMembers(st.criteria, '!');
    }
  }
}

=== FILE: charset.dfy ===
/**
 * What the three password generators share
 * (storage_box/password_generator/password_generator_bot.py,
 * workspace/telegram_bot/bot4.py and
 * storage_box/file_search_server2/project_resources/psk_generator.py): the
 * criteria the user answers, the character set built from them, and the
 * password drawn from it with `random.choice`.
 */
module Charset {

  import opened Text

  /**
   * The answers the password is generated from. A criterion not yet
   * answered reads as the empty string, which, like any answer other than
   * "yes", leaves its characters out.
   */
  datatype Criteria = Criteria(length: int, includeAlphabet: string, alphabetCase: string,
                               includeNumber: string, includeSpecial: string)

  /** `n` consecutive characters from `first` on. */
  function Span(first: char, n: nat): (s: string)
    requires first as int + n <= 0xD800
    ensures |s| == n && forall i | 0 <= i < n :: s[i] as int == first as int + i
  {
    seq(n, i requires 0 <= i < n => (first as int + i) as char)
  }

  /** A span holds exactly the characters between its ends. */
  lemma InSpan(first: char, n: nat, c: char)
    requires first as int + n <= 0xD800
    ensures c in Span(first, n) <==> first as int <= c as int < first as int + n
  {
    if first as int <= c as int < first as int + n {
      assert Span(first, n)[c as int - first as int] == c;
    }
  }

  /** `string.ascii_lowercase` */
  function AsciiLowercase(): string { Span('a', 26) }

  /** `string.ascii_uppercase` */
  function AsciiUppercase(): string { Span('A', 26) }

  /** `string.ascii_letters`: the lower-case letters, then the upper-case ones. */
  function AsciiLetters(): string { AsciiLowercase() + AsciiUppercase() }

  /** `string.digits` */
  function Digits(): string { Span('0', 10) }

  /** The special characters every generator offers. */
  const Specials: string := "!@#$%&?"

  /** The letters for a case answer: "lower", "upper", and all letters for "mixed" or anything else. */
  function Letters(alphabetCase: string): string {
    if alphabetCase == "lower" then AsciiLowercase()
    else if alphabetCase == "upper" then AsciiUppercase()
    else AsciiLetters()
  }

  /** Whether `c` is one of the letters a case answer allows. */
  predicate LetterFor(alphabetCase: string, c: char) {
    if alphabetCase == "lower" then IsLowerLetter(c)
    else if alphabetCase == "upper" then IsUpperLetter(c)
    else IsLowerLetter(c) || IsUpperLetter(c)
  }

  /** The letters of a case answer are exactly the ASCII letters of that case. */
  lemma LettersMembers(alphabetCase: string, c: char)
    ensures c in Letters(alphabetCase) <==> LetterFor(alphabetCase, c)
  {
    InSpan('a', 26, c);
    InSpan('A', 26, c);
  }

  /**
   * `characters`: the letters when alphabets are included, then the digits,
   * then the special characters, each only for the answer "yes".
   */
  function Build(c: Criteria): (chars: string)
    ensures |chars| == 0 <==> c.includeAlphabet != "yes" && c.includeNumber != "yes" && c.includeSpecial != "yes"
  {
    (if c.includeAlphabet == "yes" then Letters(c.alphabetCase) else "")
    + (if c.includeNumber == "yes" then Digits() else "")
    + (if c.includeSpecial == "yes" then Specials else "")
  }

  /** The character set holds exactly the characters of the chosen kinds. */
  lemma BuildMembers(c: Criteria, x: char)
    ensures x in Build(c) <==> (c.includeAlphabet == "yes" && LetterFor(c.alphabetCase, x))
                               || (c.includeNumber == "yes" && IsDigit(x))
                               || (c.includeSpecial == "yes" && x in Specials)
  {
    LettersMembers(c.alphabetCase, x);
    InSpan('0', 10, x);
  }

  function Max(a: int, b: int): int {
    if a >= b then a else b
  }

  /**
   * `''.join(random.choice(characters) for _ in range(length))`: `draw(i)`
   * is the index the i-th `random.choice` picks, taken modulo the size of
   * the set. With no characters only a non-positive length draws nothing.
   */
  function Password(chars: string, length: int, draw: nat -> nat): (p: string)
    requires |chars| > 0 || length <= 0
    ensures |p| == Max(length, 0)
    ensures forall k | 0 <= k < |p| :: p[k] in chars
  {
    seq(Max(length, 0), i requires 0 <= i < Max(length, 0) => chars[draw(i) % |chars|])
  }

  /** A draw below the size of the set picks that index. */
  lemma SmallMod(j: nat, n: nat)
    requires j < n
    ensures j % n == j
  {
  }

  /** Every string of the length over the set is a password some sequence of draws produces. */
  lemma PasswordReachesAll(chars: string, s: string)
    requires forall k | 0 <= k < |s| :: s[k] in chars
    requires |chars| > 0 || |s| == 0
    ensures exists draw: nat -> nat :: Password(chars, |s|, draw) == s
  {
    var draw := (i: nat) => if i < |s| then IndexOf(chars, s[i]) else 0;
    var p := Password(chars, |s|, draw);
    forall k | 0 <= k < |s|
      ensures p[k] == s[k]
    {
      var j := IndexOf(chars, s[k]);
      assert j < |chars| by {
        assert s[k] in chars;
      }
      assert draw(k) % |chars| == j by {
        SmallMod(j, |chars|);
      }
    }
    assert p == s;
  }
}

=== FILE: console_quiz.dfy ===
/**
 * The console version of the quiz (workspace/telegram_bot/test.py): the
 * same files and lookup, then every question in turn with two attempts,
 * the upper-cased input compared with the answer. The clock enters as
 * `timeUpAt`, the index of the first question at which the remaining time
 * is no longer positive.
 */
module ConsoleQuiz {

  import opened Wrappers
  import opened Text
  import opened Quiz
  import QuizBot

  /** The exceptions `main` catches and reports as "Error handing test". */
  datatype Error =
    | IndexError     // OPTIONS or ANSWERS has no line for the question
    | EOFError       // the input ends before the answers do
    | NameError      // no question was asked, so `remaining_time` was never assigned

  /** How `main` ends. */
  datatype Outcome =
    | NotFound(examNo: string)                  // "Exam number ... not found"
    | NotStarted                                // the input was not START
    | Finished(report: Report, inTime: bool)    // `inTime`: "You have completed your test."
    | Failed(error: Error)

  /** Either of the two typed answers, upper-cased, is the answer. */
  predicate Hit(typed: (string, string), answer: string) {
    Upper(typed.0) == answer || Upper(typed.1) == answer
  }

  /** The number of the first `k` questions answered correctly on one of the two attempts. */
  function Score(typed: seq<(string, string)>, answers: seq<string>, k: nat): (n: nat)
    requires k <= |typed| && k <= |answers|
    ensures n <= k
  {
    if k == 0 then 0 else Score(typed, answers, k - 1) + (if Hit(typed[k - 1], answers[k - 1]) then 1 else 0)
  }

  function Min(a: int, b: int): int {
    if a <= b then a else b
  }

  /**
   * What the question loop makes of `n` questions when the time runs out
   * before question `timeUpAt`: the exception raised when no question was
   * asked or a line is missing among the first `Min(n, timeUpAt)`, and
   * otherwise the report on those, finished in time when none was cut off.
   */
  predicate Asked(o: Outcome, n: nat, options: nat, answers: seq<string>, typed: seq<(string, string)>, timeUpAt: nat) {
    var m := Min(n, timeUpAt);
    (o.Failed? <==> n == 0 || m > options || m > |typed| || m > |answers|)
    && (n == 0 ==> o == Failed(NameError))
    && (o.Finished? ==> o.report == EndTest(n, m, Score(typed, answers, m)) && (o.inTime <==> timeUpAt >= n))
  }

  /**
   * The question loop of `main` and what follows it, for `n` questions:
   * the report built from `question_number`, or the exception raised.
   */
  method AskAll(n: nat, options: nat, answers: seq<string>, typed: seq<(string, string)>, timeUpAt: nat)
    returns (o: Outcome)
    ensures !o.NotFound? && !o.NotStarted?
    ensures o.Finished? ==> Sane(o.report)
    ensures Asked(o, n, options, answers, typed, timeUpAt)
  {
    var score: nat := 0;
    var questionNumber := 1;
    var remainingPositive: Option<bool> := None;
    var i := 0;
    while i < n
      invariant 0 <= i <= Min(n, timeUpAt)
      invariant questionNumber == i + 1
      invariant i <= options && i <= |typed| && i <= |answers|
      invariant score == Score(typed, answers, i)
      invariant remainingPositive.None? <==> i == 0
      invariant remainingPositive == Some(false) ==> i == timeUpAt < n
    {
      if i >= timeUpAt {
        remainingPositive := Some(false);
        break;
      }
      remainingPositive := Some(true);
      if i >= options {
        return Failed(IndexError);
      }
      if i >= |typed| {
        return Failed(EOFError);
      }
      if i >= |answers| {
        return Failed(IndexError);
      }
      var (first, second) := typed[i];
      if Upper(first) == answers[i] {
        score := score + 1;
      } else if Upper(second) == answers[i] {
        score := score + 1;
      }
      questionNumber := questionNumber + 1;
      i := i + 1;
    }
    if remainingPositive.None? {
      return Failed(NameError);
    }
    var unattempted := n - questionNumber + 1;
    var failed := questionNumber - 1 - score;
    o := Finished(Report(n, questionNumber - 1, unattempted, failed, score, GradeFor(score, n)), remainingPositive.value);
  }

  /**
   * `main` after `load_files`: `examNo` and `start` are the first two lines
   * typed, `typed[i]` the two answers typed for question `i` (the second is
   * read only when the first is wrong).
   */
  method RunQuiz(test: QuizBot.Test, examNo: string, start: string, typed: seq<(string, string)>, timeUpAt: nat)
    returns (o: Outcome)
    ensures o.NotFound? <==> HandleResponse(test.candidates, examNo).NotEnrolled?
    ensures o.NotFound? ==> o.examNo == Strip(examNo)
    ensures o.NotStarted? <==> HandleResponse(test.candidates, examNo).Enrolled? && Upper(start) != "START"
    ensures HandleResponse(test.candidates, examNo).Enrolled? && Upper(start) == "START" ==>
              Asked(o, |test.questions|, |test.options|, test.answers, typed, timeUpAt)
  {
    match HandleResponse(test.candidates, examNo)
    case NotEnrolled(no) =>
      return NotFound(no);
    case Enrolled(_, _) =>
      if Upper(start) != "START" {
        return NotStarted;
      }
      o := AskAll(|test.questions|, |test.options|, test.answers, typed, timeUpAt);
  }

  /** The first attempts, upper-cased, as the bot would receive them as button data. */
  function Firsts(typed: seq<(string, string)>, k: nat): (ds: seq<string>)
    requires k <= |typed|
    ensures |ds| == k && forall i | 0 <= i < k :: ds[i] == Upper(typed[i].0)
  {
    seq(k, i requires 0 <= i < k => Upper(typed[i].0))
  }

  /** Counting matches question by question from the end agrees with counting from the front. */
  lemma {:induction false} MatchesSnoc(ds: seq<string>, answers: seq<string>, d: string, a: string)
    requires |ds| == |answers|
    ensures QuizBot.Matches(ds + [d], answers + [a]) == QuizBot.Matches(ds, answers) + (if d == a then 1 else 0)
    decreases |ds|
  {
    if |ds| > 0 {
      assert (ds + [d])[1..] == ds[1..] + [d];
      assert (answers + [a])[1..] == answers[1..] + [a];
      MatchesSnoc(ds[1..], answers[1..], d, a);
    }
  }

  /**
   * With the second attempt a repeat of the first, the console's score is
   * the bot's: the number of upper-cased answers that match ANSWERS.
   */
  lemma {:induction false} RepeatedAttemptIsBotScore(typed: seq<(string, string)>, answers: seq<string>, k: nat)
    requires k <= |typed| && k <= |answers|
    requires forall i | 0 <= i < k :: typed[i].1 == typed[i].0
    ensures Score(typed, answers, k) == QuizBot.Matches(Firsts(typed, k), answers[..k])
  {
    if k > 0 {
      RepeatedAttemptIsBotScore(typed, answers, k - 1);
      assert Firsts(typed, k) == Firsts(typed, k - 1) + [Upper(typed[k - 1].0)];
      assert answers[..k] == answers[..k - 1] + [answers[k - 1]];
      MatchesSnoc(Firsts(typed, k - 1), answers[..k - 1], Upper(typed[k - 1].0), answers[k - 1]);
    }
  }
}

=== FILE: decoders_agree.dfy ===
/**
 * How the two message decoders relate: on files whose lines all hold two
 * words with distinct numbers they print the same message; a repeated
 * number or a line without two words separates them.
 */
module DecodersAgree {

  import opened Wrappers
  import opened Text
  import opened Decoding
  import D1 = MsgDecoder1
  import D2 = MsgDecoder2

  /** For a line of two words, the first decoder's entry carries the second decoder's number and word. */
  lemma EntryOfRow(line: string)
    requires D2.RowOf(line).Word?
    ensures D1.ParseLine(line).Ok?
    ensures D1.ParseLine(line).value.num == D2.RowOf(line).num
    ensures D1.ParseLine(line).value.tokens[1] == D2.RowOf(line).word
    ensures |D1.ParseLine(line).value.tokens| == 2
  {
  }

  /** The first line with each number, in the first decoder, and the dictionary of the second hold the same words. */
  ghost predicate Corresponds(es: seq<D1.Entry>, m: map<int, string>) {
    forall n ::
      && (D1.FirstWith(es, n).Some? <==> n in m)
      && (n in m ==> |D1.FirstWith(es, n).value.tokens| >= 2 && D1.FirstWith(es, n).value.tokens[1] == m[n])
  }

  /** With corresponding tables, the sort-free message is the dictionary's chain. */
  lemma {:induction false} MessageIsChain(es: seq<D1.Entry>, m: map<int, string>, k: nat)
    requires k >= 1 && Corresponds(es, m)
    ensures D1.Message(es, k) == Ok(D2.Chain(m, k))
    decreases D1.CountFrom(es, Tri(k))
  {
    if Tri(k) in m {
      TriIncreasing(k, k + 1);
      D1.CountDrops(es, Tri(k), Tri(k + 1));
      D2.ChainShrinks(m, k);
      MessageIsChain(es, m, k + 1);
    }
  }

  /** Line by line, the first decoder's entries carry the second decoder's numbers and words. */
  ghost predicate SameRows(es: seq<D1.Entry>, rs: seq<D2.Row>) {
    && |es| == |rs|
    && forall i | 0 <= i < |rs| ::
         rs[i].Word? && es[i].num == rs[i].num && |es[i].tokens| == 2 && es[i].tokens[1] == rs[i].word
  }

  /** No number appears on two rows. */
  ghost predicate DistinctNumbers(rs: seq<D2.Row>) {
    forall i, j | 0 <= i < j < |rs| :: rs[i].Word? && rs[j].Word? ==> rs[i].num != rs[j].num
  }

  /** The tables of the two decoders correspond at number `n` on matching rows with distinct numbers. */
  lemma CorrespondAt(es: seq<D1.Entry>, rs: seq<D2.Row>, n: int)
    requires SameRows(es, rs) && DistinctNumbers(rs) && D2.BuildMap(rs).Ok?
    ensures var m := D2.BuildMap(rs).value;
            && (D1.FirstWith(es, n).Some? <==> n in m)
            && (n in m ==> |D1.FirstWith(es, n).value.tokens| >= 2 && D1.FirstWith(es, n).value.tokens[1] == m[n])
  {
    var m := D2.BuildMap(rs).value;
    D1.FirstWithSpec(es, n);
    D2.BuildMapKeys(rs, n);
    if n in m {
      D2.BuildMapLastWins(rs, n);
      var i' :| 0 <= i' < |rs| && D2.LastKeyed(rs, n, i') && rs[i'].word == m[n];
      var i :| 0 <= i < |es| && es[i] == D1.FirstWith(es, n).value && forall j | 0 <= j < i :: es[j].num != n;
      assert es[i'].num == n && es[i].num == n;
      assert i == i';
    }
  }

  /**
   * When every line holds two words and no number repeats, the two decoders
   * print the same message.
   */
  lemma AgreeOnDistinctNumbers(lines: seq<string>)
    requires forall i | 0 <= i < |lines| :: D2.RowOf(lines[i]).Word?
    requires forall i, j | 0 <= i < j < |lines| :: D2.RowOf(lines[i]).num != D2.RowOf(lines[j]).num
    ensures D1.ParseEntries(lines).Ok? && D2.BuildMap(D2.Rows(lines)).Ok?
    ensures D1.Message(D1.ParseEntries(lines).value, 1) == Ok(D2.Chain(D2.BuildMap(D2.Rows(lines)).value, 1))
  {
    var rs := D2.Rows(lines);
    forall i | 0 <= i < |lines|
      ensures D1.ParseLine(lines[i]).Ok?
    {
      EntryOfRow(lines[i]);
    }
    D2.BuildMapFails(rs);
    var es := D1.ParseEntries(lines).value;
    var m := D2.BuildMap(rs).value;
    forall i | 0 <= i < |lines|
      ensures rs[i].Word? && es[i].num == rs[i].num && |es[i].tokens| == 2 && es[i].tokens[1] == rs[i].word
    {
      EntryOfRow(lines[i]);
    }
    assert SameRows(es, rs);
    assert DistinctNumbers(rs);
    forall n
      ensures && (D1.FirstWith(es, n).Some? <==> n in m)
              && (n in m ==> |D1.FirstWith(es, n).value.tokens| >= 2 && D1.FirstWith(es, n).value.tokens[1] == m[n])
    {
      CorrespondAt(es, rs, n);
    }
    MessageIsChain(es, m, 1);
  }

  /** `"a b".split()` for two words. */
  lemma TwoWords(a: string, b: string)
    requires IsWord(a) && IsWord(b)
    ensures SplitWords(a + " " + b) == [a, b]
  {
    SplitWordsAfterWord(a, " " + b);
    assert (" " + b)[1..] == b;
    SplitWordsAfterWord(b, "");
    assert b + "" == b;
    assert a + " " + b == a + (" " + b);
  }

  /** `int("1")` */
  lemma ParseOne()
    ensures ParseInt("1") == Some(1)
  {
    assert AllDigits("1");
    ParseIntOfDigits("1");
    assert DigitsValue("1") == 1;
  }

  /** The line "1 w": number 1, word `w`. */
  lemma FirstLine(w: string)
    requires IsWord(w)
    ensures D2.RowOf("1 " + w) == D2.Word(1, w)
    ensures D1.ParseLine("1 " + w) == Ok(D1.Entry(1, ["1", w]))
  {
    var line := "1 " + w;
    assert line == "1" + " " + w;
    TwoWords("1", w);
    ParseOne();
    assert D2.Pair(line) == Some(("1", w));
  }

  /**
   * A repeated number: for the lines "1 a" and "1 b" (see `FirstLine`), the
   * first decoder keeps the earlier word and the second decoder the later one.
   */
  lemma RepeatedNumberSeparates(a: string, b: string)
    ensures D1.Message([D1.Entry(1, ["1", a]), D1.Entry(1, ["1", b])], 1) == Ok([a])
    ensures D2.BuildMap([D2.Word(1, a), D2.Word(1, b)]) == Ok(map[1 := b])
    ensures D2.Chain(map[1 := b], 1) == [b]
  {
    FirstMessage([D1.Entry(1, ["1", a]), D1.Entry(1, ["1", b])], a);
    var rs := [D2.Word(1, a), D2.Word(1, b)];
    assert rs[..1] == [D2.Word(1, a)] && rs[..1][..0] == [];
    assert D2.BuildMap(rs[..1]) == Ok(map[1 := a]);
    assert map[1 := a][1 := b] == map[1 := b];
    OnlyFirstWord(b);
  }

  /** The message of entries whose only triangular number is 1 is the word of the first line numbered 1. */
  lemma FirstMessage(es: seq<D1.Entry>, w: string)
    requires |es| > 0 && es[0] == D1.Entry(1, ["1", w])
    requires forall i | 0 <= i < |es| :: es[i].num == 1
    ensures D1.Message(es, 1) == Ok([w])
  {
    assert Tri(1) == 1 && Tri(2) == 3;
    assert D1.FirstWith(es, 1) == Some(es[0]);
    D1.FirstWithSpec(es, 3);
    assert D1.FirstWith(es, 3).None?;
    assert D1.Message(es, 2) == Ok([]);
    assert D1.Message(es, 1) == D1.Prepend(w, D1.Message(es, 2));
    assert [w] + [] == [w];
  }

  /** A dictionary holding only 1 gives the message of one word. */
  lemma OnlyFirstWord(w: string)
    ensures D2.Chain(map[1 := w], 1) == [w]
  {
    var m := map[1 := w];
    assert Tri(1) == 1 && Tri(2) == 3;
    assert Tri(2) !in m;
    D2.ChainShrinks(m, 1);
  }

  /** A line without words stops the first decoder, and the second decoder skips it. */
  lemma WordlessLineSeparates(lines: seq<string>, i: int)
    requires 0 <= i < |lines| && |SplitWords(lines[i])| == 0
    ensures D1.ParseEntries(lines).Err?
    ensures D2.Rows(lines)[i] == D2.Ignored
  {
    assert D1.ParseLine(lines[i]).Err?;
  }
}

=== FILE: decoding.dfy ===
/**
 * What the two message decoders share: the triangular numbers 1, 3, 6, 10, ...
 * that pick the words of the message, and the exceptions a malformed file
 * raises.
 */
module Decoding {

  /** `Tri(k)` is the k-th triangular number 1 + 2 + ... + k. */
  function Tri(k: nat): nat {
    if k == 0 then 0 else Tri(k - 1) + k
  }

  /** The closed form k(k+1)/2. */
  lemma {:induction false} TriClosedForm(k: nat)
    ensures 2 * Tri(k) == k * (k + 1)
  {
    if k > 0 {
      TriClosedForm(k - 1);
      assert 2 * Tri(k) == (k - 1) * k + 2 * k;
    }
  }

  /** The triangular numbers strictly increase. */
  lemma {:induction false} TriIncreasing(j: nat, k: nat)
    requires j < k
    ensures Tri(j) < Tri(k)
    decreases k
  {
    if j < k - 1 {
      TriIncreasing(j, k - 1);
    }
  }

  /** A subset missing an element of its superset is strictly smaller. */
  lemma ProperSubsetCard(a: set<int>, b: set<int>, x: int)
    requires a <= b && x in b && x !in a
    ensures |a| < |b|
  {
    var d := b - a;
    assert x in d;
    assert a + d == b;
    assert a * d == {};
  }

  /**
   * The exception that stops a decoder: `IndexError` for a line or entry
   * with too few fields, `ValueError` for a number `int()` rejects.
   */
  datatype DecodeError = IndexError | ValueError
}

=== FILE: dict.dfy ===
/**
 * A Python dictionary filled by a loop of `d[key] = value` assignments: a
 * later assignment to the same key replaces the earlier one.
 */
module Dict {

  import opened Wrappers

  /** The dictionary after assigning the pairs of `ps` in order. */
  function FromPairs<K(==), V>(ps: seq<(K, V)>): (m: map<K, V>)
    ensures |ps| > 0 ==> ps[|ps| - 1].0 in m && m[ps[|ps| - 1].0] == ps[|ps| - 1].1
    decreases |ps|
  {
    if |ps| == 0 then map[]
    else FromPairs(ps[..|ps| - 1])[ps[|ps| - 1].0 := ps[|ps| - 1].1]
  }

  /** The keys are exactly the keys assigned. */
  lemma {:induction false} FromPairsKeys<K, V>(ps: seq<(K, V)>, k: K)
    ensures k in FromPairs(ps) <==> exists i | 0 <= i < |ps| :: ps[i].0 == k
    decreases |ps|
  {
    if |ps| > 0 {
      var init := ps[..|ps| - 1];
      assert forall i | 0 <= i < |init| :: init[i] == ps[i];
      FromPairsKeys(init, k);
    }
  }

  /** Pair `i` is the last one assigning key `k`. */
  predicate LastFor<K(==), V>(ps: seq<(K, V)>, k: K, i: int) {
    0 <= i < |ps| && ps[i].0 == k && forall j | i < j < |ps| :: ps[j].0 != k
  }

  /** Each key holds the value of the last pair assigning it. */
  lemma {:induction false} FromPairsLastWins<K, V>(ps: seq<(K, V)>, k: K)
    requires k in FromPairs(ps)
    ensures exists i | 0 <= i < |ps| :: LastFor(ps, k, i) && FromPairs(ps)[k] == ps[i].1
    decreases |ps|
  {
    var last := |ps| - 1;
    if ps[last].0 != k {
      var init := ps[..last];
      FromPairsLastWins(init, k);
      var i :| 0 <= i < |init| && LastFor(init, k, i) && FromPairs(init)[k] == init[i].1;
      assert forall j | i < j < |init| :: ps[j] == init[j];
      assert LastFor(ps, k, i) && ps[i] == init[i];
    } else {
      assert LastFor(ps, k, last);
    }
  }

  /**
   * The loop when each pair comes from a step that may raise: the
   * dictionary of all the pairs, or the error of the first step that fails.
   */
  function FromResults<K(==), V, E>(rs: seq<Result<(K, V), E>>): (r: Result<map<K, V>, E>)
    ensures r.Ok? <==> forall i | 0 <= i < |rs| :: rs[i].Ok?
  {
    match Collect(rs)
    case Err(e) => Err(e)
    case Ok(ps) => Ok(FromPairs(ps))
  }

  /** `FromPairsKeys` and `FromPairsLastWins` when the pairs come from steps that may raise. */
  lemma FromResultsLastWins<K, V, E>(rs: seq<Result<(K, V), E>>, k: K)
    requires FromResults(rs).Ok?
    ensures k in FromResults(rs).value <==> exists i | 0 <= i < |rs| :: rs[i].value.0 == k
    ensures k in FromResults(rs).value ==>
              exists i | 0 <= i < |rs| ::
                rs[i].value == (k, FromResults(rs).value[k]) && forall j | i < j < |rs| :: rs[j].value.0 != k
  {
    var ps := Collect(rs).value;
    FromPairsKeys(ps, k);
    assert forall i | 0 <= i < |rs| :: rs[i].value == ps[i];
    if k in FromPairs(ps) {
      FromPairsLastWins(ps, k);
    }
  }

  /** The step that last assigns `k` gives `k`'s value. */
  lemma FromResultsLast<K, V, E>(rs: seq<Result<(K, V), E>>, k: K, i: nat)
    requires FromResults(rs).Ok?
    requires i < |rs| && rs[i].value.0 == k
    requires forall j | i < j < |rs| :: rs[j].value.0 != k
    ensures k in FromResults(rs).value && FromResults(rs).value[k] == rs[i].value.1
  {
    FromResultsLastWins(rs, k);
    var m := FromResults(rs).value;
    var n :| 0 <= n < |rs| && rs[n].value == (k, m[k]) && forall j | n < j < |rs| :: rs[j].value.0 != k;
    assert n == i;
  }

  /** `[f(x) for x in xs]`. */
  function MapSeq<T, U>(f: T -> U, xs: seq<T>): (ys: seq<U>)
    ensures |ys| == |xs|
  {
    if |xs| == 0 then [] else [f(xs[0])] + MapSeq(f, xs[1..])
  }

  /** Element `i` of `MapSeq(f, xs)` is `f(xs[i])`. */
  lemma {:induction false} MapSeqAt<T, U>(f: T -> U, xs: seq<T>, i: nat)
    requires i < |xs|
    ensures MapSeq(f, xs)[i] == f(xs[i])
  {
    if i > 0 {
      MapSeqAt(f, xs[1..], i - 1);
    }
  }
}

=== FILE: lines.dfy ===
/**
 * Lines of the reference file and the three ways the servers decide that a
 * term is "a line of the file": membership in `splitlines()` (the abstract
 * specification every variant refines), a `^term$` search in MULTILINE mode,
 * and equality with a `strip()`ped line read by `readlines()`.
 *
 * The only line break modelled is '\n': the file is assumed to hold none of
 * the other separators `splitlines()` honours ('\r', '\x0b', '\x0c', ...).
 */
module Lines {

  import opened Text

  /** `s.splitlines()`: the lines of `s` without terminators; a final '\n' ends the last line. */
  function SplitLines(s: string): (lines: seq<string>)
    ensures forall k | 0 <= k < |lines| :: '\n' !in lines[k]
    ensures |lines| <= |s|
    decreases |s|
  {
    if |s| == 0 then []
    else
      var i := IndexOf(s, '\n');
      if i == |s| then [s] else [s[..i]] + SplitLines(s[i + 1..])
  }

  /** One step of `splitlines()`: the text before the first '\n', then the lines after it. */
  lemma SplitLinesStep(c: string)
    requires |c| > 0
    ensures var n := IndexOf(c, '\n');
            n == |c| ==> SplitLines(c) == [c]
    ensures var n := IndexOf(c, '\n');
            n < |c| ==> SplitLines(c) == [c[..n]] + SplitLines(c[n + 1..])
  {
  }

  /** The file text that writing each line followed by '\n' produces. */
  function JoinLines(lines: seq<string>): string {
    if |lines| == 0 then [] else lines[0] + "\n" + JoinLines(lines[1..])
  }

  /** Splitting a file written line by line gives back exactly those lines. */
  lemma {:induction false} SplitJoinLines(lines: seq<string>)
    requires forall k | 0 <= k < |lines| :: '\n' !in lines[k]
    ensures SplitLines(JoinLines(lines)) == lines
  {
    if |lines| > 0 {
      var s := JoinLines(lines);
      var l := lines[0];
      assert s == l + "\n" + JoinLines(lines[1..]);
      assert IndexOf(s, '\n') == |l| by {
        assert forall k | 0 <= k < |l| :: s[k] == l[k];
        assert s[|l|] == '\n';
      }
      assert s[..|l|] == l;
      assert s[|l| + 1..] == JoinLines(lines[1..]);
      SplitJoinLines(lines[1..]);
      assert lines == [l] + lines[1..];
    }
  }

  /** A line without '\n' followed by '\n' is split off as the first line. */
  lemma SplitLinesCons(l: string, rest: string)
    requires '\n' !in l
    ensures SplitLines(l + "\n" + rest) == [l] + SplitLines(rest)
  {
    var s := l + "\n" + rest;
    assert IndexOf(s, '\n') == |l| by {
      assert forall k | 0 <= k < |l| :: s[k] == l[k];
      assert s[|l|] == '\n';
    }
    assert s[..|l|] == l;
    assert s[|l| + 1..] == rest;
  }

  /** Text without '\n' is a single line. */
  lemma SplitLinesSingle(l: string)
    requires |l| > 0 && '\n' !in l
    ensures SplitLines(l) == [l]
  {
  }

  /** Concatenation of a sequence of strings. */
  function Concat(parts: seq<string>): string {
    if |parts| == 0 then [] else parts[0] + Concat(parts[1..])
  }

  /** `f.readlines()` (and iterating over `f`): lines that keep their '\n'. */
  function ReadLines(s: string): (lines: seq<string>)
    ensures Concat(lines) == s
    ensures forall k | 0 <= k < |lines| :: |lines[k]| > 0
    decreases |s|
  {
    if |s| == 0 then []
    else
      var i := IndexOf(s, '\n');
      if i == |s| then [s]
      else
        assert s == s[..i + 1] + s[i + 1..];
        [s[..i + 1]] + ReadLines(s[i + 1..])
  }

  /** Two lists of lines that are equal line for line once stripped. */
  predicate StripsAgree(r: seq<string>, l: seq<string>) {
    |r| == |l| && forall k | 0 <= k < |r| :: Strip(r[k]) == Strip(l[k])
  }

  /** After `strip()`, `readlines()` and `splitlines()` agree line for line. */
  lemma {:induction false} ReadLinesStripAgree(s: string)
    ensures StripsAgree(ReadLines(s), SplitLines(s))
    decreases |s|
  {
    if |s| > 0 {
      var i := IndexOf(s, '\n');
      if i < |s| {
        var rest := s[i + 1..];
        ReadLinesStripAgree(rest);
        HeadLineStripAgree(s, i);
        assert ReadLines(s) == [s[..i + 1]] + ReadLines(rest);
        assert SplitLines(s) == [s[..i]] + SplitLines(rest);
        StripsAgreeCons(s[..i + 1], s[..i], ReadLines(rest), SplitLines(rest));
      }
    }
  }

  /** Agreement is kept by putting two lines that strip alike in front. */
  lemma StripsAgreeCons(a: string, b: string, r: seq<string>, l: seq<string>)
    requires Strip(a) == Strip(b) && StripsAgree(r, l)
    ensures StripsAgree([a] + r, [b] + l)
  {
    AgreeCons(Strip, a, b, r, l);
  }

  /** Equality under `f`, line for line, is kept by a front pair that agrees under `f`. */
  lemma AgreeCons<T, U>(f: T -> U, a: T, b: T, r: seq<T>, l: seq<T>)
    requires f(a) == f(b) && |r| == |l|
    requires forall k | 0 <= k < |r| :: f(r[k]) == f(l[k])
    ensures forall k | 0 <= k < |r| + 1 :: f(([a] + r)[k]) == f(([b] + l)[k])
  {
    forall k | 0 <= k < |r| + 1
      ensures f(([a] + r)[k]) == f(([b] + l)[k])
    {
      if k > 0 {
        assert ([a] + r)[k] == r[k - 1];
        assert ([b] + l)[k] == l[k - 1];
      }
    }
  }

  /** A line read with its '\n' strips to the same text as the line without it. */
  lemma HeadLineStripAgree(s: string, i: nat)
    requires i < |s| && s[i] == '\n'
    ensures Strip(s[..i + 1]) == Strip(s[..i])
  {
    assert s[..i + 1] == s[..i] + ['\n'];
    StripDropsNewline(s[..i]);
  }

  /** The abstract specification: `term` is one of the file's lines. */
  predicate LineExists(contents: string, term: string) {
    term in SplitLines(contents)
  }

  /** `set(contents.splitlines())` */
  function LineSet(contents: string): (lines: set<string>)
    ensures forall t :: t in lines <==> LineExists(contents, t)
  {
    set l | l in SplitLines(contents)
  }

  /**
   * `re.search('^' + re.escape(t) + '$', c, re.MULTILINE)` succeeds with a
   * match starting at `i`: `^` holds at the start of `c` or after a '\n',
   * and `$` at the end of `c` or before a '\n'.
   */
  predicate MatchAt(c: string, t: string, i: int) {
    && 0 <= i && i + |t| <= |c|
    && (i == 0 || c[i - 1] == '\n')
    && c[i..i + |t|] == t
    && (i + |t| == |c| || c[i + |t|] == '\n')
  }

  /** The MULTILINE full-line regular-expression search. */
  predicate RegexFullLine(c: string, t: string) {
    exists i | 0 <= i <= |c| :: MatchAt(c, t, i)
  }

  /** A match after the first line of `c` is a match in the rest of `c`. */
  lemma MatchShift(c: string, t: string, n: nat, j: int)
    requires n < |c| && c[n] == '\n' && 0 <= j
    ensures MatchAt(c, t, n + 1 + j) <==> MatchAt(c[n + 1..], t, j)
  {
    var rest := c[n + 1..];
    if j + |t| <= |rest| {
      assert c[n + 1 + j..n + 1 + j + |t|] == rest[j..j + |t|];
    }
  }

  /** A match that starts within the first line is the whole first line. */
  lemma MatchInFirstLine(c: string, t: string, i: int)
    requires |t| > 0 && '\n' !in t
    requires MatchAt(c, t, i) && i <= IndexOf(c, '\n')
    ensures i == 0 && t == c[..IndexOf(c, '\n')]
  {
    var n := IndexOf(c, '\n');
    assert forall k | 0 <= k < n :: c[k] != '\n';
    assert i == 0;
    assert forall k | 0 <= k < |t| :: c[k] == t[k] && t[k] != '\n';
    assert |t| == n;
  }

  /** The first line of `c` is matched at 0. */
  lemma FirstLineMatches(c: string)
    ensures MatchAt(c, c[..IndexOf(c, '\n')], 0)
  {
  }

  /** The text before the first '\n' is a line. */
  lemma FirstLineIsLine(c: string)
    requires |c| > 0
    ensures LineExists(c, c[..IndexOf(c, '\n')])
  {
    SplitLinesStep(c);
    if IndexOf(c, '\n') == |c| {
      assert c[..|c|] == c;
    }
  }

  /** Every full-line match of a term without '\n' is one of the file's lines. */
  lemma {:induction false} MatchIsLine(c: string, t: string, i: int)
    requires |t| > 0 && '\n' !in t
    requires MatchAt(c, t, i)
    ensures LineExists(c, t)
    decreases |c|
  {
    var n := IndexOf(c, '\n');
    if i <= n {
      MatchInFirstLine(c, t, i);
      FirstLineIsLine(c);
    } else {
      var rest := c[n + 1..];
      assert MatchAt(rest, t, i - n - 1) by {
        MatchShift(c, t, n, i - n - 1);
      }
      MatchIsLine(rest, t, i - n - 1);
      LineOfRest(c, t);
    }
  }

  /** A line of the text after the first '\n' is a line of the whole text. */
  lemma LineOfRest(c: string, t: string)
    requires IndexOf(c, '\n') < |c|
    requires LineExists(c[IndexOf(c, '\n') + 1..], t)
    ensures LineExists(c, t)
  {
    SplitLinesStep(c);
  }

  /** A line other than the first is a line of the text after the first '\n'. */
  lemma LineOfRestOnly(c: string, t: string)
    requires LineExists(c, t) && t != c[..IndexOf(c, '\n')]
    ensures IndexOf(c, '\n') < |c| && LineExists(c[IndexOf(c, '\n') + 1..], t)
  {
    SplitLinesStep(c);
    if IndexOf(c, '\n') == |c| {
      assert false;
    }
  }

  /** Every line of the file is found by the full-line search. */
  lemma {:induction false} LineIsMatched(c: string, t: string)
    requires LineExists(c, t)
    ensures RegexFullLine(c, t)
    decreases |c|
  {
    var n := IndexOf(c, '\n');
    if t == c[..n] {
      FirstLineMatches(c);
    } else {
      LineOfRestOnly(c, t);
      var rest := c[n + 1..];
      LineIsMatched(rest, t);
      var j :| 0 <= j <= |rest| && MatchAt(rest, t, j);
      assert MatchAt(c, t, n + 1 + j) by {
        MatchShift(c, t, n, j);
      }
    }
  }

  /**
   * For a non-empty term without '\n', the regular-expression search finds
   * the term exactly when it is a line of the file.
   */
  lemma RegexAgreesWithLines(c: string, t: string)
    requires |t| > 0 && '\n' !in t
    ensures RegexFullLine(c, t) <==> LineExists(c, t)
  {
    if RegexFullLine(c, t) {
      var i :| 0 <= i <= |c| && MatchAt(c, t, i);
      MatchIsLine(c, t, i);
    }
    if LineExists(c, t) {
      LineIsMatched(c, t);
    }
  }

  /** The empty term: the search matches at the very end of a file that ends in '\n'. */
  lemma EmptyTermMatchesAfterFinalNewline()
    ensures RegexFullLine("a\n", "")
    ensures !LineExists("a\n", "")
  {
    assert MatchAt("a\n", "", 2);
    assert SplitLines("a\n") == ["a"] by {
      var s := "a\n";
      assert IndexOf(s, '\n') == 1 by {
        assert s[0] != '\n' && s[1] == '\n';
      }
      assert s[..1] == "a";
      assert SplitLines(s[2..]) == [];
    }
  }

  /** A term holding '\n' matches two consecutive lines, yet is no single line. */
  lemma NewlineTermSpansTwoLines()
    ensures RegexFullLine("a\nb", "a\nb")
    ensures !LineExists("a\nb", "a\nb")
  {
    assert MatchAt("a\nb", "a\nb", 0) by {
      assert "a\nb"[0..3] == "a\nb";
    }
  }

  /** The stripped lines `file_reader` yields: `line.strip()` for every line read. */
  function StrippedLines(contents: string): (lines: seq<string>)
    ensures |lines| == |ReadLines(contents)|
    ensures forall k | 0 <= k < |lines| :: IsStripped(lines[k])
  {
    var raw := ReadLines(contents);
    seq(|raw|, k requires 0 <= k < |raw| => Strip(raw[k]))
  }

  /** Entry `k` of `StrippedLines` is line `k` of `readlines()`, stripped. */
  lemma StrippedLineAt(contents: string, k: nat)
    requires k < |ReadLines(contents)|
    ensures StrippedLines(contents)[k] == Strip(ReadLines(contents)[k])
  {
  }

  /** Some line of the file equals `s` once stripped. */
  predicate StrippedLineExists(contents: string, s: string) {
    s in StrippedLines(contents)
  }

  /**
   * When no line of the file has surrounding whitespace, the stripped-line
   * search and the abstract specification agree on every term.
   */
  lemma StrippedAgreesWithLines(c: string, s: string)
    requires forall k | 0 <= k < |SplitLines(c)| :: IsStripped(SplitLines(c)[k])
    ensures StrippedLineExists(c, s) <==> LineExists(c, s)
  {
    ReadLinesStripAgree(c);
    var raw := ReadLines(c);
    var lines := SplitLines(c);
    var stripped := StrippedLines(c);
    assert |raw| <= |c| by {
      assert |lines| <= |c|;
    }
    forall k | 0 <= k < |lines|
      ensures stripped[k] == lines[k]
    {
      StripKeepsStripped(lines[k]);
    }
    assert stripped == lines;
  }
}

=== FILE: msg_decoder1.dfy ===
/**
 * The first message decoder (workspace/msg_decoder1.py): every line is split
 * into words, the lines are sorted stably by the integer value of their first
 * word, and a walk over the sorted lines keeps the second word of each line
 * whose number is the next triangular number.
 */
module MsgDecoder1 {

  import opened Wrappers
  import opened Text
  import opened Lines
  import opened Decoding

  /** One line of the file: the value of its first word, and all its words. */
  datatype Entry = Entry(num: int, tokens: seq<string>)

  /** `line.split()` together with the sort key `int(x[0])`. */
  function ParseLine(line: string): (r: Result<Entry, DecodeError>)
    ensures r.Ok? ==> r.value.tokens == SplitWords(line) && |r.value.tokens| > 0
                      && ParseInt(r.value.tokens[0]) == Some(r.value.num)
    ensures r == Err(IndexError) <==> |SplitWords(line)| == 0
  {
    var ws := SplitWords(line);
    if |ws| == 0 then Err(IndexError)
    else
      match ParseInt(ws[0])
      case None => Err(ValueError)
      case Some(n) => Ok(Entry(n, ws))
  }

  /** The sort key of every line, computed line by line. */
  function Keys(lines: seq<string>): (r: seq<Result<Entry, DecodeError>>)
    ensures |r| == |lines| && forall i | 0 <= i < |lines| :: r[i] == ParseLine(lines[i])
  {
    seq(|lines|, i requires 0 <= i < |lines| => ParseLine(lines[i]))
  }

  /**
   * `[line.split() for line in lines]` and the keys `sort` computes before
   * it compares: every line's entry, or the error of the first key that raises.
   */
  function ParseEntries(lines: seq<string>): (r: Result<seq<Entry>, DecodeError>)
    ensures r.Ok? <==> forall i | 0 <= i < |lines| :: ParseLine(lines[i]).Ok?
    ensures r.Ok? ==> |r.value| == |lines|
                      && forall i | 0 <= i < |lines| :: ParseLine(lines[i]) == Ok(r.value[i])
  {
    Collect(Keys(lines))
  }

  /** The error reported is that of the first line whose key raises. */
  lemma ParseEntriesFirstError(lines: seq<string>)
    requires ParseEntries(lines).Err?
    ensures exists i | 0 <= i < |lines| ::
              ParseLine(lines[i]) == Err(ParseEntries(lines).error)
              && forall j | 0 <= j < i :: ParseLine(lines[j]).Ok?
  {
    CollectFirstError(Keys(lines));
  }

  /** Numbers never decrease along `s`. */
  predicate Sorted(s: seq<Entry>) {
    forall i, j | 0 <= i < j < |s| :: s[i].num <= s[j].num
  }

  /** Places `e` before the first entry whose number is not smaller. */
  function Insert(e: Entry, s: seq<Entry>): (r: seq<Entry>)
    ensures multiset(r) == multiset(s) + multiset{e}
    ensures |r| == |s| + 1
    ensures r[0] == e || (|s| > 0 && r[0] == s[0])
  {
    if |s| == 0 || e.num <= s[0].num then [e] + s
    else
      assert s == [s[0]] + s[1..];
      [s[0]] + Insert(e, s[1..])
  }

  /** Insertion keeps a sorted sequence sorted. */
  lemma {:induction false} InsertSorted(e: Entry, s: seq<Entry>)
    requires Sorted(s)
    ensures Sorted(Insert(e, s))
  {
    if |s| > 0 && e.num > s[0].num {
      var rest := Insert(e, s[1..]);
      InsertSorted(e, s[1..]);
      assert rest[0].num >= s[0].num;
      assert forall j | 0 <= j < |rest| :: rest[0].num <= rest[j].num;
      assert Insert(e, s) == [s[0]] + rest;
    }
  }

  /**
   * `words.sort(key=lambda x: int(x[0]))`: a stable sort by number (each
   * entry goes in front of the later entries with the same number).
   */
  function Sort(es: seq<Entry>): (r: seq<Entry>)
    ensures Sorted(r)
    ensures multiset(r) == multiset(es)
    ensures |r| == |es|
  {
    if |es| == 0 then []
    else
      assert es == [es[0]] + es[1..];
      var sorted := Sort(es[1..]);
      InsertSorted(es[0], sorted);
      Insert(es[0], sorted)
  }

  /** The first entry, in order, numbered `n`. */
  function FirstWith(es: seq<Entry>, n: int): (r: Option<Entry>)
    ensures r.Some? ==> r.value.num == n
  {
    if |es| == 0 then None
    else if es[0].num == n then Some(es[0])
    else FirstWith(es[1..], n)
  }

  /** `FirstWith` finds an entry exactly when one is numbered `n`, and it is the earliest such entry. */
  lemma {:induction false} FirstWithSpec(es: seq<Entry>, n: int)
    ensures FirstWith(es, n).Some? <==> exists i | 0 <= i < |es| :: es[i].num == n
    ensures FirstWith(es, n).Some? ==>
              exists i | 0 <= i < |es| :: es[i] == FirstWith(es, n).value && forall j | 0 <= j < i :: es[j].num != n
  {
    if |es| > 0 && es[0].num != n {
      var tail := es[1..];
      FirstWithSpec(tail, n);
      assert forall i | 1 <= i < |es| :: es[i] == tail[i - 1];
      if FirstWith(tail, n).Some? {
        var i :| 0 <= i < |tail| && tail[i] == FirstWith(tail, n).value && forall j | 0 <= j < i :: tail[j].num != n;
        assert es[i + 1] == FirstWith(es, n).value;
      }
    }
  }

  /** Inserting `e` makes it the first entry with its number and changes no other first entry. */
  lemma {:induction false} FirstWithInsert(e: Entry, s: seq<Entry>, n: int)
    ensures FirstWith(Insert(e, s), n) == if e.num == n then Some(e) else FirstWith(s, n)
  {
    if |s| > 0 && e.num > s[0].num {
      FirstWithInsert(e, s[1..], n);
    }
  }

  /** Stability: sorting keeps, for every number, the first line with that number. */
  lemma {:induction false} SortKeepsFirst(es: seq<Entry>, n: int)
    ensures FirstWith(Sort(es), n) == FirstWith(es, n)
  {
    if |es| > 0 {
      SortKeepsFirst(es[1..], n);
      FirstWithInsert(es[0], Sort(es[1..]), n);
    }
  }

  /** How many entries have a number of at least `t`. */
  function CountFrom(es: seq<Entry>, t: int): nat {
    if |es| == 0 then 0
    else (if es[0].num >= t then 1 else 0) + CountFrom(es[1..], t)
  }

  /** When some entry is numbered `t`, fewer entries reach a larger `t'` than reach `t`. */
  lemma {:induction false} CountDrops(es: seq<Entry>, t: int, t': int)
    requires t < t' && FirstWith(es, t).Some?
    ensures CountFrom(es, t') < CountFrom(es, t)
  {
    if es[0].num == t {
      CountNarrower(es[1..], t, t');
    } else {
      CountDrops(es[1..], t, t');
    }
  }

  /** Raising the bound never lets more entries reach it. */
  lemma {:induction false} CountNarrower(es: seq<Entry>, t: int, t': int)
    requires t <= t'
    ensures CountFrom(es, t') <= CountFrom(es, t)
  {
    if |es| > 0 {
      CountNarrower(es[1..], t, t');
    }
  }

  /**
   * The message read off `es` from the k-th triangular number on, without
   * sorting: the second word of the first line numbered Tri(k), then of the
   * first line numbered Tri(k + 1), and so on up to the first triangular
   * number no line carries. A chosen line with a single word is the
   * `IndexError` of `word[1]`.
   */
  function Message(es: seq<Entry>, k: nat): (r: Result<seq<string>, DecodeError>)
    requires k >= 1
    decreases CountFrom(es, Tri(k))
  {
    match FirstWith(es, Tri(k))
    case None => Ok([])
    case Some(e) =>
      if |e.tokens| < 2 then Err(IndexError)
      else
        TriIncreasing(k, k + 1);
        CountDrops(es, Tri(k), Tri(k + 1));
        Prepend(e.tokens[1], Message(es, k + 1))
  }

  /** `[w] + rest` when the rest succeeded. */
  function Prepend(w: string, r: Result<seq<string>, DecodeError>): (r': Result<seq<string>, DecodeError>)
    ensures r'.Ok? <==> r.Ok?
    ensures r'.Ok? ==> |r'.value| == |r.value| + 1 && r'.value[0] == w && r'.value[1..] == r.value
  {
    match r
    case Err(e) => Err(e)
    case Ok(ws) => Ok([w] + ws)
  }

  /**
   * The j-th word of the message from Tri(k) is the second word of the first
   * line numbered Tri(k + j): only lines with triangular numbers are used.
   */
  lemma {:induction false} MessageAt(es: seq<Entry>, k: nat, j: nat)
    requires k >= 1 && Message(es, k).Ok? && j < |Message(es, k).value|
    ensures FirstWith(es, Tri(k + j)).Some?
    ensures |FirstWith(es, Tri(k + j)).value.tokens| >= 2
    ensures FirstWith(es, Tri(k + j)).value.tokens[1] == Message(es, k).value[j]
    decreases j
  {
    TriIncreasing(k, k + 1);
    CountDrops(es, Tri(k), Tri(k + 1));
    if j > 0 {
      MessageAt(es, k + 1, j - 1);
      assert k + j == (k + 1) + (j - 1);
    }
  }

  /** The message stops at the first triangular number no line carries. */
  lemma {:induction false} MessageEnd(es: seq<Entry>, k: nat)
    requires k >= 1 && Message(es, k).Ok?
    ensures FirstWith(es, Tri(k + |Message(es, k).value|)).None?
    decreases CountFrom(es, Tri(k))
  {
    if FirstWith(es, Tri(k)).Some? {
      TriIncreasing(k, k + 1);
      CountDrops(es, Tri(k), Tri(k + 1));
      MessageEnd(es, k + 1);
      assert k + |Message(es, k).value| == (k + 1) + |Message(es, k + 1).value|;
    }
  }

  /** The message has at most one word per line. */
  lemma {:induction false} MessageLength(es: seq<Entry>, k: nat)
    requires k >= 1 && Message(es, k).Ok?
    ensures |Message(es, k).value| <= CountFrom(es, Tri(k)) <= |es|
    decreases CountFrom(es, Tri(k))
  {
    CountAtMostLength(es, Tri(k));
    if FirstWith(es, Tri(k)).Some? {
      TriIncreasing(k, k + 1);
      CountDrops(es, Tri(k), Tri(k + 1));
      MessageLength(es, k + 1);
    }
  }

  /** No more entries than the sequence holds reach any bound. */
  lemma {:induction false} CountAtMostLength(es: seq<Entry>, t: int)
    ensures CountFrom(es, t) <= |es|
  {
    if |es| > 0 {
      CountAtMostLength(es[1..], t);
    }
  }

  /** The message depends only on the first line with each number, so sorting does not change it. */
  lemma {:induction false} SortKeepsMessage(es: seq<Entry>, k: nat)
    requires k >= 1
    ensures Message(Sort(es), k) == Message(es, k)
    decreases CountFrom(es, Tri(k))
  {
    SortKeepsFirst(es, Tri(k));
    var first := FirstWith(es, Tri(k));
    if first.Some? && |first.value.tokens| >= 2 {
      TriIncreasing(k, k + 1);
      CountDrops(es, Tri(k), Tri(k + 1));
      SortKeepsMessage(es, k + 1);
    }
  }

  /** An entry numbered below Tri(k) plays no part in the message from k on. */
  lemma {:induction false} MessageIgnoresSmall(s: seq<Entry>, k: nat)
    requires k >= 1 && |s| > 0 && s[0].num < Tri(k)
    ensures Message(s, k) == Message(s[1..], k)
    decreases CountFrom(s, Tri(k))
  {
    var first := FirstWith(s, Tri(k));
    assert first == FirstWith(s[1..], Tri(k));
    if first.Some? && |first.value.tokens| >= 2 {
      TriIncreasing(k, k + 1);
      CountDrops(s, Tri(k), Tri(k + 1));
      MessageIgnoresSmall(s, k + 1);
    }
  }

  /** The for-loop of `decode_message` over the sorted lines, with its two counters. */
  function Walk(s: seq<Entry>, tri: int, counter: int): Result<seq<string>, DecodeError> {
    if |s| == 0 then Ok([])
    else if s[0].num == tri then
      if |s[0].tokens| < 2 then Err(IndexError)
      else Prepend(s[0].tokens[1], Walk(s[1..], tri + counter + 1, counter + 1))
    else Walk(s[1..], tri, counter)
  }

  /** Past the last entry numbered `tri` or below, the walk collects nothing. */
  lemma {:induction false} WalkPastTarget(s: seq<Entry>, tri: int, counter: int)
    requires forall i | 0 <= i < |s| :: s[i].num > tri
    ensures Walk(s, tri, counter) == Ok([])
    ensures FirstWith(s, tri).None?
  {
    if |s| > 0 {
      WalkPastTarget(s[1..], tri, counter);
    }
  }

  /** The walk over sorted lines reads exactly the message. */
  lemma {:induction false} WalkIsMessage(s: seq<Entry>, k: nat)
    requires Sorted(s) && k >= 1
    ensures Walk(s, Tri(k), k) == Message(s, k)
    decreases |s|
  {
    if |s| == 0 {
      return;
    }
    var rest := s[1..];
    assert Sorted(rest);
    if s[0].num == Tri(k) {
      if |s[0].tokens| >= 2 {
        WalkMatchesHead(s, k);
      }
    } else if s[0].num < Tri(k) {
      WalkIsMessage(rest, k);
      MessageIgnoresSmall(s, k);
    } else {
      WalkPastTarget(s, Tri(k), k);
    }
  }

  /** The step of `WalkIsMessage` where the first entry is the one looked for. */
  lemma {:induction false} WalkMatchesHead(s: seq<Entry>, k: nat)
    requires Sorted(s) && k >= 1 && |s| > 0 && s[0].num == Tri(k) && |s[0].tokens| >= 2
    ensures Walk(s, Tri(k), k) == Message(s, k)
    decreases |s|, 0
  {
    var rest := s[1..];
    assert Sorted(rest);
    WalkIsMessage(rest, k + 1);
    TriIncreasing(k, k + 1);
    MessageIgnoresSmall(s, k + 1);
    assert Walk(s, Tri(k), k) == Prepend(s[0].tokens[1], Walk(rest, Tri(k + 1), k + 1));
    assert Message(s, k) == Prepend(s[0].tokens[1], Message(s, k + 1));
  }

  /** The loop of `decode_message` run over sorted entries is the sort-free message. */
  lemma DecodeAgreesWithMessage(es: seq<Entry>)
    ensures Walk(Sort(es), 1, 1) == Message(es, 1)
  {
    WalkIsMessage(Sort(es), 1);
    SortKeepsMessage(es, 1);
  }

  /** `decoded + rest` when the rest succeeded. */
  function PrependAll(decoded: seq<string>, r: Result<seq<string>, DecodeError>): Result<seq<string>, DecodeError> {
    match r
    case Err(e) => Err(e)
    case Ok(ws) => Ok(decoded + ws)
  }

  /** One iteration of the loop: what `Walk` does at position `i`. */
  lemma WalkStep(s: seq<Entry>, i: nat, tri: int, counter: int)
    requires i < |s|
    ensures s[i].num != tri ==> Walk(s[i..], tri, counter) == Walk(s[i + 1..], tri, counter)
    ensures s[i].num == tri && |s[i].tokens| < 2 ==> Walk(s[i..], tri, counter) == Err(IndexError)
    ensures s[i].num == tri && |s[i].tokens| >= 2 ==>
              Walk(s[i..], tri, counter) == Prepend(s[i].tokens[1], Walk(s[i + 1..], tri + counter + 1, counter + 1))
  {
    assert s[i..][1..] == s[i + 1..];
  }

  /** Nothing decoded yet leaves the walk's result as it is. */
  lemma PrependAllEmpty(r: Result<seq<string>, DecodeError>)
    ensures PrependAll([], r) == r
  {
    if r.Ok? {
      assert [] + r.value == r.value;
    }
  }

  /** A word moved from the rest of the walk to the decoded prefix. */
  lemma PrependAllStep(decoded: seq<string>, w: string, r: Result<seq<string>, DecodeError>)
    ensures PrependAll(decoded, Prepend(w, r)) == PrependAll(decoded + [w], r)
  {
    if r.Ok? {
      assert decoded + ([w] + r.value) == (decoded + [w]) + r.value;
    }
  }

  /** The for-loop of `decode_message` over the sorted entries: the words it appends, or the error it raises. */
  method CollectWords(words: seq<Entry>) returns (r: Result<seq<string>, DecodeError>)
    ensures r == Walk(words, 1, 1)
  {
    var decoded: seq<string> := [];
    var triangular := 1;
    var counter := 1;
    var i := 0;
    assert words[i..] == words;
    PrependAllEmpty(Walk(words, 1, 1));
    while i < |words|
      invariant 0 <= i <= |words|
      invariant Walk(words, 1, 1) == PrependAll(decoded, Walk(words[i..], triangular, counter))
    {
      WalkStep(words, i, triangular, counter);
      if words[i].num == triangular {
        if |words[i].tokens| < 2 {
          return Err(IndexError);
        }
        PrependAllStep(decoded, words[i].tokens[1], Walk(words[i + 1..], triangular + counter + 1, counter + 1));
        decoded := decoded + [words[i].tokens[1]];
        counter := counter + 1;
        triangular := triangular + counter;
      }
      i := i + 1;
    }
    assert words[i..] == [];
    assert decoded + [] == decoded;
    return Ok(decoded);
  }

  /**
   * `decode_message`: the decoded text printed, for the text of the file; an
   * error where the script raises.
   */
  method DecodeMessage(text: string) returns (r: Result<string, DecodeError>)
    ensures ParseEntries(ReadLines(text)).Err? ==> r == Err(ParseEntries(ReadLines(text)).error)
    ensures ParseEntries(ReadLines(text)).Ok? ==>
              var m := Message(ParseEntries(ReadLines(text)).value, 1);
              r == if m.Ok? then Ok(JoinSpaces(m.value)) else Err(m.error)
  {
    var parsed := ParseEntries(ReadLines(text));
    if parsed.Err? {
      return Err(parsed.error);
    }
    var words := Sort(parsed.value);
    var decoded := CollectWords(words);
    DecodeAgreesWithMessage(parsed.value);
    match decoded
    case Err(e) => r := Err(e);
    case Ok(ws) => r := Ok(JoinSpaces(ws));
  }
}

=== FILE: msg_decoder2.dfy ===
/**
 * The second message decoder (storage_box/msg_decoder/msg_decoder2.py):
 * every line of exactly two words adds its number and word to a dictionary,
 * a later line overwriting an earlier one with the same number; then the
 * words under 1, 3, 6, 10, ... are read off until a triangular number is
 * missing.
 */
module MsgDecoder2 {

  import opened Wrappers
  import opened Text
  import opened Lines
  import opened Decoding

  /** `parts = line.strip().split()` when `len(parts) == 2`. */
  function Pair(line: string): (r: Option<(string, string)>)
    ensures r.Some? <==> |SplitWords(line)| == 2
    ensures r.Some? ==> SplitWords(line) == [r.value.0, r.value.1]
  {
    SplitWordsStrip(line);
    var parts := SplitWords(Strip(line));
    if |parts| == 2 then Some((parts[0], parts[1])) else None
  }

  /** What the loop body makes of one line. */
  datatype Row =
    | Ignored                            // not exactly two words
    | BadNumber                          // two words, the first rejected by `int()`
    | Word(num: int, word: string)       // `word_dict[number] = word`

  /** The row for `line`. */
  function RowOf(line: string): (r: Row)
    ensures r.Ignored? <==> |SplitWords(line)| != 2
    ensures r.BadNumber? <==> |SplitWords(line)| == 2 && ParseInt(SplitWords(line)[0]).None?
    ensures r.Word? ==> SplitWords(line) == [SplitWords(line)[0], r.word]
                        && ParseInt(SplitWords(line)[0]) == Some(r.num)
  {
    match Pair(line)
    case None => Ignored
    case Some((key, word)) =>
      match ParseInt(key)
      case None => BadNumber
      case Some(n) => Word(n, word)
  }

  /** The row of every line. */
  function Rows(lines: seq<string>): (rs: seq<Row>)
    ensures |rs| == |lines| && forall i | 0 <= i < |lines| :: rs[i] == RowOf(lines[i])
  {
    seq(|lines|, i requires 0 <= i < |lines| => RowOf(lines[i]))
  }

  /** A two-word line whose first word is the number `n`. */
  predicate Keyed(r: Row, n: int) {
    r.Word? && r.num == n
  }

  /** One pass of the loop body. */
  function AddRow(m: map<int, string>, r: Row): (res: Result<map<int, string>, DecodeError>)
    ensures res.Err? <==> r.BadNumber?
    ensures res.Err? ==> res.error == ValueError
    ensures res.Ok? ==> forall n :: n in res.value <==> n in m || Keyed(r, n)
    ensures res.Ok? ==> forall n | n in res.value :: res.value[n] == if Keyed(r, n) then r.word else m[n]
  {
    match r
    case Ignored => Ok(m)
    case BadNumber => Err(ValueError)
    case Word(n, w) => Ok(m[n := w])
  }

  /** `word_dict` after the loop over the rows, or the `ValueError` that stops it. */
  function BuildMap(rs: seq<Row>): (r: Result<map<int, string>, DecodeError>)
    ensures r.Err? ==> r.error == ValueError
    decreases |rs|
  {
    if |rs| == 0 then Ok(map[])
    else
      match BuildMap(rs[..|rs| - 1])
      case Err(e) => Err(e)
      case Ok(m) => AddRow(m, rs[|rs| - 1])
  }

  /** The loop raises exactly when some two-word line has a first word that is not a number. */
  lemma {:induction false} BuildMapFails(rs: seq<Row>)
    ensures BuildMap(rs).Err? <==> exists i | 0 <= i < |rs| :: rs[i].BadNumber?
    decreases |rs|
  {
    if |rs| > 0 {
      var init := rs[..|rs| - 1];
      assert forall i | 0 <= i < |init| :: init[i] == rs[i];
      BuildMapFails(init);
    }
  }

  /** Some two-word line has a first word that is not a number. */
  predicate HasBadNumber(lines: seq<string>) {
    exists i | 0 <= i < |lines| :: RowOf(lines[i]).BadNumber?
  }

  /** `BuildMapFails` for the rows of a list of lines. */
  lemma RowsFail(lines: seq<string>)
    ensures BuildMap(Rows(lines)).Err? <==> HasBadNumber(lines)
  {
    var rs := Rows(lines);
    BuildMapFails(rs);
    if i :| 0 <= i < |rs| && rs[i].BadNumber? {
      assert RowOf(lines[i]).BadNumber?;
    }
  }

  /** The dictionary holds exactly the numbers of the two-word lines. */
  lemma {:induction false} BuildMapKeys(rs: seq<Row>, n: int)
    requires BuildMap(rs).Ok?
    ensures n in BuildMap(rs).value <==> exists i | 0 <= i < |rs| :: Keyed(rs[i], n)
    decreases |rs|
  {
    if |rs| > 0 {
      var init := rs[..|rs| - 1];
      assert forall i | 0 <= i < |init| :: init[i] == rs[i];
      BuildMapKeys(init, n);
    }
  }

  /** Line `i` carries `n` and no later line does. */
  predicate LastKeyed(rs: seq<Row>, n: int, i: int) {
    0 <= i < |rs| && Keyed(rs[i], n) && forall j | i < j < |rs| :: !Keyed(rs[j], n)
  }

  /** Each number holds the word of the last two-word line carrying it. */
  lemma {:induction false} BuildMapLastWins(rs: seq<Row>, n: int)
    requires BuildMap(rs).Ok? && n in BuildMap(rs).value
    ensures exists i | 0 <= i < |rs| :: LastKeyed(rs, n, i) && rs[i].word == BuildMap(rs).value[n]
    decreases |rs|
  {
    var last := |rs| - 1;
    var init := rs[..last];
    var m := BuildMap(init).value;
    assert BuildMap(rs) == AddRow(m, rs[last]);
    if Keyed(rs[last], n) {
      assert LastKeyed(rs, n, last);
    } else {
      assert n in m && BuildMap(rs).value[n] == m[n];
      BuildMapLastWins(init, n);
      var i :| 0 <= i < |init| && LastKeyed(init, n, i) && init[i].word == m[n];
      assert forall j | i < j < |init| :: rs[j] == init[j];
      assert LastKeyed(rs, n, i) && rs[i] == init[i];
    }
  }

  /** The dictionary's numbers from `t` on. */
  function KeysFrom(m: map<int, string>, t: int): set<int> {
    set n | n in m && n >= t
  }

  /**
   * The words under Tri(k), Tri(k + 1), ... up to the first triangular
   * number missing from `m`.
   */
  function Chain(m: map<int, string>, k: nat): (ws: seq<string>)
    requires k >= 1
    decreases |KeysFrom(m, Tri(k))|
  {
    if Tri(k) !in m then []
    else
      ChainShrinks(m, k);
      [m[Tri(k)]] + Chain(m, k + 1)
  }

  /** Moving on to the next triangular number leaves fewer numbers to visit. */
  lemma ChainShrinks(m: map<int, string>, k: nat)
    requires k >= 1 && Tri(k) in m
    ensures |KeysFrom(m, Tri(k + 1))| < |KeysFrom(m, Tri(k))|
  {
    TriIncreasing(k, k + 1);
    ProperSubsetCard(KeysFrom(m, Tri(k + 1)), KeysFrom(m, Tri(k)), Tri(k));
  }

  /** The j-th word of the chain from Tri(k) is the one under Tri(k + j). */
  lemma {:induction false} ChainAt(m: map<int, string>, k: nat, j: nat)
    requires k >= 1 && j < |Chain(m, k)|
    ensures Tri(k + j) in m && Chain(m, k)[j] == m[Tri(k + j)]
    decreases j
  {
    ChainShrinks(m, k);
    if j > 0 {
      ChainAt(m, k + 1, j - 1);
      assert k + j == (k + 1) + (j - 1);
    }
  }

  /** The chain stops at the first triangular number the dictionary lacks. */
  lemma {:induction false} ChainEnd(m: map<int, string>, k: nat)
    requires k >= 1
    ensures Tri(k + |Chain(m, k)|) !in m
    decreases |KeysFrom(m, Tri(k))|
  {
    if Tri(k) in m {
      ChainShrinks(m, k);
      ChainEnd(m, k + 1);
      assert k + |Chain(m, k)| == (k + 1) + |Chain(m, k + 1)|;
    }
  }

  /** The `while current_number in word_dict` loop: the words appended to `decoded_message`. */
  method Collect(m: map<int, string>) returns (ws: seq<string>)
    ensures forall j | 1 <= j <= |ws| :: Tri(j) in m && ws[j - 1] == m[Tri(j)]
    ensures Tri(|ws| + 1) !in m
    ensures ws == Chain(m, 1)
  {
    ws := [];
    var current := 1;
    while current in m
      invariant current == Tri(|ws| + 1)
      invariant Chain(m, 1) == ws + Chain(m, |ws| + 1)
      decreases |KeysFrom(m, current)|
    {
      var k := |ws| + 1;
      ChainShrinks(m, k);
      ChainStep(ws, m, k);
      ws := ws + [m[current]];
      current := current + |ws| + 1;
    }
    assert ws + [] == ws;
    forall j | 1 <= j <= |ws|
      ensures Tri(j) in m && ws[j - 1] == m[Tri(j)]
    {
      ChainAt(m, 1, j - 1);
    }
    ChainEnd(m, 1);
  }

  /** Moving the word under Tri(k) from the chain to the words collected so far. */
  lemma ChainStep(ws: seq<string>, m: map<int, string>, k: nat)
    requires k >= 1 && Tri(k) in m
    ensures ws + Chain(m, k) == (ws + [m[Tri(k)]]) + Chain(m, k + 1)
    ensures Tri(k + 1) == Tri(k) + k + 1
  {
    ChainShrinks(m, k);
    assert Chain(m, k) == [m[Tri(k)]] + Chain(m, k + 1);
  }

  /** `read_and_decode`: the text printed for the text of the file, or the `ValueError` it raises. */
  method ReadAndDecode(text: string) returns (r: Result<string, DecodeError>)
    ensures r.Err? <==> HasBadNumber(ReadLines(text))
    ensures r.Err? ==> r.error == ValueError
    ensures r.Ok? ==> BuildMap(Rows(ReadLines(text))).Ok?
                      && r.value == JoinSpaces(Chain(BuildMap(Rows(ReadLines(text))).value, 1))
  {
    var ps := Rows(ReadLines(text));
    RowsFail(ReadLines(text));
    var built := BuildMap(ps);
    if built.Err? {
      return Err(built.error);
    }
    var ws := Collect(built.value);
    return Ok(JoinSpaces(ws));
  }
}

=== FILE: password_bot.dfy ===
/**
 * The password-generator conversation of
 * storage_box/password_generator/password_generator_bot.py: the questions
 * asked one per state, the answers kept in `user_data`, and the generation
 * from them. `draw` stands for the choices of `random`.
 */
module PasswordBot {

  import opened Wrappers
  import opened Text
  import opened Charset

  /** The conversation states; `Idle` is outside the conversation (`ConversationHandler.END`). */
  datatype Phase =
    | Idle | HandleResponse | Alphabet | AlphabetCase | Number | SpecialCharacter
    | SaveSpecialCh | GeneratePassword | CheckAgain | PreviousCriteria

  /** The questions the bot asks. */
  datatype Question = WantToStart | Length | Alphabets | Case | Numbers | SpecialCharacters | Another | Previous

  /** The messages the bot sends. */
  datatype Reply =
    | Asked(question: Question)
    | InvalidLength          // "Invalid input! Please enter a numeric value ..."
    | NoCharacters           // "No characters selected pls try again."
    | EmptyInput             // "Empty input! Please try again..."
    | Generated(password: string)
    | Bye
    | Cancelled

  datatype State = State(phase: Phase, criteria: Criteria)

  /** The state after an update and the messages it sent. */
  datatype Step = Step(state: State, replies: seq<Reply>)

  /** The updates the conversation reacts to. */
  datatype Event =
    | Command(name: string)      // "/start", "/cancel", ...
    | Message(text: string)      // a text message that is not a command
    | Press(data: string)        // a button press and its callback data

  /** Where a handler returning None leaves the conversation: where it was, nothing sent. */
  function Unchanged(st: State): Step {
    Step(st, [])
  }

  /** `handle_response`: "yes" asks for the length, "no" ends, other data returns None. */
  function StartAnswer(st: State, data: string): (r: Step)
    ensures data == "yes" ==> r.state == st.(phase := Alphabet)
    ensures data == "no" ==> r.state == st.(phase := Idle)
    ensures data != "yes" && data != "no" ==> r == Unchanged(st)
  {
    if data == "yes" then Step(st.(phase := Alphabet), [Asked(Length)])
    else if data == "no" then Step(st.(phase := Idle), [Bye])
    else Unchanged(st)
  }

  /** `get_alphabet`: a length `int()` accepts is stored and alphabets are asked for; otherwise the length is asked again. */
  function GetAlphabet(st: State, text: string): (r: Step)
    ensures r.state.phase == AlphabetCase <==> ParseInt(text).Some?
    ensures ParseInt(text).Some? ==> r.state.criteria == st.criteria.(length := ParseInt(text).value)
    ensures ParseInt(text).None? ==> r == Step(st.(phase := Alphabet), [InvalidLength])
  {
    match ParseInt(text)
    case Some(n) => Step(State(AlphabetCase, st.criteria.(length := n)), [Asked(Alphabets)])
    case None => Step(st.(phase := Alphabet), [InvalidLength])
  }

  /** `get_number`: the data is stored as the alphabet case and numbers are asked for. */
  function GetNumber(st: State, data: string): (r: Step)
    ensures r.state == State(SpecialCharacter, st.criteria.(alphabetCase := data))
  {
    Step(State(SpecialCharacter, st.criteria.(alphabetCase := data)), [Asked(Numbers)])
  }

  /**
   * `get_alphabet_case`: the data is stored as the alphabet answer; "yes"
   * asks for the case, anything else goes straight on to `get_number`,
   * which stores the same data as the case.
   */
  function GetAlphabetCase(st: State, data: string): (r: Step)
    ensures r.state.criteria.includeAlphabet == data
    ensures data == "yes" ==> r.state == State(Number, st.criteria.(includeAlphabet := data))
    ensures data != "yes" ==> r.state == State(SpecialCharacter, st.criteria.(includeAlphabet := data, alphabetCase := data))
  {
    var st' := st.(criteria := st.criteria.(includeAlphabet := data));
    if data == "yes" then Step(st'.(phase := Number), [Asked(Case)]) else GetNumber(st', data)
  }

  /** `get_special_characters`: the data is stored as the numbers answer, then special characters are asked for. */
  function GetSpecialCharacters(st: State, data: string): (r: Step)
    ensures r.state == State(SaveSpecialCh, st.criteria.(includeNumber := data))
  {
    Step(State(SaveSpecialCh, st.criteria.(includeNumber := data)), [Asked(SpecialCharacters)])
  }

  /**
   * `generate_password`: with no characters chosen, the length is asked
   * again; otherwise a password of `max(length, 0)` characters of the set,
   * then the offer of another.
   */
  function Generate(st: State, draw: nat -> nat): (r: Step)
    ensures r.state.criteria == st.criteria
    ensures r.state.phase == CheckAgain <==> |Build(st.criteria)| > 0
    ensures r.state.phase != CheckAgain ==> r == Step(st.(phase := Alphabet), [NoCharacters])
    ensures r.state.phase == CheckAgain ==>
              |r.replies| == 2 && r.replies[0].Generated? && r.replies[1] == Asked(Another)
              && |r.replies[0].password| == Max(st.criteria.length, 0)
              && forall k | 0 <= k < |r.replies[0].password| :: r.replies[0].password[k] in Build(st.criteria)
  {
    var chars := Build(st.criteria);
    if |chars| == 0 then Step(st.(phase := Alphabet), [NoCharacters])
    else Step(st.(phase := CheckAgain), [Generated(Password(chars, st.criteria.length, draw)), Asked(Another)])
  }

  /** `save_special_ch`: the data is stored as the special-characters answer, then the password is generated. */
  function SaveSpecial(st: State, data: string, draw: nat -> nat): (r: Step)
    ensures r == Generate(st.(criteria := st.criteria.(includeSpecial := data)), draw)
  {
    Generate(st.(criteria := st.criteria.(includeSpecial := data)), draw)
  }

  /** `check_again`: "yes" asks whether to reuse the criteria, "no" ends, other data returns None. */
  function CheckAnswer(st: State, data: string): (r: Step)
    ensures data == "yes" ==> r.state == st.(phase := PreviousCriteria)
    ensures data == "no" ==> r.state == st.(phase := Idle)
    ensures data != "yes" && data != "no" ==> r == Unchanged(st)
  {
    if data == "yes" then Step(st.(phase := PreviousCriteria), [Asked(Previous)])
    else if data == "no" then Step(st.(phase := Idle), [Bye])
    else Unchanged(st)
  }

  /** `previous_criteria`: "yes" generates again from the stored answers, "no" asks for a new length. */
  function PreviousAnswer(st: State, data: string, draw: nat -> nat): (r: Step)
    ensures data == "yes" ==> r == Generate(st, draw)
    ensures data == "no" ==> r == Step(st.(phase := Alphabet), [Asked(Length)])
    ensures data != "yes" && data != "no" ==> r == Unchanged(st)
  {
    if data == "yes" then Generate(st, draw)
    else if data == "no" then Step(st.(phase := Alphabet), [Asked(Length)])
    else Unchanged(st)
  }

  /**
   * One update through the `ConversationHandler`: `/start` enters it from
   * outside, `/cancel` leaves it from any state, and each state hands its
   * kind of update to its handler; anything else is ignored.
   */
  function Handle(st: State, ev: Event, draw: nat -> nat): Step {
    match st.phase
    case Idle =>
      if ev == Command("start") then Step(st.(phase := HandleResponse), [Asked(WantToStart)]) else Unchanged(st)
    case _ =>
      if ev == Command("cancel") then Step(st.(phase := Idle), [Cancelled])
      else
        match (st.phase, ev)
        case (HandleResponse, Press(d)) => StartAnswer(st, d)
        case (Alphabet, Message(t)) => GetAlphabet(st, t)
        case (AlphabetCase, Press(d)) => GetAlphabetCase(st, d)
        case (Number, Press(d)) => GetNumber(st, d)
        case (SpecialCharacter, Press(d)) => GetSpecialCharacters(st, d)
        case (SaveSpecialCh, Press(d)) => SaveSpecial(st, d, draw)
        case (GeneratePassword, Press(_)) => Generate(st, draw)
        case (CheckAgain, Press(d)) => CheckAnswer(st, d)
        case (PreviousCriteria, Press(d)) => PreviousAnswer(st, d, draw)
        case _ => Unchanged(st)
  }

  /** While the bot offers another password, the stored answers choose some characters. */
  predicate Inv(st: State) {
    st.phase == CheckAgain || st.phase == PreviousCriteria ==> |Build(st.criteria)| > 0
  }

  /** Every update keeps the invariant. */
  lemma HandleKeepsInv(st: State, ev: Event, draw: nat -> nat)
    requires Inv(st)
    ensures Inv(Handle(st, ev, draw).state)
  {
  }

  /**
   * So reusing the previous criteria never falls back to asking for a
   * length: it always produces a password over the same set.
   */
  lemma ReuseAlwaysGenerates(st: State, draw: nat -> nat)
    requires Inv(st) && st.phase == PreviousCriteria
    ensures var r := Handle(st, Press("yes"), draw);
            r.state == st.(phase := CheckAgain) && r.replies[0].Generated?
            && forall k | 0 <= k < |r.replies[0].password| :: r.replies[0].password[k] in Build(st.criteria)
  {
  }

  /** Declining alphabets skips the case question, and the set then holds no letter. */
  lemma DeclineSkipsCase(st: State, data: string, x: char)
    requires st.phase == AlphabetCase && data != "yes"
    ensures var r := Handle(st, Press(data), (i: nat) => 0);
            r.state.phase == SpecialCharacter && r.replies == [Asked(Numbers)]
            && (IsLowerLetter(x) || IsUpperLetter(x) ==> x !in Build(r.state.criteria))
  {
    BuildMembers(Handle(st, Press(data), (i: nat) => 0).state.criteria, x);
    assert IsLowerLetter(x) || IsUpperLetter(x) ==> x !in Specials;
  }
}

=== FILE: protocol.dfy ===
/**
 * What every line-search server shares: the literal replies, the clean-up
 * of the received text, the pre-shared-key gate, and the load-once file
 * cache (`read_file_once`).
 */
module Protocol {

  import opened Wrappers
  import opened Text

  const Exists: string := "STRING EXISTS\n"
  const NotFound: string := "STRING NOT FOUND\n"
  const AuthFailed: string := "Authentication failed - PSK mismatch."
  /** The generic failure reply of every variant except the top-level server.py. */
  const Busy: string := "Could not handle your request pls try again later"
  const InvalidInput: string := "One or more invalid input."

  /** The verdict reply for a search outcome. */
  function Verdict(found: bool): string {
    if found then Exists else NotFound
  }

  /** `hashlib.sha256(psk.encode()).hexdigest()` has this shape; its value is opaque here. */
  predicate IsHexDigest(h: string) {
    |h| == 64 && forall k | 0 <= k < |h| :: h[k] in "0123456789abcdef"
  }

  /** `data.rstrip('\x00')`: only trailing NUL padding is removed. */
  function TrimNuls(received: string): string {
    RStripChar(received, '\0')
  }

  /** `data.rstrip('\x00').strip()` */
  function Normalize(received: string): (data: string)
    ensures IsStripped(data)
  {
    Strip(TrimNuls(received))
  }

  /** Text with no surrounding whitespace and no trailing NUL survives normalisation. */
  lemma NormalizeKeeps(s: string)
    requires IsStripped(s)
    requires |s| == 0 || s[|s| - 1] != '\0'
    ensures TrimNuls(s) == s
    ensures Normalize(s) == s
  {
    StripKeepsStripped(s);
  }

  /**
   * The gate of the variants that drop a leading key whether or not
   * authentication is on: `None` is the "PSK mismatch" rejection, otherwise
   * the term to search for.
   */
  function StripKey(auth: bool, key: string, data: string): (term: Option<string>)
    ensures term.None? <==> auth && !StartsWith(data, key)
    ensures term.Some? ==> data == key + term.value || (!auth && term.value == data)
  {
    if StartsWith(data, key) then Some(data[|key|..])
    else if auth then None
    else Some(data)
  }

  /** A query built as `key + input` yields exactly `input`, with authentication on or off. */
  lemma StripKeyRoundTrip(auth: bool, key: string, input: string)
    ensures StripKey(auth, key, key + input) == Some(input)
  {
    assert (key + input)[..|key|] == key;
    assert (key + input)[|key|..] == input;
  }

  /**
   * The gate of the asyncio variant: with authentication on the key must
   * lead and is removed; with authentication off the text is left as it is.
   */
  function RequireKey(auth: bool, key: string, data: string): (term: Option<string>)
    ensures term.None? <==> auth && !StartsWith(data, key)
    ensures term.Some? ==> (auth && data == key + term.value) || (!auth && term.value == data)
  {
    if !auth then Some(data)
    else if StartsWith(data, key) then Some(data[|key|..])
    else None
  }

  /** A hex-digest key followed by a trimmed input is trimmed as a whole. */
  lemma KeyedQueryIsStripped(key: string, input: string)
    requires IsHexDigest(key)
    requires IsStripped(input)
    requires |input| == 0 || input[|input| - 1] != '\0'
    ensures IsStripped(key + input)
    ensures Normalize(key + input) == key + input
  {
    var s := key + input;
    assert key[0] in "0123456789abcdef" && key[63] in "0123456789abcdef";
    assert s[0] == key[0];
    assert s[|s| - 1] == if |input| == 0 then key[63] else input[|input| - 1];
    NormalizeKeeps(s);
  }

  /**
   * `read_file_once`: the cached text if there is one, otherwise the text
   * just read, which becomes the cache. `None` as first component is the
   * exception raised when the file cannot be read; the cache then stays empty.
   */
  function ReadFileOnce(cache: Option<string>, disk: Option<string>): (Option<string>, Option<string>) {
    match cache
    case Some(text) => (Some(text), cache)
    case None => (disk, disk)
  }

  /**
   * The text a handler searches: a fresh read in reread mode, otherwise what
   * `read_file_once` gives. `None` when that read raises.
   */
  function TextRead(reread: bool, cache: Option<string>, disk: Option<string>): Option<string> {
    if reread then disk else ReadFileOnce(cache, disk).0
  }

  /** Once loaded, the cache answers every later call with the same text, whatever the file now holds. */
  lemma ReadFileOnceStable(cache: Option<string>, disk1: Option<string>, disk2: Option<string>)
    requires ReadFileOnce(cache, disk1).0.Some?
    ensures ReadFileOnce(ReadFileOnce(cache, disk1).1, disk2) == ReadFileOnce(cache, disk1)
  {
  }

  /** The file is consulted only while nothing is cached, and a failed read caches nothing. */
  lemma ReadFileOnceReadsOnlyWhenEmpty(cache: Option<string>, disk: Option<string>)
    ensures cache.Some? ==> ReadFileOnce(cache, disk) == (cache, cache)
    ensures cache.None? && disk.None? ==> ReadFileOnce(cache, disk).1.None?
    ensures cache.None? && disk.Some? ==> ReadFileOnce(cache, disk) == (disk, disk)
  {
  }
}

=== FILE: psk_generator.dfy ===
/**
 * The console PSK generator
 * (storage_box/file_search_server2/project_resources/psk_generator.py):
 * the criteria read from the console, lower-cased; the PSK drawn from
 * the shared character set; and the `option` loop that offers another.
 */
module PskGenerator {

  import opened Wrappers
  import opened Text
  import opened Charset

  /**
   * The first five inputs of `main`: the length, then the alphabet, number,
   * special-character and case answers, each lower-cased. `None` where
   * `int()` rejects the length and `main` starts over.
   */
  function ReadCriteria(lengthText: string, alphabet: string, number: string, punctuation: string,
                        alphabetCase: string): (r: Option<Criteria>)
    ensures r.Some? <==> ParseInt(lengthText).Some?
    ensures r.Some? ==> r.value.length == ParseInt(lengthText).value
    ensures r.Some? ==> && r.value.includeAlphabet == Lower(alphabet)
                        && r.value.includeNumber == Lower(number)
                        && r.value.includeSpecial == Lower(punctuation)
                        && r.value.alphabetCase == Lower(alphabetCase)
  {
    match ParseInt(lengthText)
    case None => None
    case Some(n) => Some(Criteria(n, Lower(alphabet), Lower(alphabetCase), Lower(number), Lower(punctuation)))
  }

  /** Lower-casing after upper-casing is lower-casing. */
  lemma LowerOfUpper(s: string)
    ensures Lower(Upper(s)) == Lower(s)
  {
    assert forall k | 0 <= k < |s| :: LowerChar(UpperChar(s[k])) == LowerChar(s[k]);
  }

  /** Upper-case answers are read as the lower-case ones: "YES" counts as "yes". */
  lemma AnswersIgnoreCase(lengthText: string, alphabet: string, number: string, punctuation: string,
                          alphabetCase: string)
    ensures ReadCriteria(lengthText, Upper(alphabet), Upper(number), Upper(punctuation), Upper(alphabetCase))
            == ReadCriteria(lengthText, alphabet, number, punctuation, alphabetCase)
  {
    LowerOfUpper(alphabet);
    LowerOfUpper(number);
    LowerOfUpper(punctuation);
    LowerOfUpper(alphabetCase);
  }

  /**
   * `generate_password`: `None` where no kind of character was chosen (the
   * message is printed and `main` starts over, whatever the length);
   * otherwise the PSK.
   */
  function GeneratePsk(c: Criteria, draw: nat -> nat): (r: Option<string>)
    ensures r.None? <==> c.includeAlphabet != "yes" && c.includeNumber != "yes" && c.includeSpecial != "yes"
    ensures r.Some? ==> |r.value| == Max(c.length, 0) && forall k | 0 <= k < |r.value| :: r.value[k] in Build(c)
  {
    var chars := Build(c);
    if |chars| == 0 then None else Some(Password(chars, c.length, draw))
  }

  /** What one round of the `option` loop does. */
  datatype Action =
    | Stop          // any answer but "yes" to another PSK leaves the loop
    | Restart       // "no" to the previous criteria runs `main` again
    | Regenerate    // "yes" to the previous criteria generates from them
    | Reprompt      // any other answer: "Invalid input", and the loop asks again

  /** One round: the answer to "another psk?" and, when it is "yes", to "previous criteria?". */
  function OptionStep(choice: string, usePrevious: string): (a: Action)
    ensures a == Stop <==> Lower(choice) != "yes"
    ensures a == Restart <==> Lower(choice) == "yes" && Lower(usePrevious) == "no"
    ensures a == Regenerate <==> Lower(choice) == "yes" && Lower(usePrevious) == "yes"
  {
    if Lower(choice) != "yes" then Stop
    else if Lower(usePrevious) == "no" then Restart
    else if Lower(usePrevious) == "yes" then Regenerate
    else Reprompt
  }

  /**
   * The `while True` loop of `option` over the answers typed, one pair per
   * round: it stops at the first round whose first answer is not "yes";
   * `stopped` is false where the answers run out first.
   */
  method OptionLoop(answers: seq<(string, string)>) returns (actions: seq<Action>, stopped: bool)
    ensures |actions| <= |answers|
    ensures forall i | 0 <= i < |actions| :: actions[i] == OptionStep(answers[i].0, answers[i].1)
    ensures forall i | 0 <= i < |actions| - 1 :: actions[i] != Stop
    ensures stopped <==> exists i | 0 <= i < |answers| :: Lower(answers[i].0) != "yes"
    ensures stopped ==> |actions| > 0 && actions[|actions| - 1] == Stop
    ensures !stopped ==> |actions| == |answers|
  {
    actions := [];
    var i := 0;
    while i < |answers|
      invariant 0 <= i <= |answers| && |actions| == i
      invariant forall j | 0 <= j < i :: actions[j] == OptionStep(answers[j].0, answers[j].1)
      invariant forall j | 0 <= j < i :: Lower(answers[j].0) == "yes"
    {
      var a := OptionStep(answers[i].0, answers[i].1);
      actions := actions + [a];
      if a == Stop {
        return actions, true;
      }
      i := i + 1;
    }
    stopped := false;
  }
}

=== FILE: quiz.dfy ===
/**
 * What the three quiz programs share (workspace/quiz/quiz_bot.py,
 * workspace/telegram_bot/test.py, workspace/telegram_bot/bot3.py): the
 * wording of the time limit, the candidate list, the exam-number lookup,
 * the letter grade and the end-of-test tallies.
 */
module Quiz {

  import opened Wrappers
  import opened Text
  import opened Lines
  import opened Dict

  /** How `format_time` words a time limit of `t` seconds. */
  datatype TimePhrase =
    | Seconds(n: int)                   // "n seconds"
    | Minutes(n: int)                   // "n minutes"
    | Hours(h: int)                     // "h hours"
    | HoursMinutes(h: int, m: int)      // "h hour and m minutes"

  /**
   * The choice `format_time` makes: below a minute the seconds as given,
   * below an hour the whole minutes, otherwise whole hours and whole minutes
   * with the leftover seconds dropped and the minutes left out when zero.
   */
  function Describe(t: int): (p: TimePhrase)
    ensures p.Seconds? <==> t < 60
    ensures p.Minutes? <==> 60 <= t < 3600
    ensures p.Hours? <==> t >= 3600 && t % 3600 < 60
    ensures p.Seconds? ==> p.n == t
    ensures p.Minutes? ==> 60 * p.n <= t < 60 * p.n + 60
    ensures p.Hours? ==> 3600 * p.h <= t < 3600 * p.h + 60
    ensures p.HoursMinutes? ==> 0 < p.m < 60 && 3600 * p.h + 60 * p.m <= t < 3600 * p.h + 60 * p.m + 60
  {
    if t < 3600 then
      if t < 60 then Seconds(t)
      else Minutes(t / 60)
    else
      var hours := t / 3600;
      var minutes := (t % 3600) / 60;
      if minutes > 0 then HoursMinutes(hours, minutes) else Hours(hours)
  }

  /** From a minute on, the leftover seconds of the limit are not shown. */
  lemma DescribeDropsSeconds(t: int)
    requires t >= 60
    ensures Describe(t) == Describe(t - t % 60)
  {
    BlockQuotients(t, t - t % 60);
  }

  /** Two times in the same minute have the same whole hours and minutes. */
  lemma BlockQuotients(t: int, u: int)
    requires u == t - t % 60
    ensures u / 60 == t / 60 && u / 3600 == t / 3600 && (u % 3600) / 60 == (t % 3600) / 60
    ensures u < 60 <==> t < 60
    ensures u < 3600 <==> t < 3600
  {
    var h := t / 3600;
    var m := (t % 3600) / 60;
    var s := t % 60;
    assert t == 3600 * h + 60 * m + s && 0 <= m < 60 && 0 <= s < 60 by {
      SplitHour(t);
    }
    assert u == 3600 * h + 60 * m;
    assert u / 3600 == h && u % 3600 == 60 * m by {
      SplitHour(u);
    }
  }

  /** A time as whole hours, whole minutes and seconds. */
  lemma SplitHour(t: int)
    ensures t == 3600 * (t / 3600) + 60 * ((t % 3600) / 60) + t % 60
    ensures 0 <= (t % 3600) / 60 < 60 && 0 <= t % 60 < 60
  {
    var h := t / 3600;
    var r := t % 3600;
    var m := r / 60;
    var s := r % 60;
    assert t == 60 * (60 * h + m) + s && 0 <= s < 60;
    SecondsOf(t, 60 * h + m, s);
  }

  /** The seconds of `60 * q + s` are `s`. */
  lemma SecondsOf(t: int, q: int, s: int)
    requires t == 60 * q + s && 0 <= s < 60
    ensures t % 60 == s
  {
  }

  /** The words of a phrase, in the order `format_time` writes them. */
  function PhraseWords(p: TimePhrase): seq<string> {
    match p
    case Seconds(n) => [IntToString(n), "seconds"]
    case Minutes(n) => [IntToString(n), "minutes"]
    case Hours(h) => [IntToString(h), "hours"]
    case HoursMinutes(h, m) => [IntToString(h), "hour", "and", IntToString(m), "minutes"]
  }

  /** The f-string of `format_time`: the words joined by single spaces. */
  function Render(p: TimePhrase): string {
    JoinSpaces(PhraseWords(p))
  }

  /** `format_time()` for the configured limit `t` (an `int` from the configuration). */
  function FormatTime(t: int): string {
    Render(Describe(t))
  }

  /**
   * Reads a phrase back from its words; `None` when they are not a phrase.
   * The words hold no whitespace, so each number is read by its sign and
   * digits.
   */
  function ReadWords(ws: seq<string>): Option<TimePhrase> {
    if |ws| == 2 then
      match ParseSigned(ws[0])
      case None => None
      case Some(n) => ReadUnit(n, ws[1])
    else if |ws| == 5 && ws[1] == "hour" && ws[2] == "and" && ws[4] == "minutes" then
      match ParseSigned(ws[0])
      case None => None
      case Some(h) =>
        match ParseSigned(ws[3])
        case None => None
        case Some(m) => Some(HoursMinutes(h, m))
    else None
  }

  /** A number followed by a unit word. */
  function ReadUnit(n: int, unit: string): Option<TimePhrase> {
    if unit == "seconds" then Some(Seconds(n))
    else if unit == "minutes" then Some(Minutes(n))
    else if unit == "hours" then Some(Hours(n))
    else None
  }

  /** Reads a phrase back from a sentence, word by word. */
  function ReadBack(s: string): Option<TimePhrase> {
    ReadWords(SplitWords(s))
  }

  /** The decimal text of an integer is one word. */
  lemma IntIsWord(n: int)
    ensures IsWord(IntToString(n))
  {
    var m: nat := if n < 0 then -n else n;
    var d := NatToString(m);
    assert forall k | 0 <= k < |d| :: !IsSpace(d[k]) by {
      forall k | 0 <= k < |d| ensures !IsSpace(d[k]) {
        assert IsDigit(d[k]);
      }
    }
    if n < 0 {
      var s := IntToString(n);
      assert s == "-" + d;
      forall k | 0 <= k < |s| ensures !IsSpace(s[k]) {
        if k > 0 {
          assert s[k] == d[k - 1];
        }
      }
    }
  }

  /** The words of a phrase read back as the phrase. */
  lemma ReadPhraseWords(p: TimePhrase)
    ensures ReadWords(PhraseWords(p)) == Some(p)
  {
    match p {
      case Seconds(n) => ReadNumberUnit(n, "seconds");
      case Minutes(n) =>
        assert "minutes"[0] != "seconds"[0];
        ReadNumberUnit(n, "minutes");
      case Hours(h) =>
        assert "hours"[0] != "seconds"[0] && "hours"[0] != "minutes"[0];
        ReadNumberUnit(h, "hours");
      case HoursMinutes(h, m) => ReadHoursMinutes(h, m);
    }
  }

  /** A number and a unit word read back through `ReadUnit`. */
  lemma ReadNumberUnit(n: int, unit: string)
    ensures ReadWords([IntToString(n), unit]) == ReadUnit(n, unit)
  {
    ParseSignedToString(n);
  }

  /** The five words of "h hour and m minutes" read back as the hours and minutes. */
  lemma ReadHoursMinutes(h: int, m: int)
    ensures ReadWords([IntToString(h), "hour", "and", IntToString(m), "minutes"]) == Some(HoursMinutes(h, m))
  {
    ParseSignedToString(h);
    ParseSignedToString(m);
    ReadFiveWords(IntToString(h), IntToString(m), h, m);
  }

  /** `ReadHoursMinutes` for any two words that parse. */
  lemma ReadFiveWords(a: string, b: string, h: int, m: int)
    requires ParseSigned(a) == Some(h) && ParseSigned(b) == Some(m)
    ensures ReadWords([a, "hour", "and", b, "minutes"]) == Some(HoursMinutes(h, m))
  {
  }

  /** Every sentence `format_time` can produce reads back as the phrase it renders. */
  lemma RenderReadBack(p: TimePhrase)
    ensures ReadBack(Render(p)) == Some(p)
  {
    var ws := PhraseWords(p);
    match p {
      case Seconds(n) => IntIsWord(n);
      case Minutes(n) => IntIsWord(n);
      case Hours(h) => IntIsWord(h);
      case HoursMinutes(h, m) =>
        IntIsWord(h);
        IntIsWord(m);
    }
    assert forall k | 0 <= k < |ws| :: IsWord(ws[k]);
    SplitJoinSpaces(ws);
    ReadPhraseWords(p);
  }

  /** So the sentence for a limit determines the phrase `Describe` chose. */
  lemma FormatTimeReadBack(t: int)
    ensures ReadBack(FormatTime(t)) == Some(Describe(t))
  {
    RenderReadBack(Describe(t));
  }

  /** Why `load_files` stops the program: a candidate line that does not unpack into two fields. */
  datatype LoadError = UnpackError

  /**
   * One line of the candidate file, `exam_no, name = line.split(',')`: the
   * stripped exam number and the stripped, upper-cased name, or the
   * ValueError the unpacking raises when the line does not hold exactly one
   * comma.
   */
  function ParseCandidate(line: string): Result<(string, string), LoadError> {
    var fields := SplitOn(line, ',');
    if |fields| == 2 then Ok((Strip(fields[0]), Upper(Strip(fields[1])))) else Err(UnpackError)
  }

  /** A candidate line unpacks exactly when it holds one comma. */
  lemma ParseCandidateUnpacks(line: string)
    ensures ParseCandidate(line).Ok? <==> multiset(line)[','] == 1
  {
    SplitOnCount(line, ',');
  }

  /** A line that parses is cut at its comma; the exam number is stripped. */
  lemma ParseCandidateFields(line: string)
    requires ParseCandidate(line).Ok?
    ensures var i := IndexOf(line, ',');
            i < |line| && ParseCandidate(line).value == (Strip(line[..i]), Upper(Strip(line[i + 1..])))
    ensures IsStripped(ParseCandidate(line).value.0)
  {
    SplitOnTwoFields(line, ',');
  }

  /**
   * `candidate_info` as `load_files` builds it from the text of the
   * candidate file, or the error that stops the program.
   */
  function LoadCandidates(text: string): Result<map<string, string>, LoadError> {
    FromResults(MapSeq(ParseCandidate, SplitLines(text)))
  }

  /** `candidate_info` is built exactly when every line of the file unpacks. */
  lemma LoadCandidatesOk(text: string)
    ensures LoadCandidates(text).Ok? <==> forall line | line in SplitLines(text) :: ParseCandidate(line).Ok?
  {
    CandidatesOk(SplitLines(text));
  }

  /** `LoadCandidatesOk` for any list of lines. */
  lemma CandidatesOk(lines: seq<string>)
    ensures FromResults(MapSeq(ParseCandidate, lines)).Ok? <==> forall line | line in lines :: ParseCandidate(line).Ok?
  {
    var rs := MapSeq(ParseCandidate, lines);
    if FromResults(rs).Ok? {
      forall line | line in lines
        ensures ParseCandidate(line).Ok?
      {
        var i :| 0 <= i < |lines| && lines[i] == line;
        MapSeqAt(ParseCandidate, lines, i);
      }
    } else {
      var i :| 0 <= i < |rs| && !rs[i].Ok?;
      MapSeqAt(ParseCandidate, lines, i);
      assert lines[i] in lines;
    }
  }

  /** The line unpacks, and its stripped exam number is `examNo`. */
  predicate Carries(line: string, examNo: string) {
    ParseCandidate(line).Ok? && ParseCandidate(line).value.0 == examNo
  }

  /** Line `i` carries `examNo` and no later line does. */
  predicate LastCarrier(lines: seq<string>, i: nat, examNo: string) {
    i < |lines| && Carries(lines[i], examNo) && forall j | i < j < |lines| :: !Carries(lines[j], examNo)
  }

  /**
   * A candidate's entry is the one on the last line that carries their exam
   * number: every key is the exam number of some line, and its value the
   * name of the last line with that number.
   */
  lemma LoadCandidatesLastWins(text: string, examNo: string)
    requires LoadCandidates(text).Ok?
    ensures examNo in LoadCandidates(text).value <==> exists line | line in SplitLines(text) :: Carries(line, examNo)
    ensures examNo in LoadCandidates(text).value ==>
              exists i: nat :: LastCarrier(SplitLines(text), i, examNo) &&
                ParseCandidate(SplitLines(text)[i]).value.1 == LoadCandidates(text).value[examNo]
  {
    CandidatesKeys(SplitLines(text), examNo);
    if examNo in LoadCandidates(text).value {
      CandidatesLastWins(SplitLines(text), examNo);
    }
  }

  /** Over any list of lines, the exam numbers in the dictionary are those the lines carry. */
  lemma CandidatesKeys(lines: seq<string>, examNo: string)
    requires FromResults(MapSeq(ParseCandidate, lines)).Ok?
    ensures examNo in FromResults(MapSeq(ParseCandidate, lines)).value <==>
              exists line | line in lines :: Carries(line, examNo)
  {
    var rs := MapSeq(ParseCandidate, lines);
    FromResultsLastWins(rs, examNo);
    if i :| 0 <= i < |rs| && rs[i].value.0 == examNo {
      MapSeqAt(ParseCandidate, lines, i);
      assert Carries(lines[i], examNo);
    }
    if line :| line in lines && Carries(line, examNo) {
      var i :| 0 <= i < |lines| && lines[i] == line;
      MapSeqAt(ParseCandidate, lines, i);
    }
  }

  /** Over any list of lines, an exam number's name comes from the last line that carries it. */
  lemma CandidatesLastWins(lines: seq<string>, examNo: string)
    requires FromResults(MapSeq(ParseCandidate, lines)).Ok?
    requires examNo in FromResults(MapSeq(ParseCandidate, lines)).value
    ensures exists i: nat :: LastCarrier(lines, i, examNo) &&
              ParseCandidate(lines[i]).value.1 == FromResults(MapSeq(ParseCandidate, lines)).value[examNo]
  {
    var rs := MapSeq(ParseCandidate, lines);
    var m := FromResults(rs).value;
    FromResultsLastWins(rs, examNo);
    var i :| 0 <= i < |rs| && rs[i].value == (examNo, m[examNo]) && forall j | i < j < |rs| :: rs[j].value.0 != examNo;
    MapSeqAt(ParseCandidate, lines, i);
    forall j | i < j < |lines|
      ensures !Carries(lines[j], examNo)
    {
      MapSeqAt(ParseCandidate, lines, j);
    }
    assert LastCarrier(lines, i, examNo);
  }

  /** Every exam number in `candidate_info` is stripped. */
  lemma CandidateKeysStripped(text: string, examNo: string)
    requires LoadCandidates(text).Ok? && examNo in LoadCandidates(text).value
    ensures IsStripped(examNo)
  {
    LoadCandidatesLastWins(text, examNo);
    var line :| line in SplitLines(text) && Carries(line, examNo);
    ParseCandidateFields(line);
  }

  /** What `handle_response` makes of the candidate's reply. */
  datatype Lookup =
    | NotEnrolled(examNo: string)                // "Exam number ... not found", conversation ends
    | Enrolled(examNo: string, name: string)     // both stored, the test can be started

  /**
   * `handle_response`: the reply stripped and looked up with `get`; a
   * missing number and an empty name both count as not enrolled
   * (`if not candidate_name`).
   */
  function HandleResponse(candidates: map<string, string>, text: string): (r: Lookup)
    ensures r.examNo == Strip(text)
    ensures r.Enrolled? <==> Strip(text) in candidates && candidates[Strip(text)] != ""
    ensures r.Enrolled? ==> r.name == candidates[Strip(text)]
  {
    var examNo := Strip(text);
    if examNo in candidates && candidates[examNo] != "" then Enrolled(examNo, candidates[examNo])
    else NotEnrolled(examNo)
  }

  /** Whitespace around the exam number does not change the lookup. */
  lemma HandleResponseIgnoresPadding(candidates: map<string, string>, text: string)
    ensures HandleResponse(candidates, Strip(text)) == HandleResponse(candidates, text)
  {
    StripIdempotent(text);
  }

  /**
   * From the file to the lookup: a reply whose stripped text is the exam
   * number of the last line for it (line `i`) finds the name on that
   * line, unless that name is empty.
   */
  lemma EnrolledFromFile(text: string, reply: string, i: nat)
    requires LoadCandidates(text).Ok?
    requires LastCarrier(SplitLines(text), i, Strip(reply))
    ensures var name := ParseCandidate(SplitLines(text)[i]).value.1;
            HandleResponse(LoadCandidates(text).value, reply)
            == if name == "" then NotEnrolled(Strip(reply)) else Enrolled(Strip(reply), name)
  {
    LoadCandidatesLastWins(text, Strip(reply));
    var n: nat :| LastCarrier(SplitLines(text), n, Strip(reply)) &&
      ParseCandidate(SplitLines(text)[n]).value.1 == LoadCandidates(text).value[Strip(reply)];
    assert n == i;
  }

  /** The letter grade of `end_test` and of the console quiz. */
  datatype Grade = A | B | C | D | F

  /** Grades ordered from F (0) to A (4). */
  function Rank(g: Grade): nat {
    match g
    case F => 0
    case D => 1
    case C => 2
    case B => 3
    case A => 4
  }

  /**
   * The grade for `score` out of `total` questions: at least 70% an A, 60%
   * a B, 50% a C, 45% a D, otherwise an F. The thresholds are the exact
   * fractions 7/10, 6/10, 5/10 and 9/20 of the number of questions.
   */
  function GradeFor(score: int, total: nat): (g: Grade)
    ensures Rank(g) >= 4 <==> 10 * score >= 7 * total
    ensures Rank(g) >= 3 <==> 10 * score >= 6 * total
    ensures Rank(g) >= 2 <==> 10 * score >= 5 * total
    ensures Rank(g) >= 1 <==> 20 * score >= 9 * total
  {
    if 10 * score >= 7 * total then A
    else if 10 * score >= 6 * total then B
    else if 10 * score >= 5 * total then C
    else if 20 * score >= 9 * total then D
    else F
  }

  /** A better score never earns a worse grade. */
  lemma GradeMonotone(s: int, s': int, total: nat)
    requires s <= s'
    ensures Rank(GradeFor(s, total)) <= Rank(GradeFor(s', total))
  {
  }

  /** Full marks earn an A; no correct answer out of at least one question earns an F. */
  lemma GradeExtremes(total: nat)
    ensures GradeFor(total, total) == A
    ensures total > 0 ==> GradeFor(0, total) == F
  {
  }

  /** The figures `end_test` shows and `save_result` records. */
  datatype Report = Report(total: int, attempted: int, unattempted: int, failed: int, score: int, grade: Grade)

  /**
   * `end_test`: `attempted` is the question number reached, `unattempted`
   * the rest of the questions, `failed` the attempted questions not scored.
   */
  function EndTest(total: nat, attempted: int, score: int): (r: Report)
    ensures r.total == total && r.attempted == attempted && r.score == score
    ensures r.attempted + r.unattempted == r.total
    ensures r.score + r.failed == r.attempted
    ensures r.grade == GradeFor(score, total)
  {
    Report(total, attempted, total - attempted, attempted - score, score, GradeFor(score, total))
  }

  /** The tallies a session can reach are all counts. */
  predicate Sane(r: Report) {
    0 <= r.score && 0 <= r.failed && 0 <= r.unattempted && r.attempted <= r.total
  }

  /** A score within the attempted questions, within the test, gives a sane report. */
  lemma EndTestSane(total: nat, attempted: int, score: int)
    requires 0 <= score <= attempted <= total
    ensures Sane(EndTest(total, attempted, score))
  {
  }
}

=== FILE: quiz_bot.dfy ===
/**
 * The Telegram quiz (workspace/quiz/quiz_bot.py) as a conversation: the
 * phase the `ConversationHandler` is in, the `user_data` of the candidate,
 * and one step per update. The clock enters as `timeUp`, whether the end
 * time has passed when `ask_question` looks at it.
 */
module QuizBot {

  import opened Wrappers
  import opened Text
  import opened Lines
  import opened Quiz

  /** What `load_files` read: QUESTIONS, OPTIONS, ANSWERS and `candidate_info`, and TIME_LIMIT. */
  datatype Test = Test(questions: seq<string>, options: seq<seq<string>>, answers: seq<string>,
                       candidates: map<string, string>, limit: int)

  /** Each line of the options file split at its commas. */
  function OptionRows(lines: seq<string>): (rows: seq<seq<string>>)
    ensures |rows| == |lines| && forall i | 0 <= i < |lines| :: rows[i] == SplitOn(lines[i], ',')
  {
    seq(|lines|, i requires 0 <= i < |lines| => SplitOn(lines[i], ','))
  }

  /** `load_files` on the texts of the four files; an error where it stops the program. */
  function LoadTest(questions: string, options: string, answers: string, candidates: string, limit: int)
    : (r: Result<Test, LoadError>)
    ensures r.Ok? <==> LoadCandidates(candidates).Ok?
    ensures r.Ok? ==> r.value.questions == SplitLines(questions) && r.value.answers == SplitLines(answers)
                      && r.value.candidates == LoadCandidates(candidates).value
                      && |r.value.options| == |SplitLines(options)|
                      && (forall i | 0 <= i < |SplitLines(options)| ::
                            r.value.options[i] == SplitOn(SplitLines(options)[i], ','))
                      && r.value.limit == limit
  {
    match LoadCandidates(candidates)
    case Err(e) => Err(e)
    case Ok(m) => Ok(Test(SplitLines(questions), OptionRows(SplitLines(options)), SplitLines(answers), m, limit))
  }

  /** The conversation states; `Idle` is outside the conversation (`ConversationHandler.END`). */
  datatype Phase = Idle | AwaitingExamNo | AwaitingStart | Answering

  /** `context.user_data`. */
  datatype Session = Session(examNo: string, name: string, score: nat, questionNumber: nat)

  /** An option button: its caption and the callback data it sends. */
  datatype Button = Button(caption: string, data: string)

  /** The messages the bot sends. */
  datatype Reply =
    | AskExamNo
    | NotFound(examNo: string)
    | Welcome(name: string, count: nat, duration: string)
    | Started
    | Question(number: nat, text: string, buttons: seq<Button>)
    | Marked(correct: bool, answer: string)
    | TimeUp
    | Completed(report: Report)
    | Cancelled

  datatype State = State(phase: Phase, session: Session)

  /**
   * The outcome of one update: the state after it, the messages sent, and
   * whether the handler raised. A raising handler leaves the phase as it
   * was, but the changes it made to `user_data` before raising stay.
   */
  datatype Step = Step(state: State, replies: seq<Reply>, raised: bool)

  /** The updates the conversation reacts to. */
  datatype Event =
    | Command(name: string)                 // "/start", "/cancel", ...
    | Message(text: string)                 // a text message that is not a command
    | Press(data: string, timeUp: bool)     // a button press, and whether the time is up when it arrives

  /** `option.split(":")[0]`: the button data is the option up to its first colon. */
  function CallbackData(option: string): (d: string)
    ensures d == option[..IndexOf(option, ':')]
    ensures ':' !in d
  {
    SplitOn(option, ':')[0]
  }

  /** The two rows of two buttons for the first four options. */
  function Buttons(options: seq<string>): (bs: seq<Button>)
    requires |options| >= 4
    ensures |bs| == 4 && forall k | 0 <= k < 4 :: bs[k] == Button(options[k], CallbackData(options[k]))
  {
    [Button(options[0], CallbackData(options[0])), Button(options[1], CallbackData(options[1])),
     Button(options[2], CallbackData(options[2])), Button(options[3], CallbackData(options[3]))]
  }

  /** `end_test`: the report for the question number reached; the conversation ends. */
  function EndTestStep(test: Test, s: Session, before: seq<Reply>): Step {
    Step(State(Idle, s), before + [Completed(EndTest(|test.questions|, s.questionNumber, s.score))], false)
  }

  /**
   * `ask_question`, called in `phase`: the report when the time is up or no
   * question is left, otherwise the question and its buttons; IndexError
   * when OPTIONS has no line, or fewer than four options, for the question.
   */
  function AskQuestion(test: Test, s: Session, timeUp: bool, phase: Phase): (r: Step)
    ensures r.state.session == s
    ensures r.raised <==> !timeUp && s.questionNumber < |test.questions|
                          && (s.questionNumber >= |test.options| || |test.options[s.questionNumber]| < 4)
    ensures r.raised ==> r.state.phase == phase
    ensures !r.raised ==> (r.state.phase == Answering <==> !timeUp && s.questionNumber < |test.questions|)
    ensures !r.raised && r.state.phase != Answering ==> r.state.phase == Idle
    ensures !r.raised && r.state.phase == Answering
            && s.questionNumber < |test.options| && |test.options[s.questionNumber]| >= 4 ==>
              r.replies == [Question(s.questionNumber + 1, test.questions[s.questionNumber],
                                     Buttons(test.options[s.questionNumber]))]
    ensures !r.raised && r.state.phase == Idle ==>
              |r.replies| > 0 && r.replies[|r.replies| - 1] == Completed(EndTest(|test.questions|, s.questionNumber, s.score))
    ensures timeUp ==> r.replies == [TimeUp, Completed(EndTest(|test.questions|, s.questionNumber, s.score))]
    ensures r.raised ==> r.replies == []
  {
    var qn := s.questionNumber;
    if timeUp then EndTestStep(test, s, [TimeUp])
    else if qn < |test.questions| then
      if qn >= |test.options| || |test.options[qn]| < 4 then Step(State(phase, s), [], true)
      else Step(State(Answering, s), [Question(qn + 1, test.questions[qn], Buttons(test.options[qn]))], false)
    else EndTestStep(test, s, [])
  }

  /** Sends `r`'s messages after `before`. */
  function After(before: seq<Reply>, r: Step): Step {
    r.(replies := before + r.replies)
  }

  /** `handle_response` on the candidate's text message. */
  function HandleResponseStep(test: Test, s: Session, text: string): (r: Step)
    ensures !r.raised
    ensures r.state.phase == AwaitingStart <==> HandleResponse(test.candidates, text).Enrolled?
    ensures r.state.phase != AwaitingStart ==> r.state == State(Idle, s)
    ensures r.state.phase == AwaitingStart ==>
              r.state.session == s.(examNo := Strip(text), name := test.candidates[Strip(text)])
  {
    match HandleResponse(test.candidates, text)
    case NotEnrolled(examNo) => Step(State(Idle, s), [NotFound(examNo)], false)
    case Enrolled(examNo, name) =>
      Step(State(AwaitingStart, s.(examNo := examNo, name := name)),
           [Welcome(name, |test.questions|, FormatTime(test.limit))], false)
  }

  /** `start_test`: "START" resets the counters to 0 and asks the first question; other data returns None. */
  function StartTest(test: Test, st: State, data: string, timeUp: bool): (r: Step)
    ensures data != "START" ==> r == Step(st, [], false)
    ensures data == "START" ==> r.state.session == st.session.(score := 0, questionNumber := 0)
    ensures data == "START" ==> |r.replies| > 0 && r.replies[0] == Started
    ensures data == "START" && !timeUp && |test.questions| > 0 && |test.options| > 0 && |test.options[0]| >= 4 ==>
              !r.raised && r.state.phase == Answering
              && r.replies == [Started, Question(1, test.questions[0], Buttons(test.options[0]))]
    ensures data == "START" && timeUp ==>
              r.state.phase == Idle && r.replies == [Started, TimeUp, Completed(EndTest(|test.questions|, 0, 0))]
    ensures data == "START" && !timeUp && |test.questions| == 0 ==>
              r.state.phase == Idle && r.replies == [Started, Completed(EndTest(0, 0, 0))]
  {
    if data == "START" then
      After([Started], AskQuestion(test, st.session.(score := 0, questionNumber := 0), timeUp, AwaitingStart))
    else Step(st, [], false)
  }

  /**
   * `handle_answer`: the press scores a point exactly when its data is the
   * answer to the current question, and the question number always
   * advances; then the next question or the report. IndexError when
   * ANSWERS has no line for the question.
   */
  function HandleAnswer(test: Test, st: State, data: string, timeUp: bool): (r: Step)
    ensures st.session.questionNumber >= |test.answers| ==> r == Step(st, [], true)
    ensures st.session.questionNumber < |test.answers| ==>
              var qn := st.session.questionNumber;
              r.state.session.questionNumber == qn + 1
              && r.state.session.score == st.session.score + (if data == test.answers[qn] then 1 else 0)
              && |r.replies| > 0 && r.replies[0] == Marked(data == test.answers[qn], test.answers[qn])
  {
    var s := st.session;
    var qn := s.questionNumber;
    if qn >= |test.answers| then Step(st, [], true)
    else
      var correct := data == test.answers[qn];
      var s' := s.(score := if correct then s.score + 1 else s.score, questionNumber := qn + 1);
      var mark := Marked(correct, test.answers[qn]);
      if s'.questionNumber < |test.questions| then After([mark], AskQuestion(test, s', timeUp, Answering))
      else EndTestStep(test, s', [mark])
  }

  /**
   * One update through the `ConversationHandler`: `/start` enters it from
   * outside, `/cancel` leaves it from any state, and each state hands its
   * kind of update to its handler; anything else is ignored.
   */
  function Handle(test: Test, st: State, ev: Event): Step {
    var s := st.session;
    match st.phase
    case Idle =>
      if ev == Command("start") then Step(State(AwaitingExamNo, s), [AskExamNo], false) else Step(st, [], false)
    case _ =>
      if ev == Command("cancel") then Step(State(Idle, s), [Cancelled], false)
      else
        match (st.phase, ev)
        case (AwaitingExamNo, Message(text)) => HandleResponseStep(test, s, text)
        case (AwaitingStart, Press(data, timeUp)) => StartTest(test, st, data, timeUp)
        case (Answering, Press(data, timeUp)) => HandleAnswer(test, st, data, timeUp)
        case _ => Step(st, [], false)
  }

  /**
   * What holds between updates: the score never exceeds the question
   * number, and while a question is open its number is within the test.
   */
  predicate Inv(test: Test, st: State) {
    st.session.score <= st.session.questionNumber
    && (st.phase == Answering ==> st.session.questionNumber < |test.questions|)
  }

  /** Every report the bot sends is made of counts. */
  predicate ReportsSane(replies: seq<Reply>) {
    forall k | 0 <= k < |replies| :: replies[k].Completed? ==> Sane(replies[k].report)
  }

  /** The conversation starts with no counters. */
  lemma InitialInv(test: Test)
    ensures Inv(test, State(Idle, Session("", "", 0, 0)))
  {
  }

  /** `handle_answer` keeps the invariant and reports only counts. */
  lemma AnswerKeepsInv(test: Test, st: State, data: string, timeUp: bool)
    requires Inv(test, st) && st.phase == Answering
    ensures Inv(test, HandleAnswer(test, st, data, timeUp).state)
    ensures ReportsSane(HandleAnswer(test, st, data, timeUp).replies)
  {
    var s := st.session;
    if s.questionNumber < |test.answers| {
      var score := if data == test.answers[s.questionNumber] then s.score + 1 else s.score;
      EndTestSane(|test.questions|, s.questionNumber + 1, score);
    }
  }

  /** `start_test` keeps the invariant and reports only counts. */
  lemma StartKeepsInv(test: Test, st: State, data: string, timeUp: bool)
    requires Inv(test, st) && st.phase == AwaitingStart
    ensures Inv(test, StartTest(test, st, data, timeUp).state)
    ensures ReportsSane(StartTest(test, st, data, timeUp).replies)
  {
    EndTestSane(|test.questions|, 0, 0);
  }

  /** Every update keeps the invariant, and every report sent is made of counts. */
  lemma HandleKeepsInv(test: Test, st: State, ev: Event)
    requires Inv(test, st)
    ensures Inv(test, Handle(test, st, ev).state)
    ensures ReportsSane(Handle(test, st, ev).replies)
  {
    if st.phase != Idle && ev.Press? && ev != Command("cancel") {
      if st.phase == AwaitingStart {
        StartKeepsInv(test, st, ev.data, ev.timeUp);
      } else if st.phase == Answering {
        AnswerKeepsInv(test, st, ev.data, ev.timeUp);
      }
    }
  }

  /** Every question has its line of at least four options and its answer. */
  predicate WellFormed(test: Test) {
    |test.options| >= |test.questions| && |test.answers| >= |test.questions|
    && forall i | 0 <= i < |test.questions| :: |test.options[i]| >= 4
  }

  /** The number of presses that match the answers at the same position. */
  function Matches(datas: seq<string>, answers: seq<string>): (n: nat)
    requires |datas| <= |answers|
    ensures n <= |datas|
  {
    if |datas| == 0 then 0
    else (if datas[0] == answers[0] then 1 else 0) + Matches(datas[1..], answers[1..])
  }

  /** Presses `datas` in order, before the time is up: the last step. */
  function Answer(test: Test, st: State, datas: seq<string>): Step
    decreases |datas|
  {
    if |datas| == 0 then Step(st, [], false)
    else
      var r := Handle(test, st, Press(datas[0], false));
      if |datas| == 1 then r else Answer(test, r.state, datas[1..])
  }

  /** One press on an open question of a well-formed test, in time. */
  lemma AnswerOne(test: Test, s: Session, data: string)
    requires WellFormed(test) && s.questionNumber < |test.questions|
    ensures var r := Handle(test, State(Answering, s), Press(data, false));
            var qn := s.questionNumber;
            var s' := s.(score := s.score + (if data == test.answers[qn] then 1 else 0), questionNumber := qn + 1);
            !r.raised
            && (qn + 1 < |test.questions| ==> r.state == State(Answering, s'))
            && (qn + 1 == |test.questions| ==>
                  r.state == State(Idle, s') && |r.replies| > 0
                  && r.replies[|r.replies| - 1] == Completed(EndTest(|test.questions|, qn + 1, s'.score)))
  {
  }

  /**
   * Answering the remaining questions in time: each press scores exactly
   * when it matches the answer at its position; the test stays open until
   * the last question is answered, and then the conversation ends.
   */
  lemma {:induction false} AnswersScore(test: Test, s: Session, datas: seq<string>)
    requires WellFormed(test) && s.questionNumber < |test.questions|
    requires 0 < |datas| && s.questionNumber + |datas| <= |test.questions|
    ensures var qn := s.questionNumber;
            var r := Answer(test, State(Answering, s), datas);
            r.state.session == s.(score := s.score + Matches(datas, test.answers[qn..]), questionNumber := qn + |datas|)
            && (r.state.phase == Answering <==> qn + |datas| < |test.questions|)
            && (r.state.phase != Answering ==> r.state.phase == Idle)
    decreases |datas|
  {
    var qn := s.questionNumber;
    var r1 := Handle(test, State(Answering, s), Press(datas[0], false));
    AnswerOne(test, s, datas[0]);
    var s1 := s.(score := s.score + (if datas[0] == test.answers[qn] then 1 else 0), questionNumber := qn + 1);
    assert test.answers[qn..][0] == test.answers[qn];
    assert test.answers[qn..][1..] == test.answers[qn + 1..];
    if |datas| == 1 {
      assert Answer(test, State(Answering, s), datas) == r1;
    } else {
      assert r1.state == State(Answering, s1);
      assert Answer(test, State(Answering, s), datas) == Answer(test, State(Answering, s1), datas[1..]);
      AnswersScore(test, s1, datas[1..]);
    }
  }

  /** The press that answers the last question sends the report of the session it leaves behind. */
  lemma {:induction false} LastAnswerReports(test: Test, s: Session, datas: seq<string>)
    requires WellFormed(test) && s.questionNumber < |test.questions|
    requires 0 < |datas| && s.questionNumber + |datas| == |test.questions|
    ensures var r := Answer(test, State(Answering, s), datas);
            |r.replies| > 0
            && r.replies[|r.replies| - 1]
               == Completed(EndTest(|test.questions|, r.state.session.questionNumber, r.state.session.score))
    decreases |datas|
  {
    var r1 := Handle(test, State(Answering, s), Press(datas[0], false));
    AnswerOne(test, s, datas[0]);
    if |datas| == 1 {
      assert Answer(test, State(Answering, s), datas) == r1;
    } else {
      assert Answer(test, State(Answering, s), datas) == Answer(test, r1.state, datas[1..]);
      LastAnswerReports(test, r1.state.session, datas[1..]);
    }
  }

  /**
   * A whole test taken in time: START sets both counters to 0, and after
   * one press per question the conversation ends with the report whose
   * score is the number of presses that match ANSWERS, every question
   * attempted.
   */
  lemma WholeTest(test: Test, s: Session, datas: seq<string>)
    requires WellFormed(test) && 0 < |test.questions| == |datas|
    ensures var started := Handle(test, State(AwaitingStart, s), Press("START", false));
            var r := Answer(test, started.state, datas);
            var score := Matches(datas, test.answers[..|datas|]);
            started.state == State(Answering, s.(score := 0, questionNumber := 0))
            && r.state.phase == Idle && |r.replies| > 0
            && r.replies[|r.replies| - 1] == Completed(EndTest(|datas|, |datas|, score))
  {
    var s0 := s.(score := 0, questionNumber := 0);
    assert Handle(test, State(AwaitingStart, s), Press("START", false)).state == State(Answering, s0);
    AnswersScore(test, s0, datas);
    LastAnswerReports(test, s0, datas);
    assert test.answers[0..] == test.answers;
    MatchesPrefix(datas, test.answers);
  }

  /** Only the answers up to the number of presses count. */
  lemma {:induction false} MatchesPrefix(datas: seq<string>, answers: seq<string>)
    requires |datas| <= |answers|
    ensures Matches(datas, answers) == Matches(datas, answers[..|datas|])
  {
    if |datas| > 0 {
      MatchesPrefix(datas[1..], answers[1..]);
      assert answers[..|datas|][1..] == answers[1..][..|datas| - 1];
    }
  }
}

=== FILE: root_server.dfy ===
/**
 * The top-level server (server.py): trailing NULs are the only clean-up, the
 * gate checks for the SHA-256 digest of the PSK, and the verdict is
 * membership in `splitlines()` (reread mode) or in a set of lines loaded
 * once at start-up (cached mode).
 */
module RootServer {

  import opened Wrappers
  import opened Text
  import opened Lines
  import opened Protocol

  /** This variant words its generic failure reply differently from the others. */
  const RootBusy: string := "Could not handle your request. Please try again later."

  /** The settings `handle_client` reads; `pskHash` is the digest of the PSK. */
  datatype Config = Config(pskAuth: bool, pskHash: string, reread: bool)

  /** The term searched for, or `None` when the gate rejects the query. */
  function SearchTerm(cfg: Config, received: string): Option<string> {
    StripKey(cfg.pskAuth, cfg.pskHash, TrimNuls(received))
  }

  /**
   * `handle_client`: the reply for one received message. `disk` is what a
   * fresh read of the file gives (`None` when it raises); `cache` is
   * FILE_CONTENTS_SET.
   */
  function HandleClient(cfg: Config, received: string, disk: Option<string>,
                        cache: Option<set<string>>): (reply: string)
    ensures reply in {Exists, NotFound, AuthFailed, RootBusy}
    ensures reply == AuthFailed <==> cfg.pskAuth && !StartsWith(TrimNuls(received), cfg.pskHash)
    ensures reply == RootBusy <==> SearchTerm(cfg, received).Some? && (if cfg.reread then disk.None? else cache.None?)
    ensures SearchTerm(cfg, received).Some? && cfg.reread && disk.Some? ==>
              reply == Verdict(LineExists(disk.value, SearchTerm(cfg, received).value))
    ensures SearchTerm(cfg, received).Some? && !cfg.reread && cache.Some? ==>
              reply == Verdict(SearchTerm(cfg, received).value in cache.value)
  {
    match SearchTerm(cfg, received)
    case None => AuthFailed
    case Some(term) =>
      if cfg.reread then
        match disk
        case None => RootBusy
        case Some(contents) => Verdict(term in SplitLines(contents))
      else
        match cache
        case None => RootBusy
        case Some(lines) => Verdict(term in lines)
  }

  /** Without the digest in front, an authenticating server answers the mismatch message whatever the file holds. */
  lemma RejectsWithoutKey(cfg: Config, received: string, disk1: Option<string>, disk2: Option<string>,
                          cache1: Option<set<string>>, cache2: Option<set<string>>)
    requires cfg.pskAuth && !StartsWith(TrimNuls(received), cfg.pskHash)
    ensures HandleClient(cfg, received, disk1, cache1) == AuthFailed
    ensures HandleClient(cfg, received, disk1, cache1) == HandleClient(cfg, received, disk2, cache2)
  {
  }

  /**
   * A client query `PSK_HASH + input` (client.py) is answered by whether
   * `input` is a line of the file, with authentication on or off.
   */
  lemma KeyedQueryRoundTrip(cfg: Config, input: string, contents: string)
    requires IsHexDigest(cfg.pskHash)
    requires |input| == 0 || input[|input| - 1] != '\0'
    ensures SearchTerm(cfg, cfg.pskHash + input) == Some(input)
    ensures cfg.reread ==>
      HandleClient(cfg, cfg.pskHash + input, Some(contents), None) == Verdict(LineExists(contents, input))
  {
    var q := cfg.pskHash + input;
    assert q[|q| - 1] != '\0' by {
      assert q[|q| - 1] == if |input| == 0 then cfg.pskHash[63] else input[|input| - 1];
      assert cfg.pskHash[63] in "0123456789abcdef";
    }
    assert TrimNuls(q) == q;
    StripKeyRoundTrip(cfg.pskAuth, cfg.pskHash, input);
  }

  /** With authentication off, text that does not start with the digest is searched unchanged. */
  lemma AuthOffSearchesData(cfg: Config, received: string)
    requires !cfg.pskAuth && !StartsWith(TrimNuls(received), cfg.pskHash)
    ensures SearchTerm(cfg, received) == Some(TrimNuls(received))
  {
  }

  /** Only NUL padding is removed: surrounding spaces are part of the term. */
  lemma SpacesAreKept()
    ensures var cfg := Config(false, "k", true);
            HandleClient(cfg, " x \0\0", Some(" x \n"), None) == Exists
            && HandleClient(cfg, " x \0\0", Some("x\n"), None) == NotFound
  {
    var cfg := Config(false, "k", true);
    assert TrimNuls(" x \0\0") == " x " by {
      assert " x \0\0"[..4] == " x \0";
      assert " x \0"[..3] == " x ";
    }
    assert !StartsWith(" x ", "k") by {
      assert " x "[..1][0] == ' ';
    }
    assert SplitLines(" x \n") == [" x "] by {
      var s := " x \n";
      assert IndexOf(s, '\n') == 3 by {
        assert s[0] != '\n' && s[1] != '\n' && s[2] != '\n' && s[3] == '\n';
      }
      assert s[..3] == " x ";
      assert s[4..] == "";
    }
    assert SplitLines("x\n") == ["x"] by {
      var s := "x\n";
      assert IndexOf(s, '\n') == 1 by {
        assert s[0] != '\n' && s[1] == '\n';
      }
      assert s[..1] == "x";
      assert s[2..] == "";
    }
  }

  /**
   * `load_file_contents`: reads the file only while nothing is loaded.
   * `None` is the `sys.exit(1)` taken when the file cannot be read.
   */
  function LoadFileContents(cache: Option<set<string>>, disk: Option<string>): (loaded: Option<set<string>>)
    ensures cache.Some? ==> loaded == cache
    ensures cache.None? && disk.Some? ==> loaded == Some(LineSet(disk.value))
    ensures cache.None? && disk.None? ==> loaded.None?
  {
    match cache
    case Some(_) => cache
    case None =>
      match disk
      case None => None
      case Some(contents) => Some(LineSet(contents))
  }

  /** Loading again changes nothing, whatever the file holds by then. */
  lemma LoadIdempotent(cache: Option<set<string>>, disk1: Option<string>, disk2: Option<string>)
    requires LoadFileContents(cache, disk1).Some?
    ensures LoadFileContents(LoadFileContents(cache, disk1), disk2) == LoadFileContents(cache, disk1)
  {
  }

  /** For an unchanged file, the cached set and a fresh read give the same reply to every query. */
  lemma ModesAgree(cfg: Config, received: string, contents: string, other: Option<string>)
    ensures HandleClient(cfg.(reread := true), received, Some(contents), None)
         == HandleClient(cfg.(reread := false), received, other, LoadFileContents(None, Some(contents)))
  {
  }

  /** `log_settings`: `false` is the `sys.exit(1)` for an empty PSK under authentication or an empty path. */
  function SettingsValid(pskAuth: bool, psk: string, filePath: string): bool {
    !(pskAuth && psk == "") && filePath != ""
  }

  /**
   * `start_server` before its accept loop: `load_file_contents` then
   * `log_settings`; the loaded set, or `None` when the process exits.
   */
  function Startup(pskAuth: bool, psk: string, filePath: string, disk: Option<string>): (cache: Option<set<string>>)
    ensures cache.Some? <==> disk.Some? && filePath != "" && (pskAuth ==> psk != "")
    ensures cache.Some? ==> forall t :: t in cache.value <==> LineExists(disk.value, t)
  {
    var loaded := LoadFileContents(None, disk);
    if loaded.Some? && SettingsValid(pskAuth, psk, filePath) then loaded else None
  }
}

=== FILE: search_server.dfy ===
/**
 * The first file-search server (storage_box/file_search_server/server.py):
 * empty input is refused, the PSK digest is removed when it leads, the file is
 * read afresh or through `read_file_once`, and the verdict is a MULTILINE
 * `^term$` regular-expression search.
 */
module SearchServer {

  import opened Wrappers
  import opened Text
  import opened Lines
  import opened Protocol
  import SearchServer2

  /** The settings `handle_client` reads; `pskHash` is the digest of the PSK. */
  datatype Config = Config(pskAuth: bool, pskHash: string, reread: bool)

  /** The reply sent and the `file_contents` cache left behind. */
  datatype Outcome = Outcome(reply: string, cache: Option<string>)

  /** The term searched for, or `None` when the gate rejects the query. */
  function SearchTerm(cfg: Config, received: string): Option<string> {
    StripKey(cfg.pskAuth, cfg.pskHash, Normalize(received))
  }

  /**
   * `handle_client` as written: `disk` is what reading the file gives
   * (`None` when it raises), `cache` is `file_contents`.
   */
  function HandleClient(cfg: Config, received: string, disk: Option<string>,
                        cache: Option<string>): (r: Outcome)
    ensures r.reply in {Exists, NotFound, AuthFailed, Busy, InvalidInput}
    ensures r.reply == InvalidInput <==> Normalize(received) == ""
    ensures r.reply == AuthFailed <==>
              Normalize(received) != "" && cfg.pskAuth && !StartsWith(Normalize(received), cfg.pskHash)
    ensures cache.Some? || cfg.reread ==> r.cache == cache
    ensures !cfg.reread && cache.None? && Normalize(received) != "" && SearchTerm(cfg, received).Some? ==> r.cache == disk
    ensures Normalize(received) != "" && SearchTerm(cfg, received).Some? ==>
              var text := TextRead(cfg.reread, cache, disk);
              (r.reply == Busy <==> text.None?)
              && (text.Some? ==> r.reply == Verdict(RegexFullLine(text.value, SearchTerm(cfg, received).value)))
  {
    if Normalize(received) == "" then Outcome(InvalidInput, cache)
    else
      match SearchTerm(cfg, received)
      case None => Outcome(AuthFailed, cache)
      case Some(term) =>
        if cfg.reread then
          match disk
          case None => Outcome(Busy, cache)
          case Some(contents) => Outcome(Verdict(RegexFullLine(contents, term)), cache)
        else
          var (text, cache') := ReadFileOnce(cache, disk);
          match text
          case None => Outcome(Busy, cache')
          case Some(contents) => Outcome(Verdict(RegexFullLine(contents, term)), cache')
  }

  /** Received text that is empty once NUL padding and whitespace are removed is refused before the gate. */
  lemma BlankInputRefused(cfg: Config, disk: Option<string>, cache: Option<string>)
    ensures HandleClient(cfg, "", disk, cache) == Outcome(InvalidInput, cache)
    ensures HandleClient(cfg, " \0\0", disk, cache) == Outcome(InvalidInput, cache)
  {
    assert TrimNuls(" \0\0") == " " by {
      assert " \0\0"[..2] == " \0";
      assert " \0"[..1] == " ";
    }
    assert Strip(" ") == "";
  }

  /**
   * A client query `PSK_HASH + input`, for a non-empty trimmed input holding
   * no '\n', is answered by whether `input` is a line of the file, in either
   * mode and with authentication on or off.
   */
  lemma KeyedQueryFindsLine(cfg: Config, input: string, contents: string, cache: Option<string>)
    requires IsHexDigest(cfg.pskHash)
    requires |input| > 0 && IsStripped(input) && input[|input| - 1] != '\0' && '\n' !in input
    ensures var text := if cfg.reread || cache.None? then contents else cache.value;
            HandleClient(cfg, cfg.pskHash + input, Some(contents), cache).reply == Verdict(LineExists(text, input))
  {
    KeyedQueryIsStripped(cfg.pskHash, input);
    StripKeyRoundTrip(cfg.pskAuth, cfg.pskHash, input);
    var text := if cfg.reread || cache.None? then contents else cache.value;
    RegexAgreesWithLines(text, input);
  }

  /** The repository's test file: one line, "test data". */
  const TestData: string := "test data"

  /** Naming only part of the line is not a match. */
  lemma PartialMatchNotFound(cfg: Config)
    requires IsHexDigest(cfg.pskHash)
    ensures HandleClient(cfg, cfg.pskHash + "test", Some(TestData), None).reply == NotFound
  {
    var q := "test";
    SplitLinesSingle(TestData);
    assert |q| != |TestData|;
    assert !LineExists(TestData, q);
    assert IsStripped(q) && q[|q| - 1] != '\0';
    assert '\n' !in q by {
      assert q[0] != '\n' && q[1] != '\n' && q[2] != '\n' && q[3] != '\n';
    }
    KeyedQueryFindsLine(cfg, q, TestData, None);
  }

  /** The whole line is a match. */
  lemma FullLineFound(cfg: Config)
    requires IsHexDigest(cfg.pskHash)
    ensures HandleClient(cfg, cfg.pskHash + TestData, Some(TestData), None).reply == Exists
  {
    SplitLinesSingle(TestData);
    KeyedQueryFindsLine(cfg, TestData, TestData, None);
  }

  /**
   * A query that is only the digest passes the empty-input check, leaves the
   * empty term, and `^$` then matches after the final '\n' of a file that has
   * no empty line.
   */
  lemma KeyOnlyQueryFindsEmptyLine(cfg: Config)
    requires IsHexDigest(cfg.pskHash) && cfg.reread
    ensures HandleClient(cfg, cfg.pskHash, Some("a\n"), None).reply == Exists
    ensures !LineExists("a\n", "")
  {
    KeyedQueryIsStripped(cfg.pskHash, "");
    StripKeyRoundTrip(cfg.pskAuth, cfg.pskHash, "");
    assert cfg.pskHash + "" == cfg.pskHash;
    EmptyTermMatchesAfterFinalNewline();
  }

  /** A term holding '\n' matches two consecutive lines although it is no line of the file. */
  lemma TwoLineQueryFound(cfg: Config)
    requires IsHexDigest(cfg.pskHash) && cfg.reread
    ensures HandleClient(cfg, cfg.pskHash + "a\nb", Some("a\nb"), None).reply == Exists
    ensures !LineExists("a\nb", "a\nb")
  {
    KeyedQueryIsStripped(cfg.pskHash, "a\nb");
    StripKeyRoundTrip(cfg.pskAuth, cfg.pskHash, "a\nb");
    NewlineTermSpansTwoLines();
  }

  /**
   * The evidently intended behaviour: the empty check applies to the term
   * that remains once the key is removed, and the verdict is membership
   * among the file's lines.
   */
  function HandleClientIntended(cfg: Config, received: string, disk: Option<string>,
                                cache: Option<string>): (r: Outcome)
    ensures r.reply in {Exists, NotFound, AuthFailed, Busy, InvalidInput}
    ensures r.reply == Exists ==>
              var text := if cfg.reread then disk else r.cache;
              var term := SearchTerm(cfg, received);
              term.Some? && term.value != "" && text.Some? && LineExists(text.value, term.value)
    ensures SearchTerm(cfg, received) == Some("") ==> r.reply == InvalidInput
    ensures SearchTerm(cfg, received).Some? && SearchTerm(cfg, received).value != "" ==>
              var text := TextRead(cfg.reread, cache, disk);
              (r.reply == Busy <==> text.None?)
              && (text.Some? ==> r.reply == Verdict(LineExists(text.value, SearchTerm(cfg, received).value)))
    ensures cache.Some? || cfg.reread ==> r.cache == cache
  {
    if Normalize(received) == "" then Outcome(InvalidInput, cache)
    else
      match SearchTerm(cfg, received)
      case None => Outcome(AuthFailed, cache)
      case Some(term) =>
        if term == "" then Outcome(InvalidInput, cache)
        else if cfg.reread then
          match disk
          case None => Outcome(Busy, cache)
          case Some(contents) => Outcome(Verdict(LineExists(contents, term)), cache)
        else
          var (text, cache') := ReadFileOnce(cache, disk);
          match text
          case None => Outcome(Busy, cache')
          case Some(contents) => Outcome(Verdict(LineExists(contents, term)), cache')
  }

  /** Wherever the term is non-empty and holds no '\n', the code as written gives the intended reply. */
  lemma IntendedAgreesOnOrdinaryTerms(cfg: Config, received: string, disk: Option<string>, cache: Option<string>)
    requires SearchTerm(cfg, received).Some? ==>
               SearchTerm(cfg, received).value != "" && '\n' !in SearchTerm(cfg, received).value
    ensures HandleClient(cfg, received, disk, cache) == HandleClientIntended(cfg, received, disk, cache)
  {
    var term := SearchTerm(cfg, received);
    if Normalize(received) != "" && term.Some? {
      if cfg.reread && disk.Some? {
        RegexAgreesWithLines(disk.value, term.value);
      } else if !cfg.reread && ReadFileOnce(cache, disk).0.Some? {
        RegexAgreesWithLines(ReadFileOnce(cache, disk).0.value, term.value);
      }
    }
  }

  /** The intended handler refuses the digest-only query. */
  lemma IntendedRefusesKeyOnlyQuery(cfg: Config, disk: Option<string>, cache: Option<string>)
    requires IsHexDigest(cfg.pskHash)
    ensures HandleClientIntended(cfg, cfg.pskHash, disk, cache).reply == InvalidInput
  {
    KeyedQueryIsStripped(cfg.pskHash, "");
    StripKeyRoundTrip(cfg.pskAuth, cfg.pskHash, "");
    assert cfg.pskHash + "" == cfg.pskHash;
  }

  /** `log_settings`: `false` is the `exit(1)` for an empty PSK under authentication or an empty path. */
  function SettingsValid(pskAuth: bool, psk: string, filePath: string): bool {
    !(pskAuth && psk == "") && filePath != ""
  }

  /** Both file-search servers refuse to start on exactly the same settings. */
  lemma SettingsAgreeWithSecondServer(pskAuth: bool, psk: string, filePath: string,
                                      cache: Option<set<string>>, disk: Option<string>)
    ensures SettingsValid(pskAuth, psk, filePath) <==>
            SearchServer2.LogSettings(pskAuth, psk, filePath, cache, disk).Running?
  {
  }
}

=== FILE: search_server2.dfy ===
/**
 * The second file-search server (storage_box/file_search_server2/server.py):
 * received text is NUL-trimmed and stripped, the PSK digest is removed when
 * it leads, and the term is looked up in `splitlines()` of a fresh read or in
 * the set `log_settings` loaded at start-up.
 */
module SearchServer2 {

  import opened Wrappers
  import opened Text
  import opened Lines
  import opened Protocol

  /** The settings `handle_client` reads; `pskHash` is the digest of the PSK. */
  datatype Config = Config(pskAuth: bool, pskHash: string, reread: bool)

  /** The term searched for, or `None` when the gate rejects the query. */
  function SearchTerm(cfg: Config, received: string): Option<string> {
    StripKey(cfg.pskAuth, cfg.pskHash, Normalize(received))
  }

  /**
   * `handle_client`: `disk` is a fresh read of the file (`None` when it
   * raises); `cache` is `file_contents_set`, still `None` when the start-up
   * load failed, in which case the membership test raises and the generic
   * failure reply is sent.
   */
  function HandleClient(cfg: Config, received: string, disk: Option<string>,
                        cache: Option<set<string>>): (reply: string)
    ensures reply in {Exists, NotFound, AuthFailed, Busy}
    ensures reply == AuthFailed <==> cfg.pskAuth && !StartsWith(Normalize(received), cfg.pskHash)
    ensures reply == Busy <==> SearchTerm(cfg, received).Some? && (if cfg.reread then disk.None? else cache.None?)
    ensures SearchTerm(cfg, received).Some? && cfg.reread && disk.Some? ==>
              reply == Verdict(LineExists(disk.value, SearchTerm(cfg, received).value))
    ensures SearchTerm(cfg, received).Some? && !cfg.reread && cache.Some? ==>
              reply == Verdict(SearchTerm(cfg, received).value in cache.value)
  {
    match SearchTerm(cfg, received)
    case None => AuthFailed
    case Some(term) =>
      if cfg.reread then
        match disk
        case None => Busy
        case Some(contents) => Verdict(term in SplitLines(contents))
      else
        match cache
        case None => Busy
        case Some(lines) => Verdict(term in lines)
  }

  /**
   * A client query `PSK_HASH + input` for a trimmed input is answered by
   * whether `input` is a line of the file, with authentication on or off.
   */
  lemma KeyedQueryRoundTrip(cfg: Config, input: string, contents: string)
    requires IsHexDigest(cfg.pskHash)
    requires IsStripped(input)
    requires |input| == 0 || input[|input| - 1] != '\0'
    ensures SearchTerm(cfg, cfg.pskHash + input) == Some(input)
    ensures HandleClient(cfg, cfg.pskHash + input, Some(contents), Some(LineSet(contents)))
         == Verdict(LineExists(contents, input))
  {
    KeyedQueryIsStripped(cfg.pskHash, input);
    StripKeyRoundTrip(cfg.pskAuth, cfg.pskHash, input);
  }

  /** The outcome of `log_settings`: the process exits, or runs with whatever set it loaded. */
  datatype Startup = Stopped | Running(cache: Option<set<string>>)

  /**
   * `log_settings`: an empty PSK under authentication or an empty path stops
   * the server; otherwise the file is loaded once, and a failed read is only
   * logged, leaving the set empty.
   */
  function LogSettings(pskAuth: bool, psk: string, filePath: string,
                       cache: Option<set<string>>, disk: Option<string>): (r: Startup)
    ensures r.Stopped? <==> (pskAuth && psk == "") || filePath == ""
    ensures r.Running? && cache.Some? ==> r.cache == cache
    ensures r.Running? && cache.None? ==> r.cache == (if disk.Some? then Some(LineSet(disk.value)) else None)
  {
    if pskAuth && psk == "" then Stopped
    else if filePath == "" then Stopped
    else if cache.Some? then Running(cache)
    else
      match disk
      case None => Running(None)
      case Some(contents) => Running(Some(LineSet(contents)))
  }

  /** The three-line file the repository's test suite serves. */
  const TestData: string := "test data" + "\n" + "another line" + "\n" + "query"

  lemma TestDataLines()
    ensures SplitLines(TestData) == ["test data", "another line", "query"]
  {
    ThreeLines("test data", "another line", "query");
  }

  /** Three lines joined by '\n', the last one non-empty, split back into the three. */
  lemma ThreeLines(a: string, b: string, c: string)
    requires '\n' !in a && '\n' !in b && '\n' !in c && |c| > 0
    ensures SplitLines(a + "\n" + b + "\n" + c) == [a, b, c]
  {
    SplitLinesSingle(c);
    SplitLinesCons(b, c);
    assert a + "\n" + b + "\n" + c == a + "\n" + (b + "\n" + c);
    SplitLinesCons(a, b + "\n" + c);
  }

  /** The test file loads as exactly its three lines. */
  lemma LoadTestFile()
    ensures LogSettings(true, "psk", "tests/test_data.txt", None, Some(TestData))
         == Running(Some({"test data", "another line", "query"}))
  {
    TestDataLines();
    var lines := ["test data", "another line", "query"];
    assert LineSet(TestData) == {"test data", "another line", "query"} by {
      forall t
        ensures t in LineSet(TestData) <==> t in {"test data", "another line", "query"}
      {
        assert t in lines <==> t == lines[0] || t == lines[1] || t == lines[2];
      }
    }
  }

  /** A query naming only part of a line is not found. */
  lemma PartialMatchNotFound(cfg: Config)
    requires IsHexDigest(cfg.pskHash)
    ensures HandleClient(cfg, cfg.pskHash + "test", Some(TestData), Some(LineSet(TestData))) == NotFound
  {
    TestDataLines();
    var lines := ["test data", "another line", "query"];
    assert |"test"| != |lines[0]| && |"test"| != |lines[1]| && |"test"| != |lines[2]|;
    assert !LineExists(TestData, "test");
    KeyedQueryRoundTrip(cfg, "test", TestData);
  }

  /** After a failed start-up load, a cached-mode server answers every authorised query with the failure reply. */
  lemma FailedLoadAnswersBusy(cfg: Config, psk: string, path: string, received: string, disk: Option<string>)
    requires !cfg.reread
    requires LogSettings(cfg.pskAuth, psk, path, None, None).Running?
    requires SearchTerm(cfg, received).Some?
    ensures HandleClient(cfg, received, disk, LogSettings(cfg.pskAuth, psk, path, None, None).cache) == Busy
  {
  }

  /** For an unchanged file, the loaded set and a fresh read give the same reply to every query. */
  lemma ModesAgree(cfg: Config, received: string, contents: string, other: Option<string>)
    ensures HandleClient(cfg.(reread := true), received, Some(contents), None)
         == HandleClient(cfg.(reread := false), received, other, Some(LineSet(contents)))
  {
  }
}

=== FILE: text.dfy ===
/**
 * The Python string built-ins the servers, decoders and bots rely on, over
 * `seq<char>`: `rstrip(ch)`, `strip()`, `startswith`, `split(sep)`, `split()`,
 * `upper()`, `lower()`, `' '.join`, and a simplified `int()` with its inverse
 * `str(int)`. Whitespace is Python's ASCII set `string.whitespace`.
 */
module Text {

  import opened Wrappers

  /** One of ' ', '\t', '\n', '\r', '\x0b', '\x0c'. */
  predicate IsSpace(c: char) {
    c == ' ' || c == '\t' || c == '\n' || c == '\r' || c == '\U{000B}' || c == '\U{000C}'
  }

  predicate IsDigit(c: char) {
    '0' <= c <= '9'
  }

  /** Neither end of `s` is whitespace (vacuous for the empty string). */
  predicate IsStripped(s: string) {
    |s| == 0 || (!IsSpace(s[0]) && !IsSpace(s[|s| - 1]))
  }

  /** `s.startswith(p)` */
  predicate StartsWith(s: string, p: string) {
    |p| <= |s| && s[..|p|] == p
  }

  /** Index of the first `c` in `s`, or `|s|` when there is none. */
  function IndexOf(s: string, c: char): (i: nat)
    ensures i <= |s|
    ensures i < |s| ==> s[i] == c
    ensures forall k | 0 <= k < i :: s[k] != c
  {
    if |s| == 0 then 0
    else if s[0] == c then 0
    else 1 + IndexOf(s[1..], c)
  }

  /** `s.rstrip(c)` for a single character `c`. */
  function RStripChar(s: string, c: char): (r: string)
    ensures |r| <= |s| && r == s[..|r|]
    ensures |r| == 0 || r[|r| - 1] != c
    ensures forall k | |r| <= k < |s| :: s[k] == c
  {
    if |s| > 0 && s[|s| - 1] == c then RStripChar(s[..|s| - 1], c) else s
  }

  /** `s.rstrip()` */
  function RStrip(s: string): (r: string)
    ensures |r| <= |s| && r == s[..|r|]
    ensures |r| == 0 || !IsSpace(r[|r| - 1])
    ensures forall k | |r| <= k < |s| :: IsSpace(s[k])
  {
    if |s| > 0 && IsSpace(s[|s| - 1]) then RStrip(s[..|s| - 1]) else s
  }

  /** `s.lstrip()` */
  function LStrip(s: string): (r: string)
    ensures |r| <= |s| && r == s[|s| - |r|..]
    ensures |r| == 0 || !IsSpace(r[0])
    ensures forall k | 0 <= k < |s| - |r| :: IsSpace(s[k])
  {
    if |s| > 0 && IsSpace(s[0]) then LStrip(s[1..]) else s
  }

  /** `r` is `s[i..]` cut short, with only whitespace around it in `s`. */
  predicate TrimmedAt(s: string, r: string, i: int) {
    && 0 <= i <= |s| - |r|
    && r == s[i..i + |r|]
    && (forall k | 0 <= k < i :: IsSpace(s[k]))
    && (forall k | i + |r| <= k < |s| :: IsSpace(s[k]))
  }

  /** `s.strip()`: the part of `s` left once whitespace is cut from both ends. */
  function Strip(s: string): (r: string)
    ensures IsStripped(r)
  {
    var t := RStrip(s);
    var r := LStrip(t);
    assert |r| > 0 ==> r[|r| - 1] == t[|t| - 1];
    r
  }

  /** What `strip()` removes is whitespace at the two ends and nothing else. */
  lemma StripTrims(s: string)
    ensures exists i :: TrimmedAt(s, Strip(s), i)
  {
    var t := RStrip(s);
    var r := LStrip(t);
    assert Strip(s) == r;
    TrimmedOfParts(s, t, r);
  }

  /** A whitespace-free cut of a whitespace-free cut is trimmed out of the whole. */
  lemma TrimmedOfParts(s: string, t: string, r: string)
    requires |t| <= |s| && t == s[..|t|]
    requires forall k | |t| <= k < |s| :: IsSpace(s[k])
    requires |r| <= |t| && r == t[|t| - |r|..]
    requires forall k | 0 <= k < |t| - |r| :: IsSpace(t[k])
    ensures TrimmedAt(s, r, |t| - |r|)
  {
    var i := |t| - |r|;
    assert r == s[i..i + |r|];
    assert forall k | 0 <= k < i :: s[k] == t[k];
  }

  /** Stripping leaves a string with no surrounding whitespace unchanged. */
  lemma StripKeepsStripped(s: string)
    requires IsStripped(s)
    ensures Strip(s) == s
  {
    assert RStrip(s) == s;
    assert LStrip(s) == s;
  }

  /** `strip()` is idempotent. */
  lemma StripIdempotent(s: string)
    ensures Strip(Strip(s)) == Strip(s)
  {
    StripKeepsStripped(Strip(s));
  }

  /** A trailing newline is whitespace, so stripping ignores it. */
  lemma StripDropsNewline(s: string)
    ensures Strip(s + ['\n']) == Strip(s)
  {
    var t := s + ['\n'];
    assert RStrip(t) == RStrip(s) by {
      assert IsSpace(t[|t| - 1]);
      assert t[..|t| - 1] == s;
    }
  }

  /** `s.split(sep)`: always at least one field; fields hold no `sep`. */
  function SplitOn(s: string, sep: char): (fields: seq<string>)
    ensures |fields| > 0
    ensures forall k | 0 <= k < |fields| :: sep !in fields[k]
    decreases |s|
  {
    var i := IndexOf(s, sep);
    if i == |s| then
      [s]
    else
      [s[..i]] + SplitOn(s[i + 1..], sep)
  }

  /** `split(sep)` gives one more field than `s` holds separators. */
  lemma {:induction false} SplitOnCount(s: string, sep: char)
    ensures |SplitOn(s, sep)| == multiset(s)[sep] + 1
    decreases |s|
  {
    var i := IndexOf(s, sep);
    if i == |s| {
      assert sep !in s;
    } else {
      assert s == s[..i] + [s[i]] + s[i + 1..];
      assert sep !in s[..i];
      SplitOnCount(s[i + 1..], sep);
    }
  }

  /** A `split(sep)` with exactly two fields cuts `s` at its only separator. */
  lemma SplitOnTwoFields(s: string, sep: char)
    requires |SplitOn(s, sep)| == 2
    ensures var i := IndexOf(s, sep);
            i < |s| && SplitOn(s, sep) == [s[..i], s[i + 1..]]
  {
    var i := IndexOf(s, sep);
    if i < |s| {
      assert |SplitOn(s[i + 1..], sep)| == 1;
      SplitOnCount(s[i + 1..], sep);
      assert sep !in s[i + 1..];
    }
  }

  /** A word as `str.split()` yields it: non-empty, no whitespace. */
  predicate IsWord(w: string) {
    |w| > 0 && forall k | 0 <= k < |w| :: !IsSpace(w[k])
  }

  /** Index of the first whitespace character in `s`, or `|s|`. */
  function SpaceIndex(s: string): (i: nat)
    ensures i <= |s|
    ensures i < |s| ==> IsSpace(s[i])
    ensures forall k | 0 <= k < i :: !IsSpace(s[k])
  {
    if |s| == 0 || IsSpace(s[0]) then 0 else 1 + SpaceIndex(s[1..])
  }

  /** `s.split()`: the maximal runs of non-whitespace, in order. */
  function SplitWords(s: string): (ws: seq<string>)
    ensures forall k | 0 <= k < |ws| :: IsWord(ws[k])
    decreases |s|
  {
    if |s| == 0 then []
    else if IsSpace(s[0]) then SplitWords(s[1..])
    else
      var j := SpaceIndex(s);
      [s[..j]] + SplitWords(s[j..])
  }

  /** `' '.join(ws)` */
  function JoinSpaces(ws: seq<string>): string {
    if |ws| == 0 then []
    else if |ws| == 1 then ws[0]
    else ws[0] + " " + JoinSpaces(ws[1..])
  }

  /** Splitting a single-space join of words gives the words back. */
  lemma {:induction false} SplitJoinSpaces(ws: seq<string>)
    requires forall k | 0 <= k < |ws| :: IsWord(ws[k])
    ensures SplitWords(JoinSpaces(ws)) == ws
  {
    if |ws| == 0 {
    } else {
      var w := ws[0];
      var rest := if |ws| == 1 then [] else " " + JoinSpaces(ws[1..]);
      assert JoinSpaces(ws) == w + rest;
      SplitWordsAfterWord(w, rest);
      if |ws| > 1 {
        SplitJoinSpaces(ws[1..]);
        assert SplitWords(rest) == SplitWords(JoinSpaces(ws[1..]));
        assert ws == [w] + ws[1..];
      }
    }
  }

  /** A word followed by nothing or by whitespace is split off as one token. */
  lemma SplitWordsAfterWord(w: string, rest: string)
    requires IsWord(w)
    requires |rest| == 0 || IsSpace(rest[0])
    ensures SplitWords(w + rest) == [w] + SplitWords(rest)
  {
    var s := w + rest;
    assert SpaceIndex(s) == |w| by {
      assert forall k | 0 <= k < |w| :: s[k] == w[k];
      assert |rest| > 0 ==> IsSpace(s[|w|]);
    }
    assert s[..|w|] == w;
    assert s[|w|..] == rest;
  }

  /** Leading whitespace does not change `split()`. */
  lemma {:induction false} SplitWordsLStrip(s: string)
    ensures SplitWords(LStrip(s)) == SplitWords(s)
  {
    if |s| > 0 && IsSpace(s[0]) {
      SplitWordsLStrip(s[1..]);
    }
  }

  /** Trailing whitespace does not change `split()`. */
  lemma {:induction false} SplitWordsTrailing(s: string, x: string)
    requires forall k | 0 <= k < |x| :: IsSpace(x[k])
    ensures SplitWords(s + x) == SplitWords(s)
    decreases |s| + |x|
  {
    var sx := s + x;
    if |s| == 0 {
      assert sx == x;
      if |x| > 0 {
        SplitWordsTrailing(s, x[1..]);
        assert sx[1..] == s + x[1..];
      }
    } else if IsSpace(s[0]) {
      SplitWordsTrailing(s[1..], x);
      assert sx[1..] == s[1..] + x;
    } else {
      var j := SpaceIndex(s);
      assert SpaceIndex(sx) == j by {
        assert forall k | 0 <= k < j :: sx[k] == s[k];
        assert j < |sx| ==> IsSpace(sx[j]);
        SpaceIndexIs(sx, j);
      }
      assert sx[..j] == s[..j];
      assert sx[j..] == s[j..] + x;
      SplitWordsTrailing(s[j..], x);
    }
  }

  /** `SpaceIndex` is the first whitespace position. */
  lemma {:induction false} SpaceIndexIs(s: string, j: nat)
    requires j <= |s|
    requires forall k | 0 <= k < j :: !IsSpace(s[k])
    requires j < |s| ==> IsSpace(s[j])
    ensures SpaceIndex(s) == j
  {
    if j > 0 {
      SpaceIndexIs(s[1..], j - 1);
    }
  }

  /** Trailing whitespace cut by `rstrip()` does not change `split()`. */
  lemma {:induction false} SplitWordsRStrip(s: string)
    ensures SplitWords(RStrip(s)) == SplitWords(s)
  {
    if |s| > 0 && IsSpace(s[|s| - 1]) {
      var init := s[..|s| - 1];
      SplitWordsRStrip(init);
      assert s == init + [s[|s| - 1]];
      SplitWordsTrailing(init, [s[|s| - 1]]);
    }
  }

  /** `line.strip().split()` is `line.split()`. */
  lemma SplitWordsStrip(s: string)
    ensures SplitWords(Strip(s)) == SplitWords(s)
  {
    var t := RStrip(s);
    assert Strip(s) == LStrip(t);
    SplitWordsLStrip(t);
    SplitWordsRStrip(s);
  }

  predicate IsLowerLetter(c: char) {
    'a' <= c <= 'z'
  }

  predicate IsUpperLetter(c: char) {
    'A' <= c <= 'Z'
  }

  function UpperChar(c: char): char {
    if IsLowerLetter(c) then (c as int - 32) as char else c
  }

  function LowerChar(c: char): char {
    if IsUpperLetter(c) then (c as int + 32) as char else c
  }

  /** `s.upper()` restricted to ASCII letters. */
  function Upper(s: string): (r: string)
    ensures |r| == |s|
    ensures forall k | 0 <= k < |s| :: r[k] == UpperChar(s[k])
  {
    if |s| == 0 then [] else [UpperChar(s[0])] + Upper(s[1..])
  }

  /** `s.lower()` restricted to ASCII letters. */
  function Lower(s: string): (r: string)
    ensures |r| == |s|
    ensures forall k | 0 <= k < |s| :: r[k] == LowerChar(s[k])
  {
    if |s| == 0 then [] else [LowerChar(s[0])] + Lower(s[1..])
  }

  predicate AllDigits(s: string) {
    forall k | 0 <= k < |s| :: IsDigit(s[k])
  }

  function DigitValue(c: char): nat
    requires IsDigit(c)
  {
    c as int - '0' as int
  }

  function DigitChar(d: nat): char
    requires d < 10
  {
    (d + '0' as int) as char
  }

  /** The value of a non-empty run of decimal digits. */
  function DigitsValue(s: string): nat
    requires |s| > 0 && AllDigits(s)
  {
    if |s| == 1 then DigitValue(s[0])
    else 10 * DigitsValue(s[..|s| - 1]) + DigitValue(s[|s| - 1])
  }

  /**
   * Python's `int(text)`, simplified: surrounding whitespace, an optional
   * sign and at least one ASCII digit; `None` where `int` raises ValueError.
   */
  function ParseInt(text: string): Option<int> {
    ParseSigned(Strip(text))
  }

  /** The sign and digits `int` accepts once the text is stripped. */
  function ParseSigned(t: string): Option<int> {
    if |t| > 0 && (t[0] == '-' || t[0] == '+') then
      if |t| > 1 && AllDigits(t[1..]) then
        Some(if t[0] == '-' then -(DigitsValue(t[1..]) as int) else DigitsValue(t[1..]))
      else None
    else if |t| > 0 && AllDigits(t) then Some(DigitsValue(t))
    else None
  }

  /** `str(n)` for a natural number. */
  function NatToString(n: nat): (s: string)
    ensures |s| > 0 && AllDigits(s)
  {
    if n < 10 then [DigitChar(n)] else NatToString(n / 10) + [DigitChar(n % 10)]
  }

  /** `str(n)` */
  function IntToString(n: int): string {
    if n < 0 then "-" + NatToString(-n) else NatToString(n)
  }

  lemma {:induction false} DigitsOfNat(n: nat)
    ensures DigitsValue(NatToString(n)) == n
  {
    if n >= 10 {
      DigitsOfNat(n / 10);
      var s := NatToString(n);
      assert s[..|s| - 1] == NatToString(n / 10);
    }
  }

  /** A run of digits parses as its value. */
  lemma ParseIntOfDigits(d: string)
    requires |d| > 0 && AllDigits(d)
    ensures ParseInt(d) == Some(DigitsValue(d))
  {
    assert IsDigit(d[0]) && IsDigit(d[|d| - 1]);
    StripKeepsStripped(d);
  }

  /** Parsing the decimal text of any integer gives the integer back. */
  lemma ParseIntToString(n: int)
    ensures ParseInt(IntToString(n)) == Some(n)
  {
    if n < 0 {
      ParseIntToStringNeg(n);
    } else {
      DigitsOfNat(n);
      ParseIntOfDigits(NatToString(n));
    }
  }

  /** The sign-and-digits reading of `str(n)`, with no whitespace to strip, is `n`. */
  lemma ParseSignedToString(n: int)
    ensures ParseSigned(IntToString(n)) == Some(n)
  {
    if n < 0 {
      var d := NatToString(-n);
      DigitsOfNat(-n);
      NegDigitsSigned(d);
      assert IntToString(n) == "-" + d;
    } else {
      var d := NatToString(n);
      DigitsOfNat(n);
      assert IsDigit(d[0]);
    }
  }

  /** `ParseIntToString` for a negative integer: a minus sign, then the digits of `-n`. */
  lemma ParseIntToStringNeg(n: int)
    requires n < 0
    ensures ParseInt(IntToString(n)) == Some(n)
  {
    var d := NatToString(-n);
    DigitsOfNat(-n);
    NegDigitsStripped(d);
    NegDigitsSigned(d);
    assert IntToString(n) == "-" + d;
  }

  /** A minus sign followed by digits has no surrounding whitespace. */
  lemma NegDigitsStripped(d: string)
    requires |d| > 0 && AllDigits(d)
    ensures Strip("-" + d) == "-" + d
  {
    var s := "-" + d;
    assert IsDigit(d[|d| - 1]) && s[|s| - 1] == d[|d| - 1];
    StripKeepsStripped(s);
  }

  /** A minus sign followed by digits is the negated value of the digits. */
  lemma NegDigitsSigned(d: string)
    requires |d| > 0 && AllDigits(d)
    ensures ParseSigned("-" + d) == Some(-(DigitsValue(d) as int))
  {
    var s := "-" + d;
    assert s[1..] == d;
  }
}

=== FILE: wrappers.dfy ===
/** Failure-carrying datatypes shared by every module of the model. */
module Wrappers {

  /** An optional value: `None` where the source holds Python's `None`. */
  datatype Option<+T> = None | Some(value: T)

  /** The outcome of a step that may raise: `Err` carries the exception's kind. */
  datatype Result<+T, +E> = Ok(value: T) | Err(error: E)

  /** Runs the steps in order: all their values, or the error of the first step that fails. */
  function Collect<T, E>(rs: seq<Result<T, E>>): (r: Result<seq<T>, E>)
    ensures r.Ok? <==> forall i | 0 <= i < |rs| :: rs[i].Ok?
    ensures r.Ok? ==> |r.value| == |rs| && forall i | 0 <= i < |rs| :: rs[i] == Ok(r.value[i])
  {
    if |rs| == 0 then Ok([])
    else
      var tail := Collect(rs[1..]);
      assert forall i | 1 <= i < |rs| :: rs[i] == rs[1..][i - 1];
      match rs[0]
      case Err(e) => Err(e)
      case Ok(v) =>
        match tail
        case Err(e) => Err(e)
        case Ok(vs) => Ok([v] + vs)
  }

  /** The error `Collect` reports is that of the first failing step. */
  lemma {:induction false} CollectFirstError<T, E>(rs: seq<Result<T, E>>)
    requires Collect(rs).Err?
    ensures exists i | 0 <= i < |rs| :: rs[i] == Err(Collect(rs).error) && forall j | 0 <= j < i :: rs[j].Ok?
  {
    if rs[0].Ok? {
      var tail := rs[1..];
      CollectFirstError(tail);
      var i :| 0 <= i < |tail| && tail[i] == Err(Collect(tail).error) && forall j | 0 <= j < i :: tail[j].Ok?;
      assert forall j | 1 <= j <= i :: rs[j] == tail[j - 1];
      assert rs[i + 1] == Err(Collect(rs).error);
    }
  }
}
